=== FILE: README.md ===
# University chatbot agent: a Dafny model

This project models the decision logic of the `agent` application of a
Django chatbot for a university. The bot answers students' questions with
a hosted language model. It enriches each prompt with entries from an FAQ
knowledge base, logs every request, and keeps a one-hour de-duplicated
ledger of FAQ searches. Around that flow sit several helpers:

- keyword classifiers for mood, emotion, voice-command intent and text intent;
- colour naming and content typing for attachments;
- file-type dispatch, with a processor for each file family;
- a voice-message status machine;
- notification selection for announcements and event reminders.

Database tables are sequences of immutable records. The current time is a
parameter. Each Python operation is a pure Dafny function, or a method
where the source loops with an early exit. Each one has a contract that
states what the source promises, and lemmas connect operations to their
partners: an inverse, an invariant they keep, or a reference definition.

Modules follow the source files:

| module | file |
|---|---|
| `Common` | `Option`, bytes |
| `Text` | the Python string operations the bot relies on: `lower` (ASCII and Cyrillic), `strip`, `split()`, `split(c)`, `in`, slicing, `max(..., key=...)` |
| `Models` | `agent/models.py` |
| `Forms` | `agent/forms.py` |
| `Utils` | `agent/utils.py` |
| `Views` | `agent/views.py` |
| `EnhancedViews` | `agent/enhanced_views.py` |
| `Multimodal` | `agent/multimodal_utils.py` |
| `Voice` | `agent/voice_utils.py` |
| `FileProcessors` | `agent/file_processors.py` |
| `Analytics` | `agent/analytics.py` |

Outside inputs are parameters of the model:

- the HTTP outcome of the provider call;
- the speech-to-text result;
- the MIME type guessed from the file name;
- the colour histogram of an image;
- the parsed CSV rows;
- whether a notification is delivered;
- `needs_reminder()` of an event.

## Model

| member | source | states |
|---|---|---|
| Models.ParseCategory | agent/models.py:9-20 | The six stored category values are exactly the choices, and each reads back as its own category. Any other text names none. |
| Models.NewFAQEntry | agent/models.py:18-24 | An entry created with only question, answer and keywords is a `general`, active entry stamped with the creation time. |
| Models.SubsequenceKeepsNewestFirst | agent/models.py:26-29 | Any filtered or truncated selection of the newest-first FAQ table is still newest first. |
| Models.FAQEntryStr | agent/models.py:31-32 | The rendering is the category, ": ", the question cut to its first 50 characters, then "...". A short question appears whole, and still gets the dots. |
| Models.FAQEntryStrShowsQuestion | agent/models.py:31-32 | The text between ": " and the dots is a prefix of the question, of length min(50, its length). |
| Models.AppendKeepsOldestFirst | agent/models.py:69-70 | Storing a message stamped no earlier than all others keeps the message table oldest first. |
| Models.ChatMessageStr | agent/models.py:72-73 | The rendering is the type, ": ", the content cut to its first 50 characters, then "...". Content of 50 characters or fewer appears whole, and still gets the dots. |
| Models.ChatMessageStrShowsContent | agent/models.py:72-73 | The text between ": " and the dots is a prefix of the content, of length min(50, its length). |
| Models.NewRequestLog | agent/models.py:80-88 | A log created without `api_success` or `error_message` is successful with a blank error. |
| Models.PrependKeepsLogsNewestFirst | agent/models.py:93-94 | Adding a log stamped no earlier than all others keeps the log table newest first. |
| Forms.CleanCharField | agent/forms.py:7-16 | A missing value reads as "" and a present one is stripped. An empty value fails only a required field. A non-empty value is accepted iff it is within the maximum length and has no null character, and an over-long one reports its length. |
| Forms.CleanMessage | agent/forms.py:7-22 | A message is accepted iff its stripped form has 3 to 1000 characters and no null character. The accepted value is the stripped text. A blank message is "required", and 1 or 2 characters is "too short". |
| Forms.CleanMessageIdempotent | agent/forms.py:18-22 | Cleaning an accepted message again returns it unchanged. |
| Forms.CleanCategory | agent/forms.py:37-50 | The category accepts "" (all categories) or one of the six FAQ categories, and rejects anything else. |
| Forms.EveryCategoryIsAChoice | agent/forms.py:38-45 | Every FAQ category of the model is an accepted form choice. |
| Forms.CleanSearchForm | agent/forms.py:25-50 | The form is valid iff both optional fields clean. Its query is then stripped and at most 200 characters, and its category is "" or a FAQ category. An empty form is valid. |
| Utils.ResolveModelConfig | agent/utils.py:29-49 | An active model configuration is used as stored. Without one, the built-in Mistral-7B-Instruct model is used with 500 tokens, temperature 0.7, top-p 0.9 and repetition penalty 1.0. |
| Utils.DefaultRequest | agent/utils.py:42-67 | Without an active configuration or overrides, the request is exactly the built-in model with its five default settings, streaming off. |
| Utils.ActiveConfigurationIsSent | agent/utils.py:31-38 | Without overrides, the request carries each setting of the active configuration unchanged. |
| Utils.BuildPayload | agent/utils.py:59-67 | The payload carries the configured model and sampling values with streaming off. An override replaces `max_tokens` or `temperature` only when it is present and non-zero. |
| Utils.ZeroOverridesAreIgnored | agent/utils.py:62-63 | A request with zero overrides is the same request as one with none. |
| Utils.ClassifyResponse | agent/utils.py:79-112 | Only status 200 with a first choice succeeds, carrying that content and the total tokens (0 when absent). Another status fails with "API Error: <code> - <body>". A transport error, and a status-200 body that is not JSON, fail as "Request failed: " followed by the error. A 200 reply without choices is an uncaught error. |
| Utils.ApiErrorNamesStatus | agent/utils.py:95-96 | The status code can be read back from the digits that follow "API Error: ". |
| Utils.FilterEligible | agent/utils.py:126-140 | The kept rows are exactly the active rows of the chosen category that match the query, in table order. |
| Utils.SearchFaq | agent/utils.py:119-144 | A blank query finds nothing. Otherwise the result is the first min(limit, n) of the n eligible rows of `FilterEligible`, in table order: active, in the category when one is given, and holding the query case-insensitively in question, answer or keywords. |
| Utils.SearchKeepsNewestFirst | agent/utils.py:140 | On the newest-first table, search results come newest first. |
| Utils.KeywordCandidates | agent/utils.py:151-159 | The candidates number at most two per token. Each is an active stored entry matching some token longer than two characters. |
| Utils.FirstSeenSound | agent/utils.py:162-168 | De-duplication keeps distinct ids, none already seen, and each kept entry is the first input entry with its id. |
| Utils.FirstSeenComplete | agent/utils.py:162-168 | Every input id not already seen is kept. |
| Utils.CappedDedupe | agent/utils.py:162-171 | The capped de-duplication has distinct ids and at most max(1, cap) entries. Below the cap it holds every id of the input. |
| Utils.UniqueEntries | agent/utils.py:162-173 | The early-exit loop returns the first entries of the first-seen de-duplication, up to the cap. |
| Utils.ContextForAi | agent/utils.py:147-173 | The knowledge-base context has distinct ids in first-seen order, at most `max_entries` (at least one) of them. Each entry is active, stored, and matches a lower-cased token longer than two characters. |
| Utils.KbContext | agent/utils.py:198-202 | The context is empty without entries. Otherwise it is the header followed by one "Q: …\nA: …\n\n" block per entry, in order. |
| Utils.ComposeMessages | agent/utils.py:219-237 | The request is `[system, user]` without entries and `[system, context, user]` with them. The user's text is last, verbatim. |
| Utils.SessionOf | agent/utils.py:186-192 | A message is logged against a session only when the id is non-empty and names one. |
| Utils.LogFor | agent/utils.py:243-251 | A log is written iff the client did not raise. Its success flag mirrors the reply. The AI response is kept only on success and the error only on failure, both blank otherwise. Tokens are 0 unless the reply completed. |
| Utils.ProcessMessage | agent/utils.py:183-257 | The request starts with the system prompt and ends with the user's text. Its knowledge-base entries are exactly the first three distinct keyword matches of the lower-cased message (`get_context_for_ai`), and the log records their ids. The context message is present iff there are any. Exactly one log is written, unless the client raised, and its success flag mirrors the reply. The reply is returned unchanged. |
| Utils.SessionMessages | agent/utils.py:264 | The messages of one session are kept in table order. |
| Utils.SubsequenceKeepsOldestFirst | agent/utils.py:264 | Any selection of the oldest-first message table stays oldest first. |
| Utils.ChatHistory | agent/utils.py:259-267 | An unknown session gives nothing. Otherwise the result is the first min(limit, n) of the session's n messages, in table order. |
| Views.EnsureSession | agent/views.py:80-89 | For a non-empty id, a session with that id exists afterwards. The table is unchanged for an empty id or a known one. Otherwise exactly one session, stamped now, is added. |
| Views.AnswerMessage | agent/views.py:80-127 | The session table becomes the ensured one. The user's message is stored, with the next id, only with a session; on success the reply follows it, with the next id and the reply's time, tokens and model. Ids advance by the number of messages stored, and earlier rows are kept. Exactly one log is added unless the client raised. Success answers with the message, failure with 500 and the error, and an uncaught error with 500 "Internal server error". Table orders are kept. |
| Views.RecordTurn | agent/views.py:91-127 | For any reply and its log, the writes of one turn: the user message, the reply on success, the log unless the client raised, ids advanced by the messages stored, and the response mapped from the reply. |
| Views.ChatApiPost | agent/views.py:59-139 | Invalid JSON, an empty stripped message, or one over 1000 characters answers 400; a non-object body answers 500. A rejected request changes nothing. An accepted one answers 200 iff the reply succeeded. |
| Views.DetectQueryLanguage | agent/views.py:184-189 | The language is 'en' iff the raw query has a lower-case ASCII letter and its lower-cased form contains one of the five English words. Otherwise it is 'ru'. |
| Views.EnglishWordAtMakesEnglish | agent/views.py:184-189 | Any query that contains one of the five English words, written in lower case, at any position, is taken for English. |
| Views.UpperCaseQueryIsRussian | agent/views.py:185-189 | "EXAM" is taken for Russian while "exam" is English, because only a lower-case letter opens the English check. |
| Views.LogSearchQuery | agent/views.py:196-214 | A new row is added iff no row with the same query and session was created in the last hour. The new row has no results recorded and is not marked for the knowledge base. |
| Views.RepeatWithinHourLogsOnce | agent/views.py:200-214 | Logging the same query from the same session again within the hour adds nothing. |
| Views.LogKeepsSpacing | agent/views.py:200-214 | Rows of one query and session stay more than an hour apart. |
| Views.MostRecentIndex | agent/views.py:221 | A row is chosen iff some row has the query. It has the latest creation time among such rows, from any session. |
| Views.UpdateSearchResults | agent/views.py:216-230 | Only that row changes. `results_found` records whether entries were found, and the row is marked for the knowledge base when none were. With no such row nothing changes. |
| Views.UpdateKeepsLedger | agent/views.py:221-230 | Recording results keeps every row's key and time, so the one-hour spacing is kept. |
| Views.FaqGet | agent/views.py:145-177 | An invalid form, or one with neither query nor category, returns nothing and changes nothing. Otherwise the search with limit 20 is returned. The query then counts as logged within the hour, and the ledger grows by at most one row. |
| Views.FaqGetKeepsSpacing | agent/views.py:151-163 | A FAQ request keeps the ledger's one-hour spacing. |
| Views.CategoryOnlySearchFindsNothing | agent/views.py:152-163 | A category with an empty query returns no entries. The empty query is still logged and marked for the knowledge base. |
| Views.ChatHistoryGet | agent/views.py:236-270 | No id answers 400 and an unknown session 404. Otherwise the first min(50, n) of the session's n messages are returned, in table order. |
| Views.HistoryKeepsOldest | agent/views.py:248-249 | Every returned message is no later than any message of the session that was left out. |
| EnhancedViews.DetectMood | agent/enhanced_views.py:481-507 | The winning mood has the most indicator hits. Every earlier mood in happy, sad, angry, excited, confused, frustrated order has strictly fewer. No hits at all gives neutral. |
| EnhancedViews.NeutralMeansNoIndicator | agent/enhanced_views.py:494-507 | Mood is neutral iff no indicator of any mood occurs in the lower-cased text. |
| EnhancedViews.MoodKeywords | agent/enhanced_views.py:536-546 | The result is the first min(5, n) of the n listed mood words present in the lower-cased text, in list order. |
| EnhancedViews.UserContents | agent/enhanced_views.py:632-634 | Exactly the user messages' contents are collected. |
| EnhancedViews.UserContentsAppend | agent/enhanced_views.py:632-634 | Collecting over two runs of messages is collecting over each and concatenating, so contents keep message order and multiplicity. |
| EnhancedViews.UserContentsOfOne | agent/enhanced_views.py:632-634 | One message contributes its content iff it is a user message. |
| EnhancedViews.GenerateSummary | agent/enhanced_views.py:628-649 | With no user message the summary is the fixed sentence. The opening quotes the first user message. The middle part appears only with more than two user messages, and the closing only with more than one. |
| EnhancedViews.SummaryIgnoresOtherMessages | agent/enhanced_views.py:628-649 | Inserting a message that is not the user's anywhere leaves the summary unchanged. |
| EnhancedViews.KeyTopics | agent/enhanced_views.py:651-663 | The result is the first min(5, n) of the n listed topics occurring in the joined lower-cased messages, in list order. |
| EnhancedViews.MentionedTopicIsFound | agent/enhanced_views.py:655-663 | A topic mentioned in any single message is found, unless more than five topics compete. |
| EnhancedViews.OneSourcePerPhrase | agent/enhanced_views.py:669-684 | A message yields one candidate item per action phrase it contains. |
| EnhancedViews.ActionItems | agent/enhanced_views.py:665-686 | The result has min(3, n) items, n being the (message, phrase) candidates in order. Each item is the stripped first '.'-separated sentence of its message that holds its phrase. |
| EnhancedViews.FirstMessageLeads | agent/enhanced_views.py:669-686 | The first message alone guarantees min(3, its phrase count) items. |
| EnhancedViews.UploadFile | agent/enhanced_views.py:141-203 | A missing session id or file is refused, as is a file over 10·1024·1024 bytes, before any record is created. Otherwise only this session is ensured (`get_or_create`), the other tables stay as they were, and one "📎 Прикреплен файл: " message is stored under the next id. Its attachment has the content-detected kind, the size, and the given type or the default one. |
| EnhancedViews.UploadKeepsTables | agent/enhanced_views.py:185-192 | An accepted upload keeps the message table oldest first and stamped by now, and uses exactly one new message id. |
| EnhancedViews.VoiceMessage | agent/enhanced_views.py:68-73 | The stored voice message carries the placeholder text and the 'voice' type, which is outside the declared message types. |
| EnhancedViews.CreateProject | agent/enhanced_views.py:310-358 | A project is refused iff its stripped name is empty. Otherwise name, description and prompt are stripped. Absent fields take the defaults 'general', '#0D1B2A' and 'fas fa-folder', and given ones are kept. |
| EnhancedViews.ResubmittedProjectIsTheSame | agent/enhanced_views.py:316-327 | Submitting a created project's fields again creates the same project. |
| Multimodal.KindFromMagic | agent/multimodal_utils.py:34-47 | The JPEG, PNG and GIF signatures give 'image'. Otherwise the PDF and ZIP signatures give 'document'. Anything else gives 'unknown'. |
| Multimodal.KindFromMime | agent/multimodal_utils.py:50-62 | The image/, audio/ and video/ prefixes, tried in that order, and then the six document types decide the label. Anything else is 'unknown'. |
| Multimodal.DetectContentType | agent/multimodal_utils.py:19-62 | With no (or an empty) guessed type the signatures decide; otherwise the type does. |
| Multimodal.SignaturesExclusive | agent/multimodal_utils.py:34-47 | No content starts with two signatures, so their order never matters. |
| Multimodal.RgbToColorName | agent/multimodal_utils.py:303-333 | Each name holds iff its region, rules tried in order: white, black, a strictly dominant channel (dark at 150 or below), then yellow (red and green above 150), pink (red and blue), light blue (green and blue), and grey for the rest. |
| Multimodal.GreyIsTheRest | agent/multimodal_utils.py:303-333 | Grey holds exactly when no earlier rule applies. |
| Multimodal.InsertByCount | agent/multimodal_utils.py:287-290 | Insertion into the count order adds exactly the new bin. |
| Multimodal.SortByCountSorted | agent/multimodal_utils.py:287-290 | Sorting bins by count, largest first, yields a permutation of the bins in count order. |
| Multimodal.InsertByCountStable | agent/multimodal_utils.py:287 | An inserted bin goes first among the bins of its count; the bins of every count keep their order. |
| Multimodal.SortByCountStable | agent/multimodal_utils.py:287 | The sort is stable, as Python's is with `reverse=True`: the bins of each count keep their histogram order, which decides ties at the `num_colors` cut-off. |
| Multimodal.TopBinsOutnumberTheRest | agent/multimodal_utils.py:287-291 | Every bin inside the top `num_colors` has a count no smaller than any bin outside it. |
| Multimodal.DominantColors | agent/multimodal_utils.py:270-301 | Names are distinct and at most `num_colors` of them. They are exactly the names of the top bins by count, each at its first appearance in that order, so the most frequent bin's name comes first. No histogram gives none. |
| Multimodal.DetectTextIntent | agent/multimodal_utils.py:459-476 | The intent is the first of question, request, greeting, gratitude, complaint with a keyword in the lower-cased text, else 'statement'. |
| Multimodal.CombineContext | agent/multimodal_utils.py:504-518 | The context begins with "Пользователь написал: " + text. It is exactly that when no analysis succeeded. |
| Multimodal.CombineContextSnoc | agent/multimodal_utils.py:507-518 | One more analysis appends its parts, numbered by its position, to the context; a failed one changes nothing. |
| Multimodal.GenerateSuggestions | agent/multimodal_utils.py:520-540 | The result is the first min(3, n) of the intent's lead suggestion followed by each analysis's suggestions in order. It is empty iff there is no lead and no analysis suggests anything. |
| Multimodal.AttachmentSuggestionsAppend | agent/multimodal_utils.py:533-538 | The suggestions for two runs of analyses are those of each, concatenated. |
| Multimodal.LineCount | agent/multimodal_utils.py:631 | The number of lines is zero only for the empty text. |
| Multimodal.SplitLinesAgreesWithSplit | agent/multimodal_utils.py:631 | For text whose only line breaks are '\n' and which does not end in one, the lines counted are the '\n'-separated pieces. |
| Multimodal.ProcessCsv | agent/multimodal_utils.py:653-695 | Empty input is reported as an empty CSV. Otherwise the first row is the header and the rest are data rows, with the first three of them as the sample. |
| Multimodal.ProcessDocument | agent/multimodal_utils.py:555-589 | Any type other than pdf, docx, txt, xlsx or csv fails, naming the type. Text yields its length, words and lines, and CSV its header and rows. |
| Voice.ProcessVoiceMessage | agent/voice_utils.py:22-93 | Without audio the call fails and the status stays 'processing'. Over 300 s the record only turns 'failed' with "Audio too long". A transcription completes the record with its text, confidence (default 0.8), language (default 'ru'), the keyword emotion of the text, and "🎤 " + text. A failed one only sets 'failed' and the service's error (default "Transcription failed"). The error is returned exactly when the record fails. |
| Voice.StatusTransitions | agent/voice_utils.py:33-71 | The status is only ever processing, completed or failed. Completed needs audio and a transcription, and failed needs audio. |
| Voice.DetectEmotion | agent/voice_utils.py:133-168 | Empty text or no hits gives neutral. Otherwise the emotion with most hits wins, with ties going to the first in dict order. |
| Voice.AudioDuration | agent/voice_utils.py:201-229 | The estimate is the size (1000 when absent) over 1024, clamped into [1, 300] seconds: exactly the ratio inside, 1 below and 300 above. |
| Voice.AudioDurationMonotone | agent/voice_utils.py:219-225 | A larger file never gets a shorter estimate. |
| Voice.TranscriptionConfidence | agent/voice_utils.py:114-116 | The confidence is the size (1000 when absent) over 10000, clamped into [0.6, 0.95]: exactly the ratio inside, 0.6 below and 0.95 above. |
| Voice.EstimatedDurationIsNeverTooLong | agent/voice_utils.py:45-52 | A record whose duration came from the estimate is never refused as too long. |
| Voice.ValidateAudioFile | agent/voice_utils.py:253-295 | Over 10 MiB is invalid. Otherwise a file is valid iff its extension is one of the five formats, which is echoed back. |
| Voice.ValidAudioNameEndsWithFormat | agent/voice_utils.py:274-288 | A valid name ends in "." followed by its reported format. |
| Voice.ShareIsCountOverFour | agent/voice_utils.py:302-308 | Each command has four keywords, so its score is hits / 4. |
| Voice.DetectIntent | agent/voice_utils.py:310-346 | Empty text gives ('unknown', 0) and no hits gives ('general', 0.5). Otherwise the command with most hits wins, with ties to the first. Its confidence is hits / 4, in (0, 1]. |
| FileProcessors.ProcessorFor | agent/file_processors.py:518-524 | A manager key names exactly the processor whose key it is. |
| FileProcessors.GetFileType | agent/file_processors.py:526-534 | The result is 'other' iff no processor claims the extension. Otherwise it is the key of the first of image, document, spreadsheet, pdf that claims it. |
| FileProcessors.ClaimsAreDisjoint | agent/file_processors.py:56 | No extension is claimed by two processors. |
| FileProcessors.FileTypeOfClaimed | agent/file_processors.py:526-534 | A name whose extension a processor claims gets that processor's type. |
| FileProcessors.RouteDocument | agent/file_processors.py:171-197 | Only docx and txt are read. Every other extension is refused by name. |
| FileProcessors.RouteSpreadsheet | agent/file_processors.py:314-340 | xlsx and xls go to the Excel reader and csv to the CSV reader. Every other extension is refused by name. |
| FileProcessors.ProcessFile | agent/file_processors.py:536-561 | 'other', and a type with no processor, are refused without running a processor. Every other type is processed by its own processor. |
| FileProcessors.BasenameKeepsLastSegment | agent/file_processors.py:539-540 | When the base name holds a '.', its extension is the whole path's. |
| FileProcessors.HandledFilesAreClaimed | agent/file_processors.py:536-561 | A file that gets read is in a format its processor claims. |
| FileProcessors.DocIsClaimedButRefused | agent/file_processors.py:174-187 | A '.doc' file is typed 'document' and then refused. |
| FileProcessors.OdsIsClaimedButRefused | agent/file_processors.py:317-330 | A '.ods' file is typed 'spreadsheet' and then refused. |
| FileProcessors.ProcessTxtWithContent | agent/file_processors.py:285-304 | The line count is the number of '\n' plus one. Words are the whitespace tokens and characters the length. |
| FileProcessors.GenerateImageSummary | agent/file_processors.py:149-161 | A dark note takes precedence over a bright one. The 100-character text preview is added only when the text is longer than 10 characters. |
| FileProcessors.FallbackMimeType | agent/file_processors.py:570-578 | The generic binary type is returned exactly for the extensions outside the map of eight. |
| FileProcessors.FallbackMimeMatchesFileType | agent/file_processors.py:570-578 | For a name with a '.', a non-generic fallback type belongs to the family of the processor that `get_file_type` picks. |
| Analytics.TargetProfiles | agent/analytics.py:336-354 | The recipients are the profiles with announcements on that every non-empty target list admits, each as many times as in the input. |
| Analytics.TargetProfilesAppend | agent/analytics.py:336-354 | Targeting distributes over concatenation, so the recipients keep the profiles' order. |
| Analytics.UntargetedReachesAllSubscribers | agent/analytics.py:342-352 | Empty target lists impose nothing: every subscriber is reached, in order. |
| Analytics.ProcessScheduled | agent/analytics.py:262-283 | Due and delivered notifications are marked sent with their audience size, and nothing else changes. The count is the number newly sent. |
| Analytics.NoNotificationSentTwice | agent/analytics.py:267-281 | Over two runs, no more notifications are sent than were due. |
| Analytics.ReminderFor | agent/analytics.py:320-334 | A reminder is an active, unsent, medium-priority notification for the event's faculties and courses. |
| Analytics.ProcessEventReminders | agent/analytics.py:285-301 | Each selected event gets a reminder notification, delivered or not, and every created notification is the reminder of a selected event. An event is marked only on delivery, and the count is the number newly marked. |
| Analytics.RemindersAreNotRepeated | agent/analytics.py:287-299 | A second run creates reminders only for the events whose first reminder failed. |
| Analytics.HourlyActivity | agent/analytics.py:188-201 | There are 24 slots, slot i being hour i. Each holds the first record of that hour, or 0. |
| Analytics.ErrorRate | agent/analytics.py:132-145 | The rate is 0 with no requests, always within [0, 100]. It is 0 iff none failed and 100 iff all failed. |
| Analytics.DashboardPeriodLength | agent/analytics.py:147-150 | The dashboard period spans exactly `days` days and ends today. |

## Left out

**The system**
- Content moderation and automatic knowledge-base growth are not modelled. No file of the `agent` application implements them.

**Plumbing and I/O**
- ORM queries, sessions, JSON responses, CSRF decorators, admin, URL routing and migrations are not modelled: they are Django plumbing. Tables are sequences and time is a parameter.
- `ChatView.get`, `AnalyticsView`, `SystemStatusView`, `ProjectAPIView.get` and `ChatHistorySearchView` are page and listing endpoints with no decision logic beyond the ORM. They are not modelled.
- The view wrappers of mood detection and conversation summary are not modelled; their helpers are (`DetectMood`, `MoodKeywords`, `GenerateSummary`, `KeyTopics`, `ActionItems`).
- The `requests.post` call and response timing are not modelled. The HTTP outcome and the elapsed time are inputs.

**Foreign libraries**
- PIL, OpenCV, numpy, pandas, python-docx, PyPDF2, python-magic, `mimetypes` and the csv reader are not modelled. Their outputs are inputs: guessed MIME type, colour histogram, parsed rows, decoded text.
- Speech-to-text, text-to-speech and OCR are stubs returning fixed placeholders. Only their outcome enters the model, as `Transcription`.
- Entity extraction (`_extract_entities`) is not modelled. It depends on the `\b` semantics of Python's `re`.

**Arithmetic and text**
- Mood confidence, image brightness and aspect heuristics, and average response times are floating-point heuristics and are not modelled. Clamp bounds and percentages are modelled over `real`, not IEEE doubles.
- Utils.MatchesQuery: `icontains` runs in the database (agent/utils.py:133-135), so its case folding depends on the backend; SQLite's LIKE folds ASCII letters only. The model assumes a backend that also folds Cyrillic, as `Text.Lower` does.
- Text.Lower: lower-cases ASCII and Cyrillic U+0400..U+042F only. Python's full Unicode `lower()` is library behaviour; every keyword the bot matches is within those alphabets.

**Inferred or abstracted records**
- Analytics: the records it reads (notifications, profiles, events, metrics, request status codes) are not declared in `agent/models.py`; their shapes are inferred from the fields the code uses. `RequestLog` there has no `status_code`, so the error-rate query would fail as written; the model gives each request a status.
- Analytics.ProcessScheduled: delivery is a parameter. `_send_notification` (agent/analytics.py:303-318) refers to `UserNotification`, which is never imported, but only inside its loop over the target profiles. As written, a notification that reaches no profile is sent without error and marked sent with `sent_count` 0. One that reaches a profile raises `NameError`, which nothing in `process_scheduled_notifications` catches, so the run stops at that notification. The same holds for event reminders.
- Analytics.ReminderFor: the notification's default `scheduled_for` is unknown and taken as the creation time. The start time is given pre-formatted.
- `SearchQuery` is not declared in `agent/models.py`, yet `agent/views.py:181` and `agent/views.py:218` import it, so as written both search-logging paths would raise. Its shape is inferred from its uses.
- `agent/enhanced_views.py:21-24` imports `ChatProject`, `VoiceMessage`, `MessageAttachment`, `UserMood`, `ConversationSummary` and `UserProfile`, none of which `agent/models.py` declares. Their shapes are inferred from their uses.
- Views.MostRecentIndex: among rows with the same latest `created_at`, the last in table order is chosen; `.first()` after ordering on `-created_at` alone leaves that tie unspecified.
- Analytics.HourlyActivity: records come in table order. `first()` after an order on hour alone picks an unspecified row among ties; the model takes the first.
- `AnalyticsManager` daily and hourly collection, user insights and popular searches are aggregate ORM counts with no decision logic, and are not modelled.

**Exceptions and edge cases**
- Exceptions caught by the views' broad `except Exception` clauses are not modelled, except two: the provider reply without choices, modelled as `Raised`, and a JSON body that is not an object, which `Views.ChatApiPost` answers with status 500 as the `AttributeError` path does. They include database errors and unreadable files.
- EnhancedViews.UploadFile: the optional `project_id` link (`agent/enhanced_views.py:171-178`) is not modelled, because the project table is not part of the chat store. The image-analysis branch (`agent/enhanced_views.py:205-245`) is not modelled either. It calls `ChatManager.generate_response`, which `ChatManager` does not define, and the image analysis is a foreign library.
- EnhancedViews.CreateProject: fields that arrive as JSON non-strings or `null` are outside the model. Every field is an optional string.
- Voice.ProcessVoiceMessage: the reply text of `VoiceAPIView` comes from the language model and is not modelled.
- FileProcessors.FallbackMimeType: the libmagic path is not modelled; only the extension map is.

**Where the model follows the code, not the comments**
- The chat history endpoint returns the 50 oldest messages of a session, although its comment says "last 50"; the table is ordered oldest first.
- A status-200 body that is not JSON fails as "Request failed: …", because from `requests` 2.27 on the JSON decode error is a `RequestException`. Earlier versions raise a plain `ValueError`, which escapes `send_message` the way a reply without choices does.
- `_rgb_to_color_name` has 12 names, counting the three dark variants, not 10.
- An empty CSV reports no sample key.

=== FILE: analytics.dfy ===
/** agent/analytics.py: which notifications and event reminders go out,
    who receives a notification, the 24-slot hourly activity table, the
    daily error rate and the dashboard period. The records it reads are
    not declared in agent/models.py; their shapes here are the fields the
    analytics code uses. Delivery and `needs_reminder` are parameters. */
module Analytics {
  import opened Common

  // ---------------------------------------------------------------------
  // Records

  datatype Notification = Notification(
    title: string,
    message: string,
    kind: string,
    priority: string,
    isActive: bool,
    isSent: bool,
    scheduledFor: int,
    expiresAt: Option<int>,
    targetRoles: seq<string>,
    targetFaculties: seq<string>,
    targetCourses: seq<int>,
    sentCount: nat)

  datatype Profile = Profile(role: string, faculty: string, courseYear: Option<int>, systemAnnouncements: bool)

  datatype Event = Event(
    title: string,
    startDisplay: string,  // the start time as "%d.%m.%Y в %H:%M" renders it
    isActive: bool,
    isCancelled: bool,
    reminderSent: bool,
    targetFaculties: seq<string>,
    targetCourses: seq<int>)

  // ---------------------------------------------------------------------
  // Audience

  /** A target list admits a value when it is empty or holds the value. */
  predicate Admits<T(==)>(allowed: seq<T>, v: T) {
    |allowed| == 0 || v in allowed
  }

  /** A profile receives a notification when it takes announcements and
      every non-empty target list of the notification admits it; a
      profile without a course year is admitted only when no course is
      targeted. */
  predicate IsTarget(p: Profile, n: Notification) {
    && p.systemAnnouncements
    && Admits(n.targetRoles, p.role)
    && Admits(n.targetFaculties, p.faculty)
    && (|n.targetCourses| == 0 || (p.courseYear.Some? && p.courseYear.value in n.targetCourses))
  }

  /** `_get_target_profiles`: the profiles a notification reaches, in the
      profiles' order. */
  function TargetProfiles(profiles: seq<Profile>, n: Notification): (r: seq<Profile>)
    ensures |r| <= |profiles|
    ensures forall p :: p in r <==> p in profiles && IsTarget(p, n)
    ensures forall p :: multiset(r)[p] == if IsTarget(p, n) then multiset(profiles)[p] else 0
  {
    if |profiles| == 0 then []
    else
      var rest := TargetProfiles(profiles[1..], n);
      assert profiles == [profiles[0]] + profiles[1..];
      assert multiset(profiles) == multiset{profiles[0]} + multiset(profiles[1..]);
      if IsTarget(profiles[0], n) then [profiles[0]] + rest
      else rest
  }

  /** Concatenation regroups freely; stated apart from the profile facts. */
  lemma ConcatAssoc<T>(h: seq<T>, a: seq<T>, b: seq<T>)
    ensures h + (a + b) == (h + a) + b
  {
  }

  /** One step of `TargetProfiles`: the head, when targeted, then the rest. */
  lemma TargetProfilesStep(profiles: seq<Profile>, n: Notification)
    requires |profiles| > 0
    ensures TargetProfiles(profiles, n) == (if IsTarget(profiles[0], n) then [profiles[0]] else []) + TargetProfiles(profiles[1..], n)
  {
    var rest := TargetProfiles(profiles[1..], n);
    if !IsTarget(profiles[0], n) {
      assert [] + rest == rest;
    }
  }

  /** Targeting distributes over concatenation, so each profile keeps its
      place: the reached profiles are those of the first part, in order,
      followed by those of the second part. */
  lemma {:induction false} TargetProfilesAppend(xs: seq<Profile>, ys: seq<Profile>, n: Notification)
    ensures TargetProfiles(xs + ys, n) == TargetProfiles(xs, n) + TargetProfiles(ys, n)
    decreases |xs|
  {
    if |xs| == 0 {
      assert xs + ys == ys;
    } else {
      var zs := xs + ys;
      assert zs[0] == xs[0] && zs[1..] == xs[1..] + ys;
      TargetProfilesAppend(xs[1..], ys, n);
      TargetProfilesStep(zs, n);
      TargetProfilesStep(xs, n);
      var h := if IsTarget(xs[0], n) then [xs[0]] else [];
      var a, b := TargetProfiles(xs[1..], n), TargetProfiles(ys, n);
      assert TargetProfiles(zs, n) == h + (a + b);
      ConcatAssoc(h, a, b);
    }
  }

  /** The profiles that take announcements. */
  function Subscribers(profiles: seq<Profile>): seq<Profile> {
    if |profiles| == 0 then []
    else if profiles[0].systemAnnouncements then [profiles[0]] + Subscribers(profiles[1..])
    else Subscribers(profiles[1..])
  }

  /** A notification with no target lists reaches every subscriber, in
      order: an empty list imposes nothing. */
  lemma {:induction false} UntargetedReachesAllSubscribers(profiles: seq<Profile>, n: Notification)
    requires |n.targetRoles| == 0 && |n.targetFaculties| == 0 && |n.targetCourses| == 0
    ensures TargetProfiles(profiles, n) == Subscribers(profiles)
    decreases |profiles|
  {
    if |profiles| > 0 {
      UntargetedReachesAllSubscribers(profiles[1..], n);
    }
  }

  // ---------------------------------------------------------------------
  // Scheduled notifications

  /** The due filter: active, not yet sent, scheduled no later than now,
      and not expired; a notification without an expiry never expires. */
  predicate IsDue(n: Notification, now: int) {
    && n.isActive
    && !n.isSent
    && n.scheduledFor <= now
    && !(n.expiresAt.Some? && n.expiresAt.value < now)
  }

  /** A due notification whose delivery succeeds. */
  predicate Delivers(n: Notification, now: int, delivered: Notification -> bool) {
    IsDue(n, now) && delivered(n)
  }

  /** The record of a delivered notification: sent, counting its
      audience. */
  function MarkSent(n: Notification, profiles: seq<Profile>): Notification {
    n.(isSent := true, sentCount := |TargetProfiles(profiles, n)|)
  }

  /** The number of notifications already sent. */
  function SentNotifications(ns: seq<Notification>): nat {
    if |ns| == 0 then 0 else (if ns[0].isSent then 1 else 0) + SentNotifications(ns[1..])
  }

  /** The number of notifications due at `now`. */
  function DueCount(ns: seq<Notification>, now: int): nat {
    if |ns| == 0 then 0 else (if IsDue(ns[0], now) then 1 else 0) + DueCount(ns[1..], now)
  }

  /** `process_scheduled_notifications`: every due notification that is
      delivered is marked sent with its audience size; every other
      notification is left as it was; the returned count is the number of
      notifications that became sent. */
  function ProcessScheduled(ns: seq<Notification>, profiles: seq<Profile>, now: int, delivered: Notification -> bool): (r: (seq<Notification>, nat))
    ensures |r.0| == |ns|
    ensures forall i :: 0 <= i < |ns| && Delivers(ns[i], now, delivered) ==> r.0[i] == MarkSent(ns[i], profiles)
    ensures forall i :: 0 <= i < |ns| && !Delivers(ns[i], now, delivered) ==> r.0[i] == ns[i]
    ensures r.1 == SentNotifications(r.0) - SentNotifications(ns)
    ensures r.1 <= DueCount(ns, now)
    decreases |ns|
  {
    if |ns| == 0 then ([], 0)
    else
      var rest := ProcessScheduled(ns[1..], profiles, now, delivered);
      var n := ns[0];
      var out := if Delivers(n, now, delivered) then MarkSent(n, profiles) else n;
      assert ([out] + rest.0)[1..] == rest.0;
      ([out] + rest.0, (if Delivers(n, now, delivered) then 1 else 0) + rest.1)
  }

  /** Nothing is sent twice: over two runs at the same time, whatever the
      deliveries, no more notifications are sent than were due before the
      first. */
  lemma {:induction false} NoNotificationSentTwice(ns: seq<Notification>, profiles: seq<Profile>, now: int, first: Notification -> bool, second: Notification -> bool)
    ensures var once := ProcessScheduled(ns, profiles, now, first);
      once.1 + ProcessScheduled(once.0, profiles, now, second).1 <= DueCount(ns, now)
    decreases |ns|
  {
    if |ns| > 0 {
      var once := ProcessScheduled(ns, profiles, now, first);
      var rest := ProcessScheduled(ns[1..], profiles, now, first);
      NoNotificationSentTwice(ns[1..], profiles, now, first, second);
      assert once.0[1..] == rest.0;
      assert once.0[0] == (if Delivers(ns[0], now, first) then MarkSent(ns[0], profiles) else ns[0]);
    }
  }

  // ---------------------------------------------------------------------
  // Event reminders

  /** The event filter: active, not cancelled, no reminder sent yet, and
      `needs_reminder()` holds. */
  predicate NeedsReminder(e: Event, needsReminder: Event -> bool) {
    e.isActive && !e.isCancelled && !e.reminderSent && needsReminder(e)
  }

  /** The notification `_send_event_reminder` creates: a medium-priority
      reminder for the event's faculties and courses, with no role
      target. */
  function ReminderFor(e: Event, now: int): (n: Notification)
    ensures n.kind == "reminder" && n.priority == "medium"
    ensures n.isActive && !n.isSent && n.targetRoles == []
    ensures n.targetFaculties == e.targetFaculties && n.targetCourses == e.targetCourses
  {
    Notification(
      "Напоминание: " + e.title,
      "Событие '" + e.title + "' состоится " + e.startDisplay,
      "reminder", "medium", true, false, now, None,
      [], e.targetFaculties, e.targetCourses, 0)
  }

  datatype Reminders = Reminders(events: seq<Event>, created: seq<Notification>, sent: nat)

  /** The number of events whose reminder has gone out. */
  function RemindedEvents(es: seq<Event>): nat {
    if |es| == 0 then 0 else (if es[0].reminderSent then 1 else 0) + RemindedEvents(es[1..])
  }

  /** The number of events the filter selects. */
  function PendingEvents(es: seq<Event>, needsReminder: Event -> bool): nat {
    if |es| == 0 then 0 else (if NeedsReminder(es[0], needsReminder) then 1 else 0) + PendingEvents(es[1..], needsReminder)
  }

  /** `process_event_reminders`: one reminder notification is created for
      each selected event, delivered or not; an event is marked only when
      its reminder is delivered, and nothing else changes; the count is
      the number of events newly marked. */
  function ProcessEventReminders(es: seq<Event>, now: int, needsReminder: Event -> bool, delivered: Notification -> bool): (r: Reminders)
    ensures |r.events| == |es|
    ensures forall i :: 0 <= i < |es| ==>
      r.events[i] == (if NeedsReminder(es[i], needsReminder) && delivered(ReminderFor(es[i], now))
                      then es[i].(reminderSent := true) else es[i])
    ensures |r.created| == PendingEvents(es, needsReminder)
    ensures forall n :: n in r.created ==> exists e :: e in es && NeedsReminder(e, needsReminder) && n == ReminderFor(e, now)
    ensures forall e :: e in es && NeedsReminder(e, needsReminder) ==> ReminderFor(e, now) in r.created
    ensures r.sent == RemindedEvents(r.events) - RemindedEvents(es)
    decreases |es|
  {
    if |es| == 0 then Reminders([], [], 0)
    else
      var rest := ProcessEventReminders(es[1..], now, needsReminder, delivered);
      var e := es[0];
      if NeedsReminder(e, needsReminder) then
        var n := ReminderFor(e, now);
        var out := if delivered(n) then e.(reminderSent := true) else e;
        assert ([out] + rest.events)[1..] == rest.events;
        Reminders([out] + rest.events, [n] + rest.created, (if delivered(n) then 1 else 0) + rest.sent)
      else
        assert ([e] + rest.events)[1..] == rest.events;
        Reminders([e] + rest.events, rest.created, rest.sent)
  }

  /** A reminder goes out once: a second run at the same time creates a
      reminder exactly for the selected events whose first reminder was
      not delivered. */
  lemma {:induction false} RemindersAreNotRepeated(es: seq<Event>, now: int, needsReminder: Event -> bool, first: Notification -> bool, second: Notification -> bool)
    ensures var once := ProcessEventReminders(es, now, needsReminder, first);
      |ProcessEventReminders(once.events, now, needsReminder, second).created| == |once.created| - once.sent
    decreases |es|
  {
    if |es| > 0 {
      var once := ProcessEventReminders(es, now, needsReminder, first);
      var rest := ProcessEventReminders(es[1..], now, needsReminder, first);
      RemindersAreNotRepeated(es[1..], now, needsReminder, first, second);
      assert once.events[1..] == rest.events;
    }
  }

  // ---------------------------------------------------------------------
  // Dashboard

  datatype MetricRecord = MetricRecord(metricType: string, date: int, hour: Option<int>, value: real)

  /** A record of today's message count for hour `h`. */
  predicate InHour(rec: MetricRecord, today: int, h: int) {
    rec.metricType == "message_count" && rec.date == today && rec.hour == Some(h)
  }

  /** The position of the first record for hour `h`, or `|records|`. */
  function FirstInHour(records: seq<MetricRecord>, today: int, h: int): (k: nat)
    ensures k <= |records|
    ensures k < |records| ==> InHour(records[k], today, h)
    ensures forall j :: 0 <= j < k ==> !InHour(records[j], today, h)
    decreases |records|
  {
    if |records| == 0 then 0
    else if InHour(records[0], today, h) then 0
    else 1 + FirstInHour(records[1..], today, h)
  }

  datatype HourSlot = HourSlot(hour: nat, messages: real)

  /** The hourly activity table of `get_dashboard_data`: one slot per hour
      0..23, in order, holding the first record for that hour or 0. */
  function HourlyActivity(records: seq<MetricRecord>, today: int): (r: seq<HourSlot>)
    ensures |r| == 24
    ensures forall h :: 0 <= h < 24 ==> r[h].hour == h
    ensures forall h :: 0 <= h < 24 && (forall k :: 0 <= k < |records| ==> !InHour(records[k], today, h)) ==> r[h].messages == 0.0
    ensures forall h, k ::
      (0 <= h < 24 && 0 <= k < |records| && InHour(records[k], today, h)
       && forall j :: 0 <= j < k ==> !InHour(records[j], today, h)) ==> r[h].messages == records[k].value
  {
    seq(24, h requires 0 <= h < 24 =>
      var k := FirstInHour(records, today, h);
      HourSlot(h, if k < |records| then records[k].value else 0.0))
  }

  datatype RequestRecord = RequestRecord(timestamp: int, statusCode: int)

  /** The number of requests since `start`. */
  function RequestsSince(logs: seq<RequestRecord>, start: int): nat {
    if |logs| == 0 then 0 else (if logs[0].timestamp >= start then 1 else 0) + RequestsSince(logs[1..], start)
  }

  /** The number of requests since `start` answered with 400 or above. */
  function FailedSince(logs: seq<RequestRecord>, start: int): nat {
    if |logs| == 0 then 0
    else (if logs[0].timestamp >= start && logs[0].statusCode >= 400 then 1 else 0) + FailedSince(logs[1..], start)
  }

  lemma {:induction false} FailedAtMostRequests(logs: seq<RequestRecord>, start: int)
    ensures FailedSince(logs, start) <= RequestsSince(logs, start)
    decreases |logs|
  {
    if |logs| > 0 {
      FailedAtMostRequests(logs[1..], start);
    }
  }

  /** `_get_error_rate`: the percentage of today's requests that failed,
      and 0 when there were none. */
  function ErrorRate(logs: seq<RequestRecord>, todayStart: int): (r: real)
    ensures RequestsSince(logs, todayStart) == 0 ==> r == 0.0
    ensures 0.0 <= r <= 100.0
    ensures r == 0.0 <==> FailedSince(logs, todayStart) == 0
    ensures r == 100.0 <==> RequestsSince(logs, todayStart) > 0 && FailedSince(logs, todayStart) == RequestsSince(logs, todayStart)
  {
    var total := RequestsSince(logs, todayStart);
    var failed := FailedSince(logs, todayStart);
    FailedAtMostRequests(logs, todayStart);
    if total == 0 then 0.0
    else
      assert (failed as real) / (total as real) <= 1.0;
      assert (failed as real) / (total as real) == 1.0 <==> failed == total;
      (failed as real) / (total as real) * 100.0
  }

  const DefaultDashboardDays := 7

  /** The days from `start` to `end`, both included. */
  function Period(start: int, end: int): (days: seq<int>)
    ensures forall i :: 0 <= i < |days| ==> days[i] == start + i
    decreases end - start
  {
    if start > end then [] else [start] + Period(start + 1, end)
  }

  /** The first day of the dashboard period ending today. */
  function DashboardStart(today: int, days: int): (start: int)
    ensures days >= 1 ==> start <= today
  {
    today - (days - 1)
  }

  /** The dashboard period spans exactly `days` days and ends today. */
  lemma {:induction false} DashboardPeriodLength(today: int, days: int)
    requires days >= 1
    ensures var p := Period(DashboardStart(today, days), today);
      |p| == days && p[|p| - 1] == today
    decreases days
  {
    if days > 1 {
      DashboardPeriodLength(today, days - 1);
      var start := DashboardStart(today, days);
      assert Period(start, today) == [start] + Period(start + 1, today);
    }
  }
}

=== FILE: common.dfy ===
/** Small value types shared by every module of the model: an optional value
    (Python's `None` or a value) and a byte. */
module Common {

  /** A value that may be absent, as Python's `None`. */
  datatype Option<+T> = None | Some(value: T) {

    /** The value, or `default` when absent (Python's `x or default` on a non-falsy domain). */
    function GetOr(default: T): T {
      match this
      case Some(v) => v
      case None => default
    }
  }

  /** One octet of a file's raw content. */
  newtype byte = x: int | 0 <= x < 256
}

=== FILE: enhanced_views.dfy ===
/** The decision rules of agent/enhanced_views.py: keyword mood detection,
    the conversation summary helpers, the upload guard and the project
    creation guard. The AI replies these endpoints request, the image
    analysis and the database writes other than the ones named are not
    part of this model. */
module EnhancedViews {
  import opened Common
  import opened Text
  import opened Models
  import opened Utils
  import opened Views
  import opened Multimodal

  // ---------------------------------------------------------------------
  // MoodDetectionView

  datatype Mood = Happy | Sad | Angry | Excited | Confused | Frustrated | Neutral

  /** The scored moods, in the order ties are broken. */
  const MoodOrder: seq<Mood> := [Happy, Sad, Angry, Excited, Confused, Frustrated]

  /** A scored mood's place in `MoodOrder`. */
  function MoodIndex(m: Mood): (i: nat)
    requires m != Neutral
    ensures i < |MoodOrder| && MoodOrder[i] == m
  {
    match m
    case Happy => 0
    case Sad => 1
    case Angry => 2
    case Excited => 3
    case Confused => 4
    case Frustrated => 5
  }

  /** Each place in `MoodOrder` holds the mood whose index it is. */
  lemma MoodAt(k: nat)
    requires k < |MoodOrder|
    ensures MoodOrder[k] != Neutral && MoodIndex(MoodOrder[k]) == k
  {
  }

  function MoodWords(m: Mood): seq<string> {
    match m
    case Happy => ["спасибо", "отлично", "супер", "хорошо", "класс", "здорово", "😊", "😄", "👍"]
    case Sad => ["грустно", "печально", "плохо", "расстроен", "😢", "😞", "👎"]
    case Angry => ["злой", "бесит", "раздражает", "ненавижу", "достало", "😠", "😡"]
    case Excited => ["круто", "восторг", "потрясающе", "фантастика", "вау", "🤩", "🎉"]
    case Confused => ["не понимаю", "непонятно", "сложно", "запутался", "😕", "🤔"]
    case Frustrated => ["не работает", "ошибка", "проблема", "сложность", "😤", "😫"]
    case Neutral => []
  }

  /** How many of the mood's indicators occur in the lower-cased text. */
  function MoodScore(text: string, m: Mood): nat {
    CountContained(MoodWords(m), Lower(text))
  }

  function MoodScores(text: string): (scores: seq<int>)
    ensures |scores| == |MoodOrder|
    ensures forall i :: 0 <= i < |MoodOrder| ==> scores[i] == MoodScore(text, MoodOrder[i])
  {
    seq(|MoodOrder|, i requires 0 <= i < |MoodOrder| => MoodScore(text, MoodOrder[i]) as int)
  }

  /** `_detect_mood_from_text`: neutral when no indicator of any mood
      occurs; otherwise the mood with the most indicators, the earliest of
      happy, sad, angry, excited, confused, frustrated on a tie. */
  function DetectMood(text: string): (m: Mood)
    ensures m == Neutral <==> forall i :: 0 <= i < |MoodOrder| ==> MoodScore(text, MoodOrder[i]) == 0
    ensures m != Neutral ==> m in MoodOrder && MoodScore(text, m) > 0
    ensures forall i :: 0 <= i < |MoodOrder| ==> MoodScore(text, MoodOrder[i]) <= MoodScore(text, m)
    ensures m != Neutral ==> forall j :: 0 <= j < MoodIndex(m) ==> MoodScore(text, MoodOrder[j]) < MoodScore(text, m)
  {
    var scores := MoodScores(text);
    var k := ArgMaxFirst(scores);
    MoodAt(k);
    if scores[k] > 0 then MoodOrder[k] else Neutral
  }

  /** Neutral means that no indicator word of any mood occurs in the
      lower-cased text. */
  lemma NeutralMeansNoIndicator(text: string)
    ensures DetectMood(text) == Neutral <==>
      forall i, j :: 0 <= i < |MoodOrder| && 0 <= j < |MoodWords(MoodOrder[i])| ==>
        !Contains(Lower(text), MoodWords(MoodOrder[i])[j])
  {
    if DetectMood(text) != Neutral {
      var i :| 0 <= i < |MoodOrder| && MoodScore(text, MoodOrder[i]) != 0;
    }
  }

  /** The words `_extract_mood_keywords` looks for, in its order. */
  const MoodKeywordList: seq<string> := [
    "спасибо", "отлично", "супер", "хорошо", "грустно", "плохо",
    "злой", "бесит", "круто", "восторг", "не понимаю", "ошибка"]

  /** `_extract_mood_keywords`: the listed words that occur in the
      lower-cased text, in list order, at most five. */
  function MoodKeywords(text: string): (r: seq<string>)
    ensures |r| <= 5
    ensures forall i :: 0 <= i < |r| ==> r[i] in MoodKeywordList && Contains(Lower(text), r[i])
    ensures IsSubsequence(r, MoodKeywordList)
    ensures CountContained(MoodKeywordList, Lower(text)) <= 5 ==>
      forall i :: 0 <= i < |MoodKeywordList| && Contains(Lower(text), MoodKeywordList[i]) ==> MoodKeywordList[i] in r
    ensures var n := CountContained(MoodKeywordList, Lower(text));
      IsPrefix(r, FoundIn(MoodKeywordList, Lower(text))) && |r| == (if n < 5 then n else 5)
  {
    var found := FoundIn(MoodKeywordList, Lower(text));
    FoundInIsSubsequence(MoodKeywordList, Lower(text));
    var r := Take(found, 5);
    SubsequencePrefix(found, MoodKeywordList, |r|);
    r
  }

  // ---------------------------------------------------------------------
  // ConversationSummaryView

  /** The contents of the user's messages, in order. */
  function UserContents(messages: seq<ChatMessage>): (r: seq<string>)
    ensures |r| <= |messages|
    ensures forall i :: 0 <= i < |messages| && messages[i].messageType == User ==> messages[i].content in r
    ensures forall i :: 0 <= i < |r| ==> exists j :: 0 <= j < |messages| && messages[j].messageType == User && messages[j].content == r[i]
    ensures (forall i :: 0 <= i < |messages| ==> messages[i].messageType != User) <==> r == []
  {
    if |messages| == 0 then []
    else
      var rest := UserContents(messages[1..]);
      assert forall j :: 0 <= j < |messages[1..]| ==> messages[1..][j] == messages[j + 1];
      if messages[0].messageType == User then [messages[0].content] + rest else rest
  }

  /** The contents of two runs of messages are those of each, in order, so
      every user message contributes its content once, in its place. */
  lemma {:induction false} UserContentsAppend(xs: seq<ChatMessage>, ys: seq<ChatMessage>)
    ensures UserContents(xs + ys) == UserContents(xs) + UserContents(ys)
    decreases |xs|
  {
    if |xs| == 0 {
      assert xs + ys == ys;
    } else {
      assert (xs + ys)[0] == xs[0];
      assert (xs + ys)[1..] == xs[1..] + ys;
      UserContentsAppend(xs[1..], ys);
    }
  }

  /** One message contributes its content iff the user wrote it. */
  lemma UserContentsOfOne(m: ChatMessage)
    ensures UserContents([m]) == if m.messageType == User then [m.content] else []
  {
    assert [m][1..] == [];
  }

  const NoUserMessages := "Беседа без пользовательских сообщений"

  function Opening(first: string): string {
    "Пользователь начал с вопроса: " + Take(first, 100) + "..."
  }

  function Middle(between: seq<string>): string {
    "В процессе обсуждались темы: " + Take(JoinWith(between, ", "), 200) + "..."
  }

  function Closing(last: string): string {
    "В конце пользователь спросил: " + Take(last, 100) + "..."
  }

  /** `_generate_summary`: the fixed sentence when the user said nothing;
      otherwise an opening on the first user message, the middle part only
      with more than two user messages, and the closing part only with more
      than one. */
  function GenerateSummary(messages: seq<ChatMessage>): (r: string)
    ensures var u := UserContents(messages);
      && (|u| == 0 ==> r == NoUserMessages)
      && (|u| == 1 ==> r == Opening(u[0]))
      && (|u| == 2 ==> r == Opening(u[0]) + " " + Closing(u[1]))
      && (|u| > 2 ==> r == Opening(u[0]) + " " + Middle(u[1..|u| - 1]) + " " + Closing(u[|u| - 1]))
  {
    var u := UserContents(messages);
    if |u| == 0 then NoUserMessages
    else if |u| == 1 then JoinWith([Opening(u[0])], " ")
    else if |u| == 2 then
      JoinTwo(Opening(u[0]), Closing(u[1]), " ");
      JoinWith([Opening(u[0]), Closing(u[1])], " ")
    else
      JoinThree(Opening(u[0]), Middle(u[1..|u| - 1]), Closing(u[|u| - 1]), " ");
      JoinWith([Opening(u[0]), Middle(u[1..|u| - 1]), Closing(u[|u| - 1])], " ")
  }

  /** The summary reads only the user's messages: removing a message the
      user did not write leaves it unchanged. */
  lemma SummaryIgnoresOtherMessages(before: seq<ChatMessage>, m: ChatMessage, after: seq<ChatMessage>)
    requires m.messageType != User
    ensures GenerateSummary(before + [m] + after) == GenerateSummary(before + after)
  {
    UserContentsAppend(before + [m], after);
    UserContentsAppend(before, [m]);
    UserContentsOfOne(m);
    UserContentsAppend(before, after);
    assert UserContents(before + [m]) == UserContents(before);
  }

  const CommonTopics: seq<string> := [
    "расписание", "экзамены", "стипендия", "документы",
    "оценки", "преподаватель", "группа", "семестр"]

  function LoweredContents(messages: seq<ChatMessage>): (r: seq<string>)
    ensures |r| == |messages|
    ensures forall i :: 0 <= i < |messages| ==> r[i] == Lower(messages[i].content)
  {
    seq(|messages|, i requires 0 <= i < |messages| => Lower(messages[i].content))
  }

  /** All the messages' lower-cased contents joined with spaces. */
  function AllText(messages: seq<ChatMessage>): string {
    JoinWith(LoweredContents(messages), " ")
  }

  /** `_extract_key_topics`: the common topics occurring in the joined,
      lower-cased conversation, in list order, at most five. */
  function KeyTopics(messages: seq<ChatMessage>): (r: seq<string>)
    ensures |r| <= 5
    ensures forall i :: 0 <= i < |r| ==> r[i] in CommonTopics && Contains(AllText(messages), r[i])
    ensures IsSubsequence(r, CommonTopics)
    ensures CountContained(CommonTopics, AllText(messages)) <= 5 ==>
      forall i :: 0 <= i < |CommonTopics| && Contains(AllText(messages), CommonTopics[i]) ==> CommonTopics[i] in r
    ensures var n := CountContained(CommonTopics, AllText(messages));
      IsPrefix(r, FoundIn(CommonTopics, AllText(messages))) && |r| == (if n < 5 then n else 5)
  {
    var found := FoundIn(CommonTopics, AllText(messages));
    FoundInIsSubsequence(CommonTopics, AllText(messages));
    var r := Take(found, 5);
    SubsequencePrefix(found, CommonTopics, |r|);
    r
  }

  /** A topic one message mentions, in any letter case, is found, unless
      five other topics crowd it out. */
  lemma MentionedTopicIsFound(messages: seq<ChatMessage>, k: nat, t: nat)
    requires k < |messages| && t < |CommonTopics|
    requires Contains(Lower(messages[k].content), CommonTopics[t])
    requires CountContained(CommonTopics, AllText(messages)) <= 5
    ensures CommonTopics[t] in KeyTopics(messages)
  {
    ContainsInJoin(LoweredContents(messages), " ", k, CommonTopics[t]);
  }

  const ActionPhrases: seq<string> := [
    "нужно", "должен", "необходимо", "требуется",
    "подать", "оформить", "получить", "сдать"]

  /** The index of the first sentence whose lower-cased text contains the
      phrase, or the number of sentences when none does. */
  function FirstSentenceWith(sentences: seq<string>, phrase: string): (k: nat)
    ensures k <= |sentences|
    ensures k < |sentences| ==> Contains(Lower(sentences[k]), phrase)
    ensures forall j :: 0 <= j < k ==> !Contains(Lower(sentences[j]), phrase)
    decreases |sentences|
  {
    if |sentences| == 0 then 0
    else if Contains(Lower(sentences[0]), phrase) then 0
    else
      var k := FirstSentenceWith(sentences[1..], phrase);
      assert forall j :: 1 <= j < k + 1 ==> sentences[j] == sentences[1..][j - 1];
      k + 1
  }

  lemma NoDotInPhrases(q: nat)
    requires q < |ActionPhrases|
    ensures '.' !in ActionPhrases[q]
  {
  }

  /** Where an action item comes from: a message, one of its
      '.'-separated sentences, and the action phrase found in it. */
  datatype ItemSource = ItemSource(message: nat, sentence: nat, phrase: nat)

  function Sentences(content: string): seq<string> {
    SplitOn(content, '.')
  }

  /** The sentence exists and holds the phrase, in any letter case. */
  predicate ValidSource(messages: seq<ChatMessage>, src: ItemSource) {
    && src.message < |messages| && src.phrase < |ActionPhrases|
    && src.sentence < |Sentences(messages[src.message].content)|
    && Contains(Lower(Sentences(messages[src.message].content)[src.sentence]), ActionPhrases[src.phrase])
  }

  /** The item a source yields: its sentence, stripped. */
  function ItemText(messages: seq<ChatMessage>, src: ItemSource): string
    requires ValidSource(messages, src)
  {
    Strip(Sentences(messages[src.message].content)[src.sentence])
  }

  /** The sources message `m` yields for the action phrases from index `p`
      on: for each phrase its lower-cased content holds, the first sentence
      holding it. */
  function SourcesFrom(messages: seq<ChatMessage>, m: nat, p: nat): (r: seq<ItemSource>)
    requires m < |messages| && p <= |ActionPhrases|
    ensures forall i :: 0 <= i < |r| ==> ValidSource(messages, r[i]) && r[i].message == m && r[i].phrase >= p
    decreases |ActionPhrases| - p
  {
    if p == |ActionPhrases| then []
    else
      var rest := SourcesFrom(messages, m, p + 1);
      var content := messages[m].content;
      var k := FirstSentenceWith(Sentences(content), ActionPhrases[p]);
      if Contains(Lower(content), ActionPhrases[p]) && k < |Sentences(content)| then
        [ItemSource(m, k, p)] + rest
      else rest
  }

  /** Since no action phrase contains '.', a phrase the lower-cased message
      holds always lies inside one sentence: each phrase the message holds
      yields exactly one source. */
  lemma {:induction false} OneSourcePerPhrase(messages: seq<ChatMessage>, m: nat, p: nat)
    requires m < |messages| && p <= |ActionPhrases|
    ensures |SourcesFrom(messages, m, p)| == CountContained(ActionPhrases[p..], Lower(messages[m].content))
    decreases |ActionPhrases| - p
  {
    if p < |ActionPhrases| {
      OneSourcePerPhrase(messages, m, p + 1);
      assert ActionPhrases[p..][1..] == ActionPhrases[p + 1..];
      var content := messages[m].content;
      if Contains(Lower(content), ActionPhrases[p]) {
        NoDotInPhrases(p);
        ContainsInSomePiece(content, '.', ActionPhrases[p]);
      }
    }
  }

  /** The sources of messages `m` onwards, message by message. */
  function AllSources(messages: seq<ChatMessage>, m: nat): (r: seq<ItemSource>)
    requires m <= |messages|
    ensures forall i :: 0 <= i < |r| ==> ValidSource(messages, r[i]) && r[i].message >= m
    decreases |messages| - m
  {
    if m == |messages| then [] else SourcesFrom(messages, m, 0) + AllSources(messages, m + 1)
  }

  function ItemTexts(messages: seq<ChatMessage>, sources: seq<ItemSource>): (r: seq<string>)
    requires forall i :: 0 <= i < |sources| ==> ValidSource(messages, sources[i])
    ensures |r| == |sources|
    ensures forall i :: 0 <= i < |r| ==> r[i] == ItemText(messages, sources[i])
  {
    seq(|sources|, i requires 0 <= i < |sources| => ItemText(messages, sources[i]))
  }

  /** `_extract_action_items`: at most three items, the first ones of the
      message-by-message, phrase-by-phrase scan, each the stripped sentence
      of a valid source. */
  function ActionItems(messages: seq<ChatMessage>): (r: seq<string>)
    ensures var all := AllSources(messages, 0);
      && |r| == (if |all| < 3 then |all| else 3)
      && forall i :: 0 <= i < |r| ==> ValidSource(messages, all[i]) && r[i] == ItemText(messages, all[i])
  {
    Take(ItemTexts(messages, AllSources(messages, 0)), 3)
  }

  /** The first message leads the list: when it holds `n` action phrases,
      the list has at least `min(n, 3)` items. */
  lemma FirstMessageLeads(messages: seq<ChatMessage>)
    requires |messages| > 0
    ensures var n := CountContained(ActionPhrases, Lower(messages[0].content));
      |ActionItems(messages)| >= (if n < 3 then n else 3)
  {
    OneSourcePerPhrase(messages, 0, 0);
    assert ActionPhrases[0..] == ActionPhrases;
  }

  // ---------------------------------------------------------------------
  // MultimodalUploadView and VoiceAPIView guards

  /** The largest accepted upload, in bytes. */
  const MaxUploadSize := 10 * 1024 * 1024

  const MissingUploadFields := "Missing session_id or file"
  const UploadTooLarge := "File too large. Maximum size is 10MB."
  const DefaultMimeType := "application/octet-stream"

  /** An uploaded file: its name, size, bytes, the content type the client
      declared, and the MIME type guessed from its name. */
  datatype Upload = Upload(
    name: string,
    size: nat,
    content: seq<byte>,
    contentType: Option<string>,
    guessedMime: Option<string>)

  datatype Attachment = Attachment(
    messageId: int,
    kind: ContentKind,
    originalFilename: string,
    fileSize: nat,
    mimeType: string)

  datatype UploadResult =
    | UploadRejected(error: string)
    | UploadAccepted(store: ChatStore, attachment: Attachment)

  /** A Django file object is false when its name is empty. */
  predicate PresentFile(file: Option<Upload>) {
    file.Some? && file.value.name != ""
  }

  function FileMessage(name: string): string {
    "📎 Прикреплен файл: " + name
  }

  /** The checks and records of `MultimodalUploadView.post` before any
      analysis: a missing session id or file is refused, then a file over
      10 MiB, both before any record exists; an accepted file gets its
      session, a user message naming it and an attachment typed by its
      name or leading bytes. */
  function UploadFile(store: ChatStore, sessionId: Option<string>, file: Option<Upload>, now: int): (r: UploadResult)
    ensures r.UploadRejected? <==>
      sessionId.None? || sessionId.value == "" || !PresentFile(file) || file.value.size > MaxUploadSize
    ensures (sessionId.None? || sessionId.value == "" || !PresentFile(file)) ==> r == UploadRejected(MissingUploadFields)
    ensures sessionId.Some? && sessionId.value != "" && PresentFile(file) && file.value.size > MaxUploadSize ==>
      r == UploadRejected(UploadTooLarge)
    ensures r.UploadAccepted? ==>
      && KnownSession(r.store.sessions, sessionId.value)
      && r.store.sessions == EnsureSession(store.sessions, sessionId.value, now)
      && r.store.nextMessageId == store.nextMessageId + 1
      && r.store.messages == store.messages
        + [ChatMessage(store.nextMessageId, sessionId.value, User, FileMessage(file.value.name), now, None, None, None)]
      && r.store.logs == store.logs
      && r.attachment.messageId == store.nextMessageId
      && r.attachment.kind == DetectContentType(file.value.content, file.value.guessedMime)
      && r.attachment.fileSize == file.value.size <= MaxUploadSize
      && r.attachment.originalFilename == file.value.name
      && r.attachment.mimeType == (if file.value.contentType.None? || file.value.contentType.value == "" then DefaultMimeType else file.value.contentType.value)
  {
    if sessionId.None? || sessionId.value == "" || !PresentFile(file) then UploadRejected(MissingUploadFields)
    else if file.value.size > MaxUploadSize then UploadRejected(UploadTooLarge)
    else
      var f := file.value;
      var sid := sessionId.value;
      var message := ChatMessage(store.nextMessageId, sid, User, FileMessage(f.name), now, None, None, None);
      var mime := if f.contentType.None? || f.contentType.value == "" then DefaultMimeType else f.contentType.value;
      UploadAccepted(
        ChatStore(EnsureSession(store.sessions, sid, now), store.messages + [message], store.logs, store.nextMessageId + 1),
        Attachment(store.nextMessageId, DetectContentType(f.content, f.guessedMime), f.name, f.size, mime))
  }

  /** An accepted upload keeps the message table oldest first and the
      message ids fresh: its message is stamped now and takes the next id. */
  lemma UploadKeepsTables(store: ChatStore, sessionId: Option<string>, file: Option<Upload>, now: int)
    requires OldestFirst(store.messages) && StampedBy(store.messages, now)
    ensures var r := UploadFile(store, sessionId, file, now);
      r.UploadAccepted? ==>
        && OldestFirst(r.store.messages)
        && StampedBy(r.store.messages, now)
        && r.store.nextMessageId == store.nextMessageId + 1
  {
    var r := UploadFile(store, sessionId, file, now);
    if r.UploadAccepted? {
      var m := r.store.messages[|store.messages|];
      AppendKeepsOldestFirst(store.messages, m);
    }
  }

  const VoicePlaceholder := "[Голосовое сообщение]"

  /** The chat message `VoiceAPIView.post` stores before transcription: of
      type 'voice', outside the declared message types. */
  function VoiceMessage(id: int, sessionId: string, now: int): (m: ChatMessage)
    ensures m.messageType == Voice && !IsDeclaredMessageType(m.messageType)
    ensures m.content == VoicePlaceholder && m.sessionId == sessionId && m.timestamp == now
  {
    ChatMessage(id, sessionId, Voice, VoicePlaceholder, now, None, None, None)
  }

  // ---------------------------------------------------------------------
  // ProjectAPIView.post

  /** The JSON fields of a project request; `None` is a missing key. */
  datatype ProjectRequest = ProjectRequest(
    name: Option<string>,
    description: Option<string>,
    projectType: Option<string>,
    color: Option<string>,
    icon: Option<string>,
    customPrompt: Option<string>)

  datatype Project = Project(
    name: string,
    description: string,
    projectType: string,
    color: string,
    icon: string,
    customPrompt: string)

  datatype ProjectResult = ProjectCreated(project: Project) | ProjectRejected(error: string)

  const ProjectNameRequired := "Project name is required"

  /** `ProjectAPIView.post`: name, description and custom prompt are
      stripped (missing reads as ""); a blank name is refused; a missing
      type, colour or icon takes its default, but a present one is kept
      as given, even when empty. */
  function CreateProject(req: ProjectRequest): (r: ProjectResult)
    ensures r.ProjectRejected? <==> Strip(req.name.GetOr("")) == ""
    ensures r.ProjectRejected? ==> r.error == ProjectNameRequired
    ensures r.ProjectCreated? ==>
      && r.project.name == Strip(req.name.value) && r.project.name != ""
      && r.project.description == Strip(req.description.GetOr(""))
      && r.project.customPrompt == Strip(req.customPrompt.GetOr(""))
      && (req.projectType.None? ==> r.project.projectType == "general")
      && (req.color.None? ==> r.project.color == "#0D1B2A")
      && (req.icon.None? ==> r.project.icon == "fas fa-folder")
      && (req.projectType.Some? ==> r.project.projectType == req.projectType.value)
      && (req.color.Some? ==> r.project.color == req.color.value)
      && (req.icon.Some? ==> r.project.icon == req.icon.value)
  {
    var name := Strip(req.name.GetOr(""));
    if name == "" then ProjectRejected(ProjectNameRequired)
    else ProjectCreated(Project(
      name,
      Strip(req.description.GetOr("")),
      req.projectType.GetOr("general"),
      req.color.GetOr("#0D1B2A"),
      req.icon.GetOr("fas fa-folder"),
      Strip(req.customPrompt.GetOr(""))))
  }

  /** A created project's name is already stripped: resubmitting it
      creates the same project. */
  lemma ResubmittedProjectIsTheSame(req: ProjectRequest)
    requires req.name.Some? && !IsBlank(req.name.value)
    ensures var p := CreateProject(req).project;
      CreateProject(ProjectRequest(Some(p.name), Some(p.description), Some(p.projectType),
                                   Some(p.color), Some(p.icon), Some(p.customPrompt))) == CreateProject(req)
  {
    StripIdempotent(req.name.value);
    StripIdempotent(req.description.GetOr(""));
    StripIdempotent(req.customPrompt.GetOr(""));
  }
}

=== FILE: file_processors.dfy ===
/** agent/file_processors.py: which processor a file goes to, which of the
    claimed formats each processor really handles, the text statistics, the
    image summary sentence and the extension-to-MIME fallback. What the
    imaging, Word, Excel and PDF libraries extract is not part of this
    model: a routed file ends at the handler that would read it. */
module FileProcessors {
  import opened Common
  import opened Text

  datatype Processor = ImageProcessor | DocumentProcessor | SpreadsheetProcessor | PdfProcessor

  /** The processors in the manager's order, which decides a file type. */
  const ProcessorOrder: seq<Processor> := [ImageProcessor, DocumentProcessor, SpreadsheetProcessor, PdfProcessor]

  /** The extensions each processor claims. */
  function Extensions(p: Processor): seq<string> {
    match p
    case ImageProcessor => ["jpg", "jpeg", "png", "gif", "bmp", "webp", "tiff"]
    case DocumentProcessor => ["docx", "doc", "txt", "rtf"]
    case SpreadsheetProcessor => ["xlsx", "xls", "csv", "ods"]
    case PdfProcessor => ["pdf"]
  }

  /** The manager's key for a processor. */
  function TypeName(p: Processor): string {
    match p
    case ImageProcessor => "image"
    case DocumentProcessor => "document"
    case SpreadsheetProcessor => "spreadsheet"
    case PdfProcessor => "pdf"
  }

  const OtherType := "other"

  /** `can_process`: the lower-cased extension is one the processor claims. */
  predicate CanProcess(p: Processor, extension: string) {
    Lower(extension) in Extensions(p)
  }

  /** A name without a '.' has no extension, and no processor claims it. */
  lemma NothingClaimsEmpty(p: Processor)
    ensures !CanProcess(p, "")
  {
    assert Lower("") == "";
  }

  function ProcessorIndex(p: Processor): (i: nat)
    ensures i < |ProcessorOrder| && ProcessorOrder[i] == p
  {
    match p
    case ImageProcessor => 0
    case DocumentProcessor => 1
    case SpreadsheetProcessor => 2
    case PdfProcessor => 3
  }

  /** The processor a manager key names, the inverse of `TypeName`. */
  function ProcessorFor(fileType: string): (r: Option<Processor>)
    ensures r.Some? ==> TypeName(r.value) == fileType
    ensures forall p :: TypeName(p) == fileType ==> r == Some(p)
  {
    if fileType == "image" then Some(ImageProcessor)
    else if fileType == "document" then Some(DocumentProcessor)
    else if fileType == "spreadsheet" then Some(SpreadsheetProcessor)
    else if fileType == "pdf" then Some(PdfProcessor)
    else None
  }

  /** The index of the first processor claiming the extension, or 4. */
  function FirstClaim(extension: string, k: nat): (i: nat)
    requires k <= |ProcessorOrder|
    ensures k <= i <= |ProcessorOrder|
    ensures i < |ProcessorOrder| ==> CanProcess(ProcessorOrder[i], extension)
    ensures forall j :: k <= j < i ==> !CanProcess(ProcessorOrder[j], extension)
    decreases |ProcessorOrder| - k
  {
    if k == |ProcessorOrder| then k
    else if CanProcess(ProcessorOrder[k], extension) then k
    else FirstClaim(extension, k + 1)
  }

  /** `get_file_type`: the key of the first of image, document,
      spreadsheet, pdf claiming the name's extension, else "other". */
  function GetFileType(filename: string): (t: string)
    ensures t == OtherType <==> forall i :: 0 <= i < |ProcessorOrder| ==> !CanProcess(ProcessorOrder[i], Extension(filename))
    ensures t != OtherType ==>
      && ProcessorFor(t).Some?
      && CanProcess(ProcessorFor(t).value, Extension(filename))
      && forall j :: 0 <= j < ProcessorIndex(ProcessorFor(t).value) ==> !CanProcess(ProcessorOrder[j], Extension(filename))
  {
    var i := FirstClaim(Extension(filename), 0);
    if i < |ProcessorOrder| then
      assert ProcessorIndex(ProcessorOrder[i]) == i;
      TypeName(ProcessorOrder[i])
    else OtherType
  }

  /** No extension is claimed by two processors, so the order of the
      processors never decides a file type. */
  lemma ClaimsAreDisjoint(extension: string, i: nat, j: nat)
    requires i < j < |ProcessorOrder|
    ensures !(CanProcess(ProcessorOrder[i], extension) && CanProcess(ProcessorOrder[j], extension))
  {
  }

  /** A name whose extension some processor claims has that processor's
      type: the claims being disjoint, the first claimant is the only one. */
  lemma FileTypeOfClaimed(filename: string, p: Processor)
    requires CanProcess(p, Extension(filename))
    ensures GetFileType(filename) == TypeName(p)
  {
    var t := GetFileType(filename);
    assert ProcessorOrder[ProcessorIndex(p)] == p;
    var q := ProcessorFor(t).value;
    if q != p {
      var i, j := ProcessorIndex(p), ProcessorIndex(q);
      if i < j {
        ClaimsAreDisjoint(Extension(filename), i, j);
      } else {
        ClaimsAreDisjoint(Extension(filename), j, i);
      }
    }
  }

  /** The library call that would read a routed file. */
  datatype Handler = ReadImage | ReadDocx | ReadTxt | ReadExcel | ReadCsv | ReadPdf

  datatype Routing =
    | Refused(error: string, summary: string)
    | Handled(handler: Handler)

  const UnsupportedDocument := "Unsupported document format: "
  const UnsupportedDocumentText := "Неподдерживаемый формат документа: "
  const UnsupportedSpreadsheet := "Unsupported spreadsheet format: "
  const UnsupportedSpreadsheetText := "Неподдерживаемый формат таблицы: "

  /** `DocumentProcessor.process`: only docx and txt are read; the other
      claimed formats, doc and rtf, are refused by name. */
  function RouteDocument(filePath: string): (r: Routing)
    ensures var ext := Lower(LastSegment(filePath, '.'));
      && (r == Handled(ReadDocx) <==> ext == "docx")
      && (r == Handled(ReadTxt) <==> ext == "txt")
      && (r.Refused? <==> ext != "docx" && ext != "txt")
      && (r.Refused? ==> r.error == UnsupportedDocument + ext
                         && r.summary == UnsupportedDocumentText + ext)
  {
    var ext := Lower(LastSegment(filePath, '.'));
    if ext == "docx" then Handled(ReadDocx)
    else if ext == "txt" then Handled(ReadTxt)
    else Refused(UnsupportedDocument + ext, UnsupportedDocumentText + ext)
  }

  /** `SpreadsheetProcessor.process`: xlsx and xls go to the Excel reader,
      csv to the CSV reader; the other claimed format, ods, is refused. */
  function RouteSpreadsheet(filePath: string): (r: Routing)
    ensures var ext := Lower(LastSegment(filePath, '.'));
      && (r == Handled(ReadExcel) <==> ext == "xlsx" || ext == "xls")
      && (r == Handled(ReadCsv) <==> ext == "csv")
      && (r.Refused? <==> ext != "xlsx" && ext != "xls" && ext != "csv")
      && (r.Refused? ==> r.error == UnsupportedSpreadsheet + ext
                         && r.summary == UnsupportedSpreadsheetText + ext)
  {
    var ext := Lower(LastSegment(filePath, '.'));
    if ext == "xlsx" || ext == "xls" then Handled(ReadExcel)
    else if ext == "csv" then Handled(ReadCsv)
    else Refused(UnsupportedSpreadsheet + ext, UnsupportedSpreadsheetText + ext)
  }

  function Route(p: Processor, filePath: string): Routing {
    match p
    case ImageProcessor => Handled(ReadImage)
    case DocumentProcessor => RouteDocument(filePath)
    case SpreadsheetProcessor => RouteSpreadsheet(filePath)
    case PdfProcessor => Handled(ReadPdf)
  }

  /** `os.path.basename`: the text after the last '/'. */
  function Basename(filePath: string): string {
    LastSegment(filePath, '/')
  }

  /** `process_file`: the type is the given one or, when none is given,
      the one the base name's extension selects; "other" and a type no
      processor has are refused without running any processor; every
      other type goes to its processor. */
  function ProcessFile(filePath: string, fileType: Option<string>): (r: Routing)
    ensures var t := if fileType.Some? then fileType.value else GetFileType(Basename(filePath));
      && (t == OtherType ==> r == Refused("Unsupported file type", "Неподдерживаемый тип файла"))
      && (t != OtherType && ProcessorFor(t).None? ==>
            r == Refused("No processor for file type: " + t, "Нет обработчика для типа файла: " + t))
      && (ProcessorFor(t).Some? ==> r == Route(ProcessorFor(t).value, filePath))
  {
    var t := if fileType.Some? then fileType.value else GetFileType(Basename(filePath));
    if t == OtherType then Refused("Unsupported file type", "Неподдерживаемый тип файла")
    else match ProcessorFor(t)
      case None => Refused("No processor for file type: " + t, "Нет обработчика для типа файла: " + t)
      case Some(p) => Route(p, filePath)
  }

  /** When the base name holds a '.', its last '.'-segment is the whole
      path's. */
  lemma {:induction false} BasenameKeepsLastSegment(filePath: string)
    requires '.' in Basename(filePath)
    ensures LastSegment(filePath, '.') == LastSegment(Basename(filePath), '.')
    decreases |filePath|
  {
    var n := |filePath|;
    var last := filePath[n - 1];
    var init := filePath[..n - 1];
    if last != '.' && last != '/' {
      assert Basename(filePath) == Basename(init) + [last];
      BasenameKeepsLastSegment(init);
      var b := Basename(init);
      assert (b + [last])[..|b + [last]| - 1] == b;
    }
  }

  /** When the base name holds a '.', its extension is the lower-cased
      last '.'-segment of the whole path, which the document and
      spreadsheet processors read. */
  lemma ExtensionOfBasename(filePath: string)
    requires '.' in Basename(filePath)
    ensures Extension(Basename(filePath)) == Lower(LastSegment(filePath, '.'))
  {
    BasenameKeepsLastSegment(filePath);
  }

  /** With no type given, a file that is read at all is read by the
      processor its extension selected, in a format that processor
      claims. */
  lemma HandledFilesAreClaimed(filePath: string)
    ensures ProcessFile(filePath, None).Handled? ==>
      var t := GetFileType(Basename(filePath));
      ProcessorFor(t).Some? && CanProcess(ProcessorFor(t).value, Lower(LastSegment(filePath, '.')))
  {
    if !ProcessFile(filePath, None).Handled? {
      return;
    }
    var name := Basename(filePath);
    var t := GetFileType(name);
    assert t != OtherType && ProcessorFor(t).Some?;
    if '.' in name {
      ExtensionOfBasename(filePath);
      LowerIdempotent(LastSegment(filePath, '.'));
    } else {
      assert Extension(name) == "";
      NothingClaimsEmpty(ProcessorFor(t).value);
    }
  }

  /** A '/'-free name with a '.'-free extension keeps its whole name as
      base name and that extension as its type-deciding suffix. */
  lemma NamedExtension(name: string, ext: string)
    requires '/' !in name && '/' !in ext && '.' !in ext
    ensures Basename(name + "." + ext) == name + "." + ext
    ensures LastSegment(name + "." + ext, '.') == ext
    ensures Extension(name + "." + ext) == Lower(ext)
  {
    var path := name + "." + ext;
    assert path == name + ['.'] + ext;
    LastSegmentAfter(name, '.', ext);
    LastSegmentWhole(path, '/');
  }

  /** A file ending in ".doc" is claimed by the document processor and
      then refused. */
  lemma DocIsClaimedButRefused(name: string)
    requires '/' !in name
    ensures GetFileType(name + ".doc") == "document"
    ensures ProcessFile(name + ".doc", None) == Refused(UnsupportedDocument + "doc", UnsupportedDocumentText + "doc")
  {
    var path := name + ".doc";
    assert path == name + "." + "doc";
    NamedExtension(name, "doc");
    assert Lower("doc") == "doc";
    assert CanProcess(DocumentProcessor, "doc");
    FileTypeOfClaimed(path, DocumentProcessor);
    assert ProcessFile(path, None) == RouteDocument(path);
  }

  /** A file ending in ".ods" is claimed by the spreadsheet processor and
      then refused. */
  lemma OdsIsClaimedButRefused(name: string)
    requires '/' !in name
    ensures GetFileType(name + ".ods") == "spreadsheet"
    ensures ProcessFile(name + ".ods", None) == Refused(UnsupportedSpreadsheet + "ods", UnsupportedSpreadsheetText + "ods")
  {
    var path := name + ".ods";
    assert path == name + "." + "ods";
    NamedExtension(name, "ods");
    assert Lower("ods") == "ods";
    assert CanProcess(SpreadsheetProcessor, "ods");
    FileTypeOfClaimed(path, SpreadsheetProcessor);
    assert ProcessFile(path, None) == RouteSpreadsheet(path);
  }

  // ---------------------------------------------------------------------
  // Text statistics and the image summary

  datatype TextStats = TextStats(lineCount: nat, wordCount: nat, characterCount: nat, summary: string)

  /** `process_txt_with_content`: lines are the '\n'-separated pieces,
      words the whitespace-separated tokens, characters the length. */
  function ProcessTxtWithContent(content: string): (r: TextStats)
    ensures r.lineCount == Occurrences(content, '\n') + 1
    ensures r.wordCount == |Words(content)|
    ensures r.characterCount == |content|
    ensures r.summary == "Текстовый файл с " + NatToString(r.lineCount) + " строками и " + NatToString(r.wordCount) + " словами"
  {
    SplitOnCount(content, '\n');
    var lines := |SplitOn(content, '\n')|;
    var words := |Words(content)|;
    TextStats(lines, words, |content|, "Текстовый файл с " + NatToString(lines) + " строками и " + NatToString(words) + " словами")
  }

  const DarkNote := " (темное изображение)"
  const BrightNote := " (яркое изображение)"

  function ImageHeader(format: string, width: nat, height: nat): string {
    "Изображение " + format + " размером " + NatToString(width) + "x" + NatToString(height) + " пикселей"
  }

  function TextPreview(text: string): string {
    ". Содержит текст: " + Take(text, 100) + "..."
  }

  /** `generate_image_summary`: format and size; a dark note, or failing
      that a bright note; and a preview of the first 100 characters of the
      text only when it is longer than 10 characters. */
  function GenerateImageSummary(format: string, width: nat, height: nat, isDark: bool, isBright: bool, text: string): (r: string)
    ensures var head := ImageHeader(format, width, height);
      var note := if isDark then DarkNote else if isBright then BrightNote else "";
      && IsPrefix(head + note, r)
      && (|text| > 10 ==> IsSuffix(TextPreview(text), r) && |r| == |head + note| + |TextPreview(text)|)
      && (|text| <= 10 ==> r == head + note)
  {
    var head := ImageHeader(format, width, height);
    var note := if isDark then DarkNote else if isBright then BrightNote else "";
    var preview := if |text| > 10 then TextPreview(text) else "";
    assert (head + note + preview)[..|head + note|] == head + note;
    head + note + preview
  }

  // ---------------------------------------------------------------------
  // get_mime_type without libmagic

  const DefaultMime := "application/octet-stream"

  const MimeMap: map<string, string> := map[
    "jpg" := "image/jpeg", "jpeg" := "image/jpeg", "png" := "image/png",
    "pdf" := "application/pdf",
    "docx" := "application/vnd.openxmlformats-officedocument.wordprocessingml.document",
    "xlsx" := "application/vnd.openxmlformats-officedocument.spreadsheetml.sheet",
    "csv" := "text/csv", "txt" := "text/plain"]

  /** The fallback of `get_mime_type`: the map's type for the lower-cased
      last '.'-segment of the path, else the generic binary type. */
  function FallbackMimeType(filePath: string): (r: string)
    ensures var ext := Lower(LastSegment(filePath, '.'));
      && (ext in MimeMap ==> r == MimeMap[ext])
      && (r == DefaultMime <==> ext !in MimeMap)
  {
    var ext := Lower(LastSegment(filePath, '.'));
    if ext in MimeMap then MimeMap[ext] else DefaultMime
  }

  /** The processor whose family the fallback's MIME type names. */
  function MimeFamily(mime: string): Option<Processor> {
    if mime == "image/jpeg" || mime == "image/png" then Some(ImageProcessor)
    else if mime == "application/pdf" then Some(PdfProcessor)
    else if mime == MimeMap["docx"] || mime == "text/plain" then Some(DocumentProcessor)
    else if mime == MimeMap["xlsx"] || mime == "text/csv" then Some(SpreadsheetProcessor)
    else None
  }

  /** Each extension of the MIME map is claimed by the processor of its
      MIME type's family. */
  lemma MimeKeyClaimed(ext: string)
    requires ext in MimeMap
    ensures MimeFamily(MimeMap[ext]).Some? && CanProcess(MimeFamily(MimeMap[ext]).value, ext)
  {
    LowerIdempotent(ext);
    assert Lower(ext) == ext;
  }

  /** The fallback MIME type and the manager's file type agree: a file the
      map knows is typed by the processor of its MIME type's family. */
  lemma FallbackMimeMatchesFileType(filePath: string)
    requires '.' in Basename(filePath)
    ensures FallbackMimeType(filePath) != DefaultMime ==>
      && MimeFamily(FallbackMimeType(filePath)).Some?
      && GetFileType(Basename(filePath)) == TypeName(MimeFamily(FallbackMimeType(filePath)).value)
  {
    var ext := Lower(LastSegment(filePath, '.'));
    if ext in MimeMap {
      ExtensionOfBasename(filePath);
      MimeKeyClaimed(ext);
      FileTypeOfClaimed(Basename(filePath), MimeFamily(MimeMap[ext]).value);
    }
  }
}

=== FILE: forms.dfy ===
/** The two Django forms of agent/forms.py. A field is cleaned the Django
    way: the raw value is converted (a `CharField` strips it), then the
    required check runs, then the field's validators (all of them, their
    errors collected), and only a value that passed all of that reaches the
    form's `clean_<field>` hook. */
module Forms {
  import opened Common
  import opened Text
  import opened Models

  /** A cleaned field value, or the list of its validation errors. */
  datatype FieldResult = Clean(value: string) | Invalid(errors: seq<string>)

  const RequiredError := "This field is required."
  const NullCharacterError := "Null characters are not allowed."
  const TooShortError := "Message must be at least 3 characters long."

  /** `ChatMessageForm.message`'s `max_length`. */
  const MessageMaxLength := 1000
  /** `FAQSearchForm.q`'s `max_length`. */
  const QueryMaxLength := 200

  function MaxLengthError(limit: nat, actual: nat): string {
    "Ensure this value has at most " + NatToString(limit) + " characters (it has " + NatToString(actual) + ")."
  }

  /** A `CharField` with `strip=True`: a missing value reads as "", a
      present one is stripped; an empty value fails only a required field
      and skips the validators; otherwise the length and null-character
      validators both run. */
  function CleanCharField(raw: Option<string>, required: bool, maxLength: nat): (r: FieldResult)
    ensures var v := if raw.None? then "" else Strip(raw.value);
      && (r.Clean? <==> (v == "" && !required) || (v != "" && |v| <= maxLength && '\0' !in v))
      && (r.Clean? ==> r.value == v)
      && (r.Invalid? ==> |r.errors| >= 1)
      && (v == "" && required ==> r == Invalid([RequiredError]))
      && (v != "" && |v| > maxLength ==> r.Invalid? && r.errors[0] == MaxLengthError(maxLength, |v|))
  {
    var v := if raw.None? then "" else Strip(raw.value);
    if v == "" then
      if required then Invalid([RequiredError]) else Clean("")
    else
      var errors := (if |v| > maxLength then [MaxLengthError(maxLength, |v|)] else [])
                    + (if '\0' in v then [NullCharacterError] else []);
      if errors == [] then Clean(v) else Invalid(errors)
  }

  /** `ChatMessageForm`'s `message`: required, at most 1000 characters after
      stripping, and then `clean_message` demands at least 3 characters of
      the stripped text and returns it stripped. */
  function CleanMessage(raw: Option<string>): (r: FieldResult)
    ensures var v := if raw.None? then "" else Strip(raw.value);
      && (r.Clean? <==> 3 <= |v| <= MessageMaxLength && '\0' !in v)
      && (r.Clean? ==> r.value == v)
      && (v == "" ==> r == Invalid([RequiredError]))
      && (0 < |v| < 3 && '\0' !in v ==> r == Invalid([TooShortError]))
  {
    match CleanCharField(raw, true, MessageMaxLength)
    case Invalid(errors) => Invalid(errors)
    case Clean(message) =>
      StripIdempotent(if raw.None? then "" else raw.value);
      if |Strip(message)| < 3 then Invalid([TooShortError]) else Clean(Strip(message))
  }

  /** A cleaned message is already stripped, so cleaning it again gives it
      back unchanged. */
  lemma CleanMessageIdempotent(raw: string)
    requires CleanMessage(Some(raw)).Clean?
    ensures CleanMessage(Some(CleanMessage(Some(raw)).value)) == CleanMessage(Some(raw))
  {
    StripIdempotent(raw);
  }

  /** `FAQSearchForm.category`'s choices: "" for all categories, then the six
      FAQ categories. */
  const CategoryChoices: seq<(string, string)> := [
    ("", "All Categories"),
    ("schedules", "Schedules"),
    ("documents", "Documents"),
    ("scholarships", "Scholarships"),
    ("exams", "Exams"),
    ("administration", "Administration"),
    ("general", "General")]

  function InvalidChoiceError(value: string): string {
    "Select a valid choice. " + value + " is not one of the available choices."
  }

  predicate IsChoice(value: string) {
    exists i :: 0 <= i < |CategoryChoices| && CategoryChoices[i].0 == value
  }

  /** An optional `ChoiceField` (no stripping): a missing value reads as "",
      which is accepted; any other value must be one of the choices. */
  function CleanCategory(raw: Option<string>): (r: FieldResult)
    ensures r.Clean? <==> raw.None? || raw.value == "" || ParseCategory(raw.value).Some?
    ensures r.Clean? ==> r.value == raw.GetOr("")
    ensures r.Invalid? ==> r == Invalid([InvalidChoiceError(raw.value)])
  {
    var v := raw.GetOr("");
    assert forall i :: 0 <= i < |CategoryChoices| ==> i == 0 || CategoryValue(AllCategories[i - 1]) == CategoryChoices[i].0;
    assert CategoryChoices[1].0 == "schedules" && CategoryChoices[2].0 == "documents";
    assert CategoryChoices[3].0 == "scholarships" && CategoryChoices[4].0 == "exams";
    assert CategoryChoices[5].0 == "administration" && CategoryChoices[6].0 == "general";
    if v == "" then Clean("")
    else if IsChoice(v) then
      Clean(v)
    else
      Invalid([InvalidChoiceError(v)])
  }

  /** Every FAQ category's stored value is an accepted choice. */
  lemma EveryCategoryIsAChoice(c: Category)
    ensures CleanCategory(Some(CategoryValue(c))) == Clean(CategoryValue(c))
  {
  }

  datatype SearchForm = SearchForm(q: string, category: string)

  datatype SearchFormResult =
    | ValidSearch(form: SearchForm)
    | InvalidSearch(qErrors: seq<string>, categoryErrors: seq<string>)

  /** `FAQSearchForm`: both fields optional; the query is stripped and at
      most 200 characters; the category is "" or a FAQ category. */
  function CleanSearchForm(q: Option<string>, category: Option<string>): (r: SearchFormResult)
    ensures r.ValidSearch? <==> CleanCharField(q, false, QueryMaxLength).Clean? && CleanCategory(category).Clean?
    ensures r.ValidSearch? ==>
      && |r.form.q| <= QueryMaxLength
      && r.form.q == (if q.None? then "" else Strip(q.value))
      && (r.form.category == "" || ParseCategory(r.form.category).Some?)
    ensures q.None? && category.None? ==> r == ValidSearch(SearchForm("", ""))
  {
    var qr := CleanCharField(q, false, QueryMaxLength);
    var cr := CleanCategory(category);
    if qr.Clean? && cr.Clean? then ValidSearch(SearchForm(qr.value, cr.value))
    else InvalidSearch(if qr.Invalid? then qr.errors else [], if cr.Invalid? then cr.errors else [])
  }
}

=== FILE: models.dfy ===
/** The chat app's records (agent/models.py): FAQ entries, chat sessions and
    messages, request logs. A table is a sequence of records listed in the
    model's `Meta.ordering`; a timestamp is an `int` number of seconds. */
module Models {
  import opened Common
  import opened Text

  /** `FAQEntry.CATEGORY_CHOICES`. */
  datatype Category = Schedules | Documents | Scholarships | Exams | Administration | General

  const AllCategories: seq<Category> := [Schedules, Documents, Scholarships, Exams, Administration, General]

  /** The value stored in the `category` column. */
  function CategoryValue(c: Category): (v: string)
    ensures v != ""
  {
    match c
    case Schedules => "schedules"
    case Documents => "documents"
    case Scholarships => "scholarships"
    case Exams => "exams"
    case Administration => "administration"
    case General => "general"
  }

  /** The human-readable label of a choice. */
  function CategoryLabel(c: Category): string {
    match c
    case Schedules => "Schedules"
    case Documents => "Documents"
    case Scholarships => "Scholarships"
    case Exams => "Exams"
    case Administration => "Administration"
    case General => "General"
  }

  /** The category a stored value names, if it names one: the stored values
      are exactly the six choices and each reads back as its own category. */
  function ParseCategory(s: string): (r: Option<Category>)
    ensures r.Some? ==> CategoryValue(r.value) == s
    ensures forall c: Category :: CategoryValue(c) == s ==> r == Some(c)
  {
    if s == "schedules" then Some(Schedules)
    else if s == "documents" then Some(Documents)
    else if s == "scholarships" then Some(Scholarships)
    else if s == "exams" then Some(Exams)
    else if s == "administration" then Some(Administration)
    else if s == "general" then Some(General)
    else None
  }

  datatype FAQEntry = FAQEntry(
    id: int,
    question: string,
    answer: string,
    category: Category,
    keywords: string,
    createdAt: int,
    updatedAt: int,
    isActive: bool)

  /** An entry created with only question, answer and keywords given: the
      column defaults make it a `general`, active entry stamped `now`. */
  function NewFAQEntry(id: int, question: string, answer: string, keywords: string, now: int): (e: FAQEntry)
    ensures e.category == General && e.isActive
    ensures e.createdAt == now && e.updatedAt == now
    ensures e.question == question && e.answer == answer && e.keywords == keywords
  {
    FAQEntry(id, question, answer, General, keywords, now, now, true)
  }

  /** `ordering = ['-created_at']`: newest entry first. */
  predicate NewestFirst(entries: seq<FAQEntry>) {
    forall i, j :: 0 <= i < j < |entries| ==> entries[i].createdAt >= entries[j].createdAt
  }

  /** Any subsequence of a newest-first table is newest first, so a filtered,
      truncated query keeps the table's order. */
  lemma {:induction false} SubsequenceKeepsNewestFirst(sub: seq<FAQEntry>, entries: seq<FAQEntry>)
    requires NewestFirst(entries) && IsSubsequence(sub, entries)
    ensures NewestFirst(sub)
    decreases |entries|
  {
    if |sub| > 0 && |entries| > 0 {
      if sub[0] == entries[0] {
        SubsequenceKeepsNewestFirst(sub[1..], entries[1..]);
        SubsequenceMembers(sub[1..], entries[1..]);
        forall j | 0 < j < |sub|
          ensures sub[0].createdAt >= sub[j].createdAt
        {
          assert sub[j] == sub[1..][j - 1];
          assert sub[j] in sub[1..];
          assert sub[j] in entries[1..];
          var k :| 0 <= k < |entries[1..]| && entries[1..][k] == sub[j];
          assert entries[k + 1] == sub[j];
        }
        forall i, j | 0 <= i < j < |sub|
          ensures sub[i].createdAt >= sub[j].createdAt
        {
          if i > 0 {
            assert sub[i] == sub[1..][i - 1] && sub[j] == sub[1..][j - 1];
          }
        }
      } else {
        SubsequenceKeepsNewestFirst(sub, entries[1..]);
      }
    }
  }

  /** `FAQEntry.__str__`: the stored category, ": ", the first 50 characters
      of the question, and "..." whether or not anything was cut. */
  function FAQEntryStr(e: FAQEntry): (s: string)
    ensures IsPrefix(CategoryValue(e.category) + ": ", s)
    ensures IsSuffix("...", s)
    ensures |s| == |CategoryValue(e.category)| + 2 + (if |e.question| <= 50 then |e.question| else 50) + 3
    ensures |e.question| <= 50 ==> s == CategoryValue(e.category) + ": " + e.question + "..."
    ensures |e.question| > 50 ==> s == CategoryValue(e.category) + ": " + e.question[..50] + "..."
  {
    CategoryValue(e.category) + ": " + Take(e.question, 50) + "..."
  }

  /** The text between the category's ": " and the dots is the start of
      the question, so the question can be read back up to 50 characters. */
  lemma FAQEntryStrShowsQuestion(e: FAQEntry)
    ensures var s := FAQEntryStr(e);
      var shown := s[|CategoryValue(e.category)| + 2 .. |s| - 3];
      && IsPrefix(shown, e.question)
      && |shown| == (if |e.question| <= 50 then |e.question| else 50)
  {
    var s := FAQEntryStr(e);
    var head := CategoryValue(e.category) + ": ";
    var shown := Take(e.question, 50);
    assert s == head + shown + "...";
    assert s[|head| .. |s| - 3] == shown;
  }

  datatype ChatSession = ChatSession(sessionId: string, createdAt: int)

  /** `ChatMessage.MESSAGE_TYPES` plus `Voice`: the voice endpoint stores
      'voice', which is outside the declared choices (Django does not check
      choices on `create`). */
  datatype MessageType = User | Assistant | System | Voice

  function MessageTypeValue(t: MessageType): string {
    match t
    case User => "user"
    case Assistant => "assistant"
    case System => "system"
    case Voice => "voice"
  }

  /** Whether a stored type is one of the three declared choices. */
  predicate IsDeclaredMessageType(t: MessageType) {
    t != Voice
  }

  datatype ChatMessage = ChatMessage(
    id: int,
    sessionId: string,
    messageType: MessageType,
    content: string,
    timestamp: int,
    responseTime: Option<real>,
    tokensUsed: Option<int>,
    modelUsed: Option<string>)

  /** `ordering = ['timestamp']`: oldest message first. */
  predicate OldestFirst(messages: seq<ChatMessage>) {
    forall i, j :: 0 <= i < j < |messages| ==> messages[i].timestamp <= messages[j].timestamp
  }

  /** Appending a message stamped no earlier than every stored one keeps the
      table oldest first. */
  lemma AppendKeepsOldestFirst(messages: seq<ChatMessage>, m: ChatMessage)
    requires OldestFirst(messages)
    requires forall i :: 0 <= i < |messages| ==> messages[i].timestamp <= m.timestamp
    ensures OldestFirst(messages + [m])
  {
    var r := messages + [m];
    forall i, j | 0 <= i < j < |r| ensures r[i].timestamp <= r[j].timestamp {
      assert r[i] == messages[i];
    }
  }

  /** `ChatMessage.__str__`: type, ": ", the first 50 characters of the
      content, and "..." even when the content is 50 characters or fewer. */
  function ChatMessageStr(m: ChatMessage): (s: string)
    ensures IsPrefix(MessageTypeValue(m.messageType) + ": ", s)
    ensures IsSuffix("...", s)
    ensures |m.content| <= 50 ==> s == MessageTypeValue(m.messageType) + ": " + m.content + "..."
    ensures |m.content| > 50 ==> |s| == |MessageTypeValue(m.messageType)| + 55
    ensures |m.content| > 50 ==> s == MessageTypeValue(m.messageType) + ": " + m.content[..50] + "..."
  {
    MessageTypeValue(m.messageType) + ": " + Take(m.content, 50) + "..."
  }

  /** The text between the type's ": " and the dots is the start of the
      content, so the content can be read back up to 50 characters. */
  lemma ChatMessageStrShowsContent(m: ChatMessage)
    ensures var s := ChatMessageStr(m);
      var shown := s[|MessageTypeValue(m.messageType)| + 2 .. |s| - 3];
      && IsPrefix(shown, m.content)
      && |shown| == (if |m.content| <= 50 then |m.content| else 50)
  {
    var s := ChatMessageStr(m);
    var head := MessageTypeValue(m.messageType) + ": ";
    var shown := Take(m.content, 50);
    assert s == head + shown + "...";
    assert s[|head| .. |s| - 3] == shown;
  }

  /** A `RequestLog` row; the many-to-many `kb_entries_used` is the list of
      FAQ entry ids. */
  datatype RequestLog = RequestLog(
    sessionId: Option<string>,
    userMessage: string,
    aiResponse: string,
    responseTime: real,
    timestamp: int,
    apiSuccess: bool,
    errorMessage: string,
    tokensUsed: Option<int>,
    kbEntryIds: seq<int>)

  /** A log created with only the mandatory columns: `api_success` defaults
      to true and `error_message` to blank. */
  function NewRequestLog(userMessage: string, aiResponse: string, responseTime: real, now: int): (l: RequestLog)
    ensures l.apiSuccess && l.errorMessage == ""
    ensures l.sessionId.None? && l.tokensUsed.None? && l.kbEntryIds == []
    ensures l.userMessage == userMessage && l.aiResponse == aiResponse && l.timestamp == now
  {
    RequestLog(None, userMessage, aiResponse, responseTime, now, true, "", None, [])
  }

  /** `ordering = ['-timestamp']`: newest log first. */
  predicate LogsNewestFirst(logs: seq<RequestLog>) {
    forall i, j :: 0 <= i < j < |logs| ==> logs[i].timestamp >= logs[j].timestamp
  }

  /** Putting a log stamped no earlier than every stored one at the front
      keeps the table newest first. */
  lemma PrependKeepsLogsNewestFirst(logs: seq<RequestLog>, l: RequestLog)
    requires LogsNewestFirst(logs)
    requires forall i :: 0 <= i < |logs| ==> logs[i].timestamp <= l.timestamp
    ensures LogsNewestFirst([l] + logs)
  {
    var r := [l] + logs;
    forall i, j | 0 <= i < j < |r| ensures r[i].timestamp >= r[j].timestamp {
      assert r[j] == logs[j - 1];
      if i > 0 { assert r[i] == logs[i - 1]; }
    }
  }
}

=== FILE: multimodal.dfy ===
/** The decision rules of agent/multimodal_utils.py: content typing by MIME
    type or magic bytes, colour naming and the dominant-colour list, text
    intent, the combined context and reply suggestions of a multimodal
    message, and the document-type dispatch. What the imaging and parsing
    libraries compute (the guessed MIME type, the colour histogram, the
    decoded text, the parsed CSV rows) is an input. */
module Multimodal {
  import opened Common
  import opened Text

  // ---------------------------------------------------------------------
  // detect_content_type

  datatype ContentKind = ImageKind | DocumentKind | AudioKind | VideoKind | UnknownKind

  function ContentKindValue(k: ContentKind): string {
    match k
    case ImageKind => "image"
    case DocumentKind => "document"
    case AudioKind => "audio"
    case VideoKind => "video"
    case UnknownKind => "unknown"
  }

  function Bytes(s: string): seq<byte>
    requires forall i :: 0 <= i < |s| ==> s[i] as int < 256
  {
    seq(|s|, i requires 0 <= i < |s| => s[i] as int as byte)
  }

  const JpegMagic: seq<byte> := [0xFF, 0xD8, 0xFF]
  const PngMagic: seq<byte> := [0x89, 0x50, 0x4E, 0x47]
  const GifMagic: seq<byte> := [0x47, 0x49, 0x46, 0x38]
  const PdfMagic: seq<byte> := [0x25, 0x50, 0x44, 0x46]
  const ZipMagic: seq<byte> := [0x50, 0x4B]

  /** The MIME types read as documents. */
  const DocumentMimeTypes: seq<string> := [
    "application/pdf", "text/plain",
    "application/vnd.openxmlformats-officedocument.wordprocessingml.document",
    "application/vnd.openxmlformats-officedocument.spreadsheetml.sheet",
    "application/vnd.ms-excel", "text/csv"]

  /** The kind a file's leading bytes announce. */
  function KindFromMagic(content: seq<byte>): (k: ContentKind)
    ensures k == ImageKind <==> IsPrefix(JpegMagic, content) || IsPrefix(PngMagic, content) || IsPrefix(GifMagic, content)
    ensures k == DocumentKind <==>
      && !(IsPrefix(JpegMagic, content) || IsPrefix(PngMagic, content) || IsPrefix(GifMagic, content))
      && (IsPrefix(PdfMagic, content) || IsPrefix(ZipMagic, content))
    ensures k != AudioKind && k != VideoKind
  {
    if IsPrefix(JpegMagic, content) || IsPrefix(PngMagic, content) || IsPrefix(GifMagic, content) then ImageKind
    else if IsPrefix(PdfMagic, content) || IsPrefix(ZipMagic, content) then DocumentKind
    else UnknownKind
  }

  /** The kind a MIME type names. */
  function KindFromMime(mime: string): (k: ContentKind)
    ensures k == ImageKind <==> IsPrefix("image/", mime)
    ensures k == AudioKind <==> !IsPrefix("image/", mime) && IsPrefix("audio/", mime)
    ensures k == VideoKind <==> !IsPrefix("image/", mime) && !IsPrefix("audio/", mime) && IsPrefix("video/", mime)
    ensures k == DocumentKind <==>
      !IsPrefix("image/", mime) && !IsPrefix("audio/", mime) && !IsPrefix("video/", mime) && mime in DocumentMimeTypes
    ensures k == UnknownKind <==>
      !IsPrefix("image/", mime) && !IsPrefix("audio/", mime) && !IsPrefix("video/", mime) && mime !in DocumentMimeTypes
  {
    if IsPrefix("image/", mime) then ImageKind
    else if IsPrefix("audio/", mime) then AudioKind
    else if IsPrefix("video/", mime) then VideoKind
    else if mime in DocumentMimeTypes then DocumentKind
    else UnknownKind
  }

  /** `detect_content_type`: the MIME type guessed from the file name
      decides when there is one; the leading bytes decide otherwise. */
  function DetectContentType(content: seq<byte>, guessedMime: Option<string>): (k: ContentKind)
    ensures guessedMime.None? || guessedMime.value == "" ==> k == KindFromMagic(content)
    ensures guessedMime.Some? && guessedMime.value != "" ==> k == KindFromMime(guessedMime.value)
  {
    if guessedMime.None? || guessedMime.value == "" then KindFromMagic(content)
    else KindFromMime(guessedMime.value)
  }

  /** No content starts with two of the five signatures, so the order the
      signatures are tried in does not matter. */
  lemma SignaturesExclusive(content: seq<byte>)
    ensures var sigs := [JpegMagic, PngMagic, GifMagic, PdfMagic, ZipMagic];
      forall i, j :: 0 <= i < j < |sigs| ==> !(IsPrefix(sigs[i], content) && IsPrefix(sigs[j], content))
  {
    var sigs := [JpegMagic, PngMagic, GifMagic, PdfMagic, ZipMagic];
    forall i, j | 0 <= i < j < |sigs|
      ensures !(IsPrefix(sigs[i], content) && IsPrefix(sigs[j], content))
    {
      assert sigs[i][0] != sigs[j][0];
    }
  }

  // ---------------------------------------------------------------------
  // ImageAnalyzer colour naming

  datatype ColorName =
    | White | Black | Red | DarkRed | Green | DarkGreen | Blue | DarkBlue
    | Yellow | Pink | LightBlue | Grey

  function ColorNameText(c: ColorName): string {
    match c
    case White => "белый"
    case Black => "черный"
    case Red => "красный"
    case DarkRed => "темно-красный"
    case Green => "зеленый"
    case DarkGreen => "темно-зеленый"
    case Blue => "синий"
    case DarkBlue => "темно-синий"
    case Yellow => "желтый"
    case Pink => "розовый"
    case LightBlue => "голубой"
    case Grey => "серый"
  }

  predicate IsWhite(r: int, g: int, b: int) { r > 200 && g > 200 && b > 200 }
  predicate IsBlack(r: int, g: int, b: int) { r < 50 && g < 50 && b < 50 }

  /** No channel is strictly larger than both others. */
  predicate NoDominantChannel(r: int, g: int, b: int) {
    !(r > g && r > b) && !(g > r && g > b) && !(b > r && b > g)
  }

  /** None of the white, black or single-channel rules applies. */
  predicate PastChannelRules(r: int, g: int, b: int) {
    !IsWhite(r, g, b) && !IsBlack(r, g, b) && NoDominantChannel(r, g, b)
  }

  /** `_rgb_to_color_name`, its rules tried in order: near-white, near-black,
      a strictly dominant channel (bright above 150, dark otherwise), then
      two bright channels, then grey. */
  function RgbToColorName(r: int, g: int, b: int): (c: ColorName)
    ensures c == White <==> IsWhite(r, g, b)
    ensures c == Black <==> !IsWhite(r, g, b) && IsBlack(r, g, b)
    ensures c in {Red, DarkRed} <==> !IsWhite(r, g, b) && !IsBlack(r, g, b) && r > g && r > b
    ensures c in {Green, DarkGreen} <==> !IsWhite(r, g, b) && !IsBlack(r, g, b) && g > r && g > b
    ensures c in {Blue, DarkBlue} <==> !IsWhite(r, g, b) && !IsBlack(r, g, b) && b > r && b > g
    ensures c == Red ==> r > 150
    ensures c == DarkRed ==> r <= 150
    ensures c == Green ==> g > 150
    ensures c == DarkGreen ==> g <= 150
    ensures c == Blue ==> b > 150
    ensures c == DarkBlue ==> b <= 150
    ensures c == Yellow <==> PastChannelRules(r, g, b) && r > 150 && g > 150
    ensures c == Pink <==> PastChannelRules(r, g, b) && !(r > 150 && g > 150) && r > 150 && b > 150
    ensures c == LightBlue <==>
      PastChannelRules(r, g, b) && !(r > 150 && g > 150) && !(r > 150 && b > 150) && g > 150 && b > 150
  {
    if IsWhite(r, g, b) then White
    else if IsBlack(r, g, b) then Black
    else if r > g && r > b then (if r > 150 then Red else DarkRed)
    else if g > r && g > b then (if g > 150 then Green else DarkGreen)
    else if b > r && b > g then (if b > 150 then Blue else DarkBlue)
    else if r > 150 && g > 150 then Yellow
    else if r > 150 && b > 150 then Pink
    else if g > 150 && b > 150 then LightBlue
    else Grey
  }

  /** Grey is what is left when no channel dominates and no two channels
      are bright. */
  lemma GreyIsTheRest(r: int, g: int, b: int)
    ensures RgbToColorName(r, g, b) == Grey <==>
      && !IsWhite(r, g, b) && !IsBlack(r, g, b)
      && !(r > g && r > b) && !(g > r && g > b) && !(b > r && b > g)
      && !(r > 150 && g > 150) && !(r > 150 && b > 150) && !(g > 150 && b > 150)
  {
  }

  /** One histogram bin of `getcolors`: a pixel count and a colour. */
  datatype ColorCount = ColorCount(count: int, r: int, g: int, b: int)

  predicate ByCountDesc(s: seq<ColorCount>) {
    forall i, j :: 0 <= i < j < |s| ==> s[i].count >= s[j].count
  }

  /** Insert a bin into a count-descending list before the bins of equal
      count. */
  function InsertByCount(x: ColorCount, sorted: seq<ColorCount>): (r: seq<ColorCount>)
    ensures multiset(r) == multiset(sorted) + multiset{x}
    ensures r[0] == x || (|sorted| > 0 && r[0] == sorted[0])
    decreases |sorted|
  {
    if |sorted| == 0 || x.count >= sorted[0].count then [x] + sorted
    else
      assert sorted == [sorted[0]] + sorted[1..];
      [sorted[0]] + InsertByCount(x, sorted[1..])
  }

  /** The bins after the head of a sorted list count no more than it does,
      and inserting a smaller bin behind that head keeps it so. */
  lemma HeadDominatesInsert(x: ColorCount, sorted: seq<ColorCount>)
    requires ByCountDesc(sorted) && |sorted| > 0 && x.count < sorted[0].count
    ensures var rest := InsertByCount(x, sorted[1..]);
      forall j :: 0 <= j < |rest| ==> rest[j].count <= sorted[0].count
  {
    var rest := InsertByCount(x, sorted[1..]);
    forall j | 0 <= j < |rest|
      ensures rest[j].count <= sorted[0].count
    {
      assert rest[j] in multiset(rest);
      if rest[j] != x {
        assert rest[j] in multiset(sorted[1..]);
        var k :| 0 <= k < |sorted[1..]| && sorted[1..][k] == rest[j];
        assert sorted[k + 1] == rest[j];
      }
    }
  }

  lemma {:induction false} InsertKeepsByCount(x: ColorCount, sorted: seq<ColorCount>)
    requires ByCountDesc(sorted)
    ensures ByCountDesc(InsertByCount(x, sorted))
    decreases |sorted|
  {
    if |sorted| > 0 && x.count < sorted[0].count {
      var rest := InsertByCount(x, sorted[1..]);
      InsertKeepsByCount(x, sorted[1..]);
      HeadDominatesInsert(x, sorted);
      var r := [sorted[0]] + rest;
      assert r == InsertByCount(x, sorted);
      forall i, j | 0 <= i < j < |r|
        ensures r[i].count >= r[j].count
      {
        assert r[j] == rest[j - 1];
        if i > 0 { assert r[i] == rest[i - 1]; }
      }
    }
  }

  /** The bins of one count, in their order. */
  function WithCount(s: seq<ColorCount>, c: int): (r: seq<ColorCount>)
    ensures forall i :: 0 <= i < |r| ==> r[i].count == c
    decreases |s|
  {
    if |s| == 0 then []
    else (if s[0].count == c then [s[0]] else []) + WithCount(s[1..], c)
  }

  /** Insertion puts the new bin first among the bins of its count and
      leaves every other count's bins as they were. */
  lemma {:induction false} InsertByCountStable(x: ColorCount, sorted: seq<ColorCount>, c: int)
    ensures WithCount(InsertByCount(x, sorted), c) == (if x.count == c then [x] else []) + WithCount(sorted, c)
    decreases |sorted|
  {
    if |sorted| == 0 || x.count >= sorted[0].count {
      WithCountCons(x, sorted, c);
    } else {
      var head := sorted[0];
      var rest := InsertByCount(x, sorted[1..]);
      InsertByCountStable(x, sorted[1..], c);
      WithCountCons(head, rest, c);
      WithCountCons(head, sorted[1..], c);
      assert [head] + sorted[1..] == sorted;
      // `head` counts more than `x`, so at most one of them has count `c`.
      if x.count == c {
        assert WithCount(InsertByCount(x, sorted), c) == [x] + WithCount(sorted[1..], c);
      } else {
        assert WithCount(InsertByCount(x, sorted), c) == (if head.count == c then [head] else []) + WithCount(sorted[1..], c);
      }
    }
  }

  /** One step of `WithCount`. */
  lemma WithCountCons(h: ColorCount, t: seq<ColorCount>, c: int)
    ensures WithCount([h] + t, c) == (if h.count == c then [h] else []) + WithCount(t, c)
  {
    assert ([h] + t)[0] == h && ([h] + t)[1..] == t;
  }

  /** The histogram sorted by count, largest first, bins of equal count in
      their original order. */
  function SortByCount(colors: seq<ColorCount>): (r: seq<ColorCount>)
    ensures multiset(r) == multiset(colors)
    decreases |colors|
  {
    if |colors| == 0 then []
    else
      assert colors == [colors[0]] + colors[1..];
      InsertByCount(colors[0], SortByCount(colors[1..]))
  }

  /** Sorting is stable: the bins of each count keep their histogram
      order, so ties at the cut-off are broken by that order. */
  lemma {:induction false} SortByCountStable(colors: seq<ColorCount>, c: int)
    ensures WithCount(SortByCount(colors), c) == WithCount(colors, c)
    decreases |colors|
  {
    if |colors| > 0 {
      SortByCountStable(colors[1..], c);
      InsertByCountStable(colors[0], SortByCount(colors[1..]), c);
    }
  }

  /** The sorted histogram is a permutation of the histogram in which counts
      never increase. */
  lemma {:induction false} SortByCountSorted(colors: seq<ColorCount>)
    ensures ByCountDesc(SortByCount(colors))
    ensures multiset(SortByCount(colors)) == multiset(colors)
    decreases |colors|
  {
    if |colors| > 0 {
      SortByCountSorted(colors[1..]);
      InsertKeepsByCount(colors[0], SortByCount(colors[1..]));
    }
  }

  function Names(colors: seq<ColorCount>): (names: seq<ColorName>)
    ensures |names| == |colors|
    ensures forall i :: 0 <= i < |colors| ==> names[i] == RgbToColorName(colors[i].r, colors[i].g, colors[i].b)
  {
    seq(|colors|, i requires 0 <= i < |colors| => RgbToColorName(colors[i].r, colors[i].g, colors[i].b))
  }

  /** `_get_dominant_colors`: no histogram (too many colours) or an empty
      one gives no names; otherwise the names of the `numColors` most
      frequent bins, each name once. */
  function DominantColors(histogram: Option<seq<ColorCount>>, numColors: nat): (names: seq<ColorName>)
    ensures histogram.None? || histogram.value == [] ==> names == []
    ensures forall i, j :: 0 <= i < j < |names| ==> names[i] != names[j]
    ensures |names| <= numColors
    ensures histogram.Some? ==>
      var top := Take(SortByCount(histogram.value), numColors);
      && (forall i :: 0 <= i < |names| ==> names[i] in Names(top))
      && (forall k :: 0 <= k < |top| ==> RgbToColorName(top[k].r, top[k].g, top[k].b) in names)
      && InFirstOccurrenceOrder(names, Names(top))
  {
    if histogram.None? || histogram.value == [] then []
    else
      var top := Take(SortByCount(histogram.value), numColors);
      var all := Names(top);
      DistinctInFirstOccurrenceOrder(all);
      Distinct(all)
  }

  /** Every bin among the top ones outnumbers, or ties with, every bin left
      out. */
  lemma TopBinsOutnumberTheRest(histogram: seq<ColorCount>, numColors: nat)
    ensures var sorted := SortByCount(histogram);
      forall i, j :: 0 <= i < numColors <= j < |sorted| ==> sorted[i].count >= sorted[j].count
  {
    SortByCountSorted(histogram);
  }

  // ---------------------------------------------------------------------
  // MultimodalProcessor: text intent, combined context, suggestions

  datatype TextIntent = Question | Request | Greeting | Gratitude | Complaint | Statement

  /** The intents in the order they are tried. */
  const IntentOrder: seq<TextIntent> := [Question, Request, Greeting, Gratitude, Complaint]

  /** Each place in `IntentOrder` holds the intent whose index it is. */
  lemma IntentAt(k: nat)
    requires k < |IntentOrder|
    ensures IntentOrder[k] != Statement && IntentIndex(IntentOrder[k]) == k
  {
  }

  /** An intent's place in `IntentOrder`. */
  function IntentIndex(i: TextIntent): (k: nat)
    requires i != Statement
    ensures k < |IntentOrder| && IntentOrder[k] == i
  {
    match i
    case Question => 0
    case Request => 1
    case Greeting => 2
    case Gratitude => 3
    case Complaint => 4
  }

  function IntentKeywords(i: TextIntent): seq<string> {
    match i
    case Question => ["что", "как", "когда", "где", "почему", "зачем", "?"]
    case Request => ["можешь", "помоги", "нужно", "требуется", "сделай"]
    case Greeting => ["привет", "здравствуй", "добро пожаловать", "хай"]
    case Gratitude => ["спасибо", "благодарю", "спс", "thanks"]
    case Complaint => ["не работает", "ошибка", "проблема", "баг"]
    case Statement => []
  }

  /** Whether a keyword of the intent occurs in the lower-cased text. */
  predicate IntentHit(text: string, i: TextIntent) {
    CountContained(IntentKeywords(i), Lower(text)) > 0
  }

  /** The index of the first intent in `order` with a keyword hit, or
      `|order|` when none has one. */
  function FirstHit(text: string, order: seq<TextIntent>): (k: nat)
    ensures k <= |order|
    ensures k < |order| ==> IntentHit(text, order[k])
    ensures forall j :: 0 <= j < k ==> !IntentHit(text, order[j])
    decreases |order|
  {
    if |order| == 0 then 0
    else if IntentHit(text, order[0]) then 0
    else
      var k := FirstHit(text, order[1..]);
      assert forall j :: 1 <= j < k + 1 ==> order[j] == order[1..][j - 1];
      k + 1
  }

  /** `_detect_text_intent`: the first of question, request, greeting,
      gratitude, complaint with a keyword in the lower-cased text, else a
      statement. */
  function DetectTextIntent(text: string): (r: TextIntent)
    ensures r == Statement <==> forall k :: 0 <= k < |IntentOrder| ==> !IntentHit(text, IntentOrder[k])
    ensures r != Statement ==> IntentHit(text, r)
    ensures r != Statement ==> forall j :: 0 <= j < IntentIndex(r) ==> !IntentHit(text, IntentOrder[j])
  {
    var k := FirstHit(text, IntentOrder);
    if k < |IntentOrder| then
      IntentAt(k);
      IntentOrder[k]
    else Statement
  }

  /** What one attachment's analysis reports: whether it succeeded and the
      optional description, extracted text, document content and type. */
  datatype Analysis = Analysis(
    success: bool,
    description: Option<string>,
    extractedText: Option<string>,
    content: Option<string>,
    kind: Option<string>)

  const UserWrote := "Пользователь написал: "

  /** The context parts one successful analysis contributes, numbered from 1. */
  function AnalysisParts(a: Analysis, n: nat): (parts: seq<string>)
    ensures !a.success ==> parts == []
    ensures |parts| <= 3
  {
    if !a.success then []
    else
      (if a.description.Some? then ["Прикрепленное изображение " + NatToString(n) + ": " + a.description.value] else [])
      + (if a.extractedText.Some? && a.extractedText.value != "" then ["Текст из изображения " + NatToString(n) + ": " + a.extractedText.value] else [])
      + (if a.content.Some? then ["Содержимое документа " + NatToString(n) + ": " + Take(a.content.value, 200) + "..."] else [])
  }

  /** The parts of all the analyses, the k-th numbered `first + k`. */
  function AllAnalysisParts(analyses: seq<Analysis>, first: nat): (parts: seq<string>)
    ensures (forall i :: 0 <= i < |analyses| ==> !analyses[i].success) ==> parts == []
  {
    if forall i :: 0 <= i < |analyses| ==> !analyses[i].success then
      FlatMapFromNil(analyses, first, AnalysisParts);
      FlatMapFrom(analyses, first, AnalysisParts)
    else FlatMapFrom(analyses, first, AnalysisParts)
  }

  lemma {:induction false} JoinWithHead(head: string, rest: seq<string>, sep: string)
    ensures IsPrefix(head, JoinWith([head] + rest, sep))
    ensures rest == [] ==> JoinWith([head] + rest, sep) == head
  {
    if rest != [] {
      assert ([head] + rest)[1..] == rest;
    }
  }

  /** `_combine_context`: "Пользователь написал: " and the text, then the
      parts of each successful analysis, space-separated. Without a
      successful analysis it is exactly the first part. */
  function CombineContext(text: string, analyses: seq<Analysis>): (r: string)
    ensures IsPrefix(UserWrote + text, r)
    ensures (forall i :: 0 <= i < |analyses| ==> !analyses[i].success) ==> r == UserWrote + text
  {
    var rest := AllAnalysisParts(analyses, 1);
    JoinWithHead(UserWrote + text, rest, " ");
    JoinWith([UserWrote + text] + rest, " ")
  }

  /** Combining with one more analysis extends the previous context by
      that analysis' parts, numbered by its position, each after a space;
      a failed analysis adds nothing. */
  lemma CombineContextSnoc(text: string, analyses: seq<Analysis>, a: Analysis)
    ensures CombineContext(text, analyses + [a])
      == JoinWith([CombineContext(text, analyses)] + AnalysisParts(a, |analyses| + 1), " ")
    ensures !a.success ==> CombineContext(text, analyses + [a]) == CombineContext(text, analyses)
  {
    var head := [UserWrote + text];
    var before := AllAnalysisParts(analyses, 1);
    var added := AnalysisParts(a, |analyses| + 1);
    FlatMapFromSnoc(analyses, a, 1, AnalysisParts);
    assert head + AllAnalysisParts(analyses + [a], 1) == (head + before) + added;
    JoinWithAppend(head + before, added, " ");
    if !a.success {
      assert [CombineContext(text, analyses)] + added == [CombineContext(text, analyses)];
    }
  }

  const AnswerQuestion := "Ответить на вопрос пользователя"
  const FulfilRequest := "Выполнить запрос пользователя"
  const AnalyseImageText := "Проанализировать текст из изображения"
  const ProcessDocumentContent := "Обработать содержимое документа"

  /** A successful analysis with extracted text or of a document. */
  predicate Suggests(a: Analysis) {
    a.success && ((a.extractedText.Some? && a.extractedText.value != "") || a.kind == Some("document"))
  }

  /** The suggestions one analysis contributes: one for extracted text,
      one for a document, and none for a failed analysis. */
  function SuggestionsFor(a: Analysis): (r: seq<string>)
    ensures forall i :: 0 <= i < |r| ==> r[i] == AnalyseImageText || r[i] == ProcessDocumentContent
    ensures r == [] <==> !Suggests(a)
    ensures |r| <= 2
  {
    if !a.success then []
    else (if a.extractedText.Some? && a.extractedText.value != "" then [AnalyseImageText] else [])
         + (if a.kind == Some("document") then [ProcessDocumentContent] else [])
  }

  /** The suggestions the analyses contribute, in order. */
  function AttachmentSuggestions(analyses: seq<Analysis>): (r: seq<string>)
    ensures forall i :: 0 <= i < |r| ==> r[i] == AnalyseImageText || r[i] == ProcessDocumentContent
    ensures r == [] <==> forall i :: 0 <= i < |analyses| ==> !Suggests(analyses[i])
    ensures |r| <= 2 * |analyses|
  {
    var r := FlatMap(analyses, SuggestionsFor);
    FlatMapNil(analyses, SuggestionsFor);
    FlatMapLength(analyses, SuggestionsFor, 2);
    forall i | 0 <= i < |r|
      ensures r[i] == AnalyseImageText || r[i] == ProcessDocumentContent
    {
      FlatMapMember(analyses, SuggestionsFor, r[i]);
    }
    r
  }

  /** The suggestions of two runs of analyses are those of each, in order. */
  lemma AttachmentSuggestionsAppend(xs: seq<Analysis>, ys: seq<Analysis>)
    ensures AttachmentSuggestions(xs + ys) == AttachmentSuggestions(xs) + AttachmentSuggestions(ys)
  {
    FlatMapAppend(xs, ys, SuggestionsFor);
  }

  /** The suggestion a question or request leads with. */
  function LeadSuggestion(intent: Option<TextIntent>): (r: seq<string>)
    ensures |r| <= 1
    ensures r == [AnswerQuestion] <==> intent == Some(Question)
    ensures r == [FulfilRequest] <==> intent == Some(Request)
    ensures r == [] <==> intent != Some(Question) && intent != Some(Request)
  {
    if intent == Some(Question) then [AnswerQuestion]
    else if intent == Some(Request) then [FulfilRequest] else []
  }

  /** `_generate_suggestions`: one suggestion for a question or a request,
      then one per extracted text and per document among the successful
      analyses; at most three. */
  function GenerateSuggestions(intent: Option<TextIntent>, analyses: seq<Analysis>): (r: seq<string>)
    ensures |r| <= 3
    ensures intent == Some(Question) ==> |r| >= 1 && r[0] == AnswerQuestion
    ensures intent == Some(Request) ==> |r| >= 1 && r[0] == FulfilRequest
    ensures forall i :: 0 <= i < |r| ==> r[i] in {AnswerQuestion, FulfilRequest, AnalyseImageText, ProcessDocumentContent}
    ensures (forall i :: 0 <= i < |analyses| ==> !analyses[i].success) ==> |r| <= 1
    ensures var all := LeadSuggestion(intent) + AttachmentSuggestions(analyses);
      IsPrefix(r, all) && |r| == (if |all| < 3 then |all| else 3)
    ensures r == [] <==> LeadSuggestion(intent) == [] && forall i :: 0 <= i < |analyses| ==> !Suggests(analyses[i])
  {
    Take(LeadSuggestion(intent) + AttachmentSuggestions(analyses), 3)
  }

  // ---------------------------------------------------------------------
  // DocumentProcessor

  /** Python's `str.splitlines` line boundaries. */
  predicate IsLineBreak(c: char) {
    c == '\n' || c == '\r' || c == '\U{0B}' || c == '\U{0C}' || c == '\U{1C}' || c == '\U{1D}'
    || c == '\U{1E}' || c == '\U{85}' || c == '\U{2028}' || c == '\U{2029}'
  }

  /** The number of line boundaries, "\r\n" counting once. */
  function LineBreaks(s: string): nat
    decreases |s|
  {
    if |s| == 0 then 0
    else if s[0] == '\r' && |s| > 1 && s[1] == '\n' then 1 + LineBreaks(s[2..])
    else (if IsLineBreak(s[0]) then 1 else 0) + LineBreaks(s[1..])
  }

  /** `len(s.splitlines())`: one line per boundary, plus a last line that
      has no boundary after it. */
  function LineCount(s: string): (n: nat)
    ensures n == 0 <==> s == []
  {
    if |s| > 0 && IsLineBreak(s[|s| - 1]) then
      LineBreaksPositive(s);
      LineBreaks(s)
    else LineBreaks(s) + (if |s| > 0 then 1 else 0)
  }

  lemma {:induction false} LineBreaksPositive(s: string)
    requires |s| > 0 && IsLineBreak(s[|s| - 1])
    ensures LineBreaks(s) > 0
    decreases |s|
  {
    if !(s[0] == '\r' && |s| > 1 && s[1] == '\n') && !IsLineBreak(s[0]) {
      LineBreaksPositive(s[1..]);
    }
  }

  /** With '\n' as the only line boundary, the '\n' count equals the number
      of '\n'-separated pieces minus one. */
  lemma {:induction false} NewlineBreaks(s: string)
    requires forall i :: 0 <= i < |s| ==> IsLineBreak(s[i]) ==> s[i] == '\n'
    ensures LineBreaks(s) + 1 == |SplitOn(s, '\n')|
    decreases |s|
  {
    if |s| > 0 {
      NewlineBreaks(s[1..]);
    }
  }

  /** On text whose only line boundary is '\n' and which does not end with
      one, `splitlines` and `split('\n')` count the same lines. */
  lemma SplitLinesAgreesWithSplit(s: string)
    requires s != []
    requires forall i :: 0 <= i < |s| ==> IsLineBreak(s[i]) ==> s[i] == '\n'
    requires s[|s| - 1] != '\n'
    ensures LineCount(s) == |SplitOn(s, '\n')|
  {
    NewlineBreaks(s);
  }

  /** What a document handler reports on success. */
  datatype DocumentInfo =
    | PdfInfo(pageCount: nat)
    | DocxInfo(wordCount: nat, paragraphCount: nat)
    | TxtInfo(characterCount: nat, wordCount: nat, lineCount: nat)
    | XlsxInfo(sheetCount: nat, rowCount: nat, columnCount: nat)
    | CsvInfo(headers: seq<string>, rowCount: nat, columnCount: nat, sample: seq<seq<string>>)

  datatype DocumentResult = DocumentOk(content: string, info: DocumentInfo) | DocumentError(error: string)

  const SupportedDocumentTypes: seq<string> := ["pdf", "docx", "txt", "xlsx", "csv"]

  /** `_process_csv` on the parsed rows: headers are the first row, data
      rows the others, three of them as a sample. */
  function ProcessCsv(rows: seq<seq<string>>): (r: DocumentResult)
    ensures r.DocumentOk? && r.info.CsvInfo?
    ensures rows == [] ==> r == DocumentOk("Пустой CSV файл", CsvInfo([], 0, 0, []))
    ensures rows != [] ==>
      && r.info.headers == rows[0] && r.info.columnCount == |rows[0]| && r.info.rowCount == |rows| - 1
      && r.info.sample == Take(rows[1..], 3)
  {
    if rows == [] then DocumentOk("Пустой CSV файл", CsvInfo([], 0, 0, []))
    else
      var headers := rows[0];
      var data := rows[1..];
      DocumentOk("CSV файл с " + NatToString(|headers|) + " колонками и " + NatToString(|data|) + " строками данных",
                 CsvInfo(headers, |data|, |headers|, Take(data, 3)))
  }

  /** `process_document`: pdf, docx and xlsx give their fixed placeholder,
      txt counts the decoded text, csv summarises the parsed rows, and any
      other type is refused by name. */
  function ProcessDocument(fileType: string, text: string, rows: seq<seq<string>>): (r: DocumentResult)
    ensures r.DocumentError? <==> fileType !in SupportedDocumentTypes
    ensures r.DocumentError? ==> r.error == "Unsupported document type: " + fileType
    ensures fileType == "txt" ==>
      r == DocumentOk(text, TxtInfo(|text|, |Words(text)|, LineCount(text)))
    ensures fileType == "csv" ==> r == ProcessCsv(rows)
  {
    if fileType == "pdf" then DocumentOk("[PDF обработка требует настройки библиотеки PyPDF2]", PdfInfo(1))
    else if fileType == "docx" then DocumentOk("[DOCX обработка требует настройки библиотеки python-docx]", DocxInfo(0, 0))
    else if fileType == "txt" then DocumentOk(text, TxtInfo(|text|, |Words(text)|, LineCount(text)))
    else if fileType == "xlsx" then DocumentOk("[Excel обработка требует настройки библиотеки openpyxl]", XlsxInfo(1, 0, 0))
    else if fileType == "csv" then ProcessCsv(rows)
    else DocumentError("Unsupported document type: " + fileType)
  }
}

=== FILE: text.dfy ===
/** The handful of Python `str` operations the chatbot's rules are written
    with, on `string` = `seq<char>` (one element per Unicode code point, as a
    Python `str`): `isspace`, `lower`, `strip`, `split()`, `split(c)`,
    `sep.join`, `in` (substring), slicing `[:n]`, `str(int)`. */
module Text {

  /** Python's `str.isspace()` for one code point. */
  predicate IsSpace(c: char) {
    || c == ' ' || c == '\t' || c == '\n' || c == '\r' || c == '\U{0B}' || c == '\U{0C}'
    || ('\U{1C}' <= c <= '\U{1F}') || c == '\U{85}' || c == '\U{A0}' || c == '\U{1680}'
    || ('\U{2000}' <= c <= '\U{200A}') || c == '\U{2028}' || c == '\U{2029}'
    || c == '\U{202F}' || c == '\U{205F}' || c == '\U{3000}'
  }

  /** Every code point of `s` is whitespace (true of the empty string). */
  predicate IsBlank(s: string) {
    forall i :: 0 <= i < |s| ==> IsSpace(s[i])
  }

  /** No code point of `s` is whitespace. */
  predicate NoSpace(s: string) {
    forall i :: 0 <= i < |s| ==> !IsSpace(s[i])
  }

  /** Python's `lower()` on the two alphabets the bot's texts use: ASCII
      `A`..`Z` and the Cyrillic capitals U+0400..U+042F. Every other code
      point is left as it is. */
  function LowerChar(c: char): char {
    if 'A' <= c <= 'Z' then (c as int + 32) as char
    else if '\U{0410}' <= c <= '\U{042F}' then (c as int + 32) as char
    else if '\U{0400}' <= c <= '\U{040F}' then (c as int + 80) as char
    else c
  }

  function Lower(s: string): (r: string)
    ensures |r| == |s|
    ensures forall i :: 0 <= i < |s| ==> r[i] == LowerChar(s[i])
  {
    seq(|s|, i requires 0 <= i < |s| => LowerChar(s[i]))
  }

  /** Lower-casing twice is lower-casing once. */
  lemma LowerIdempotent(s: string)
    ensures Lower(Lower(s)) == Lower(s)
  {
  }

  lemma LowerConcat(a: string, b: string)
    ensures Lower(a + b) == Lower(a) + Lower(b)
  {
  }

  predicate IsPrefix<T(==)>(p: seq<T>, s: seq<T>) {
    |p| <= |s| && s[..|p|] == p
  }

  predicate IsSuffix<T(==)>(p: seq<T>, s: seq<T>) {
    |p| <= |s| && s[|s| - |p|..] == p
  }

  /** Python's `sub in s` on strings: `sub` occurs as a contiguous piece of `s`. */
  predicate Contains(s: string, sub: string)
    decreases |s|
  {
    IsPrefix(sub, s) || (|s| > 0 && Contains(s[1..], sub))
  }

  /** `Contains` agrees with the positional reading of a substring occurrence. */
  lemma {:induction false} ContainsAt(s: string, sub: string, i: nat)
    requires i + |sub| <= |s| && s[i..i + |sub|] == sub
    ensures Contains(s, sub)
    decreases i
  {
    if i > 0 {
      assert s[1..][i - 1..i - 1 + |sub|] == sub;
      ContainsAt(s[1..], sub, i - 1);
    } else {
      assert s[..|sub|] == sub;
    }
  }

  /** Python's slice `s[:n]` for `n >= 0`. */
  function Take<T>(s: seq<T>, n: nat): (r: seq<T>)
    ensures |r| == if |s| <= n then |s| else n
    ensures r == s[..|r|]
  {
    if |s| <= n then s else s[..n]
  }

  /** `s` without its leading whitespace (Python's `lstrip()`). */
  function TrimStart(s: string): (r: string)
    ensures IsSuffix(r, s)
    ensures r == [] || !IsSpace(r[0])
    ensures IsBlank(s[..|s| - |r|])
    decreases |s|
  {
    if |s| > 0 && IsSpace(s[0]) then
      var r := TrimStart(s[1..]);
      assert s[..|s| - |r|] == [s[0]] + s[1..][..|s| - 1 - |r|];
      r
    else s
  }

  /** `s` without its trailing whitespace (Python's `rstrip()`). */
  function TrimEnd(s: string): (r: string)
    ensures IsPrefix(r, s)
    ensures r == [] || !IsSpace(r[|r| - 1])
    ensures IsBlank(s[|r|..])
    decreases |s|
  {
    if |s| > 0 && IsSpace(s[|s| - 1]) then
      var r := TrimEnd(s[..|s| - 1]);
      assert s[|r|..] == s[..|s| - 1][|r|..] + [s[|s| - 1]];
      r
    else s
  }

  /** Python's `strip()`: the text between the leading and the trailing
      whitespace. It is empty exactly when `s` is blank. */
  function Strip(s: string): (r: string)
    ensures |r| <= |s|
    ensures r == [] || (!IsSpace(r[0]) && !IsSpace(r[|r| - 1]))
    ensures r == [] <==> IsBlank(s)
    ensures IsPrefix(r, TrimStart(s))
  {
    var t := TrimStart(s);
    var r := TrimEnd(t);
    assert r == [] ==> IsBlank(s) by {
      if r == [] {
        assert s == s[..|s| - |t|] + t;
        assert IsBlank(t[|r|..]);
      }
    }
    assert t != [] ==> !IsBlank(s) by {
      if t != [] {
        assert t[0] == s[|s| - |t|];
      }
    }
    r
  }

  /** Stripping twice is stripping once. */
  lemma StripIdempotent(s: string)
    ensures Strip(Strip(s)) == Strip(s)
  {
    var r := Strip(s);
    if r != [] {
      assert TrimStart(r) == r;
      assert TrimEnd(r) == r;
    }
  }

  /** The longest prefix of `s` holding no whitespace. */
  function WordPrefix(s: string): (w: string)
    ensures IsPrefix(w, s) && NoSpace(w)
    ensures |w| == |s| || IsSpace(s[|w|])
    decreases |s|
  {
    if |s| == 0 || IsSpace(s[0]) then [] else [s[0]] + WordPrefix(s[1..])
  }

  /** Python's `split()` with no argument: the maximal runs of non-whitespace,
      in order. */
  function Words(s: string): (ws: seq<string>)
    ensures forall i :: 0 <= i < |ws| ==> |ws[i]| > 0 && NoSpace(ws[i])
    ensures ws == [] <==> IsBlank(s)
    decreases |s|
  {
    if |s| == 0 then []
    else if IsSpace(s[0]) then
      var ws := Words(s[1..]);
      assert IsBlank(s) <==> IsBlank(s[1..]) by {
        assert forall i :: 1 <= i < |s| ==> s[i] == s[1..][i - 1];
      }
      ws
    else
      var w := WordPrefix(s);
      var rest := Words(s[|w|..]);
      var ws := [w] + rest;
      assert ws[0] == w;
      assert forall i :: 1 <= i < |ws| ==> ws[i] == rest[i - 1];
      ws
  }

  /** Python's `sep.join(parts)`. */
  function JoinWith(parts: seq<string>, sep: string): string
  {
    if |parts| == 0 then []
    else if |parts| == 1 then parts[0]
    else parts[0] + sep + JoinWith(parts[1..], sep)
  }

  lemma JoinTwo(a: string, b: string, sep: string)
    ensures JoinWith([a, b], sep) == a + sep + b
  {
    assert [a, b][1..] == [b];
  }

  lemma JoinThree(a: string, b: string, c: string, sep: string)
    ensures JoinWith([a, b, c], sep) == a + sep + b + sep + c
  {
    assert [a, b, c][1..] == [b, c];
    JoinTwo(b, c, sep);
  }

  /** Joining one more part adds the separator and that part. */
  lemma {:induction false} JoinWithSnoc(parts: seq<string>, last: string, sep: string)
    requires |parts| > 0
    ensures JoinWith(parts + [last], sep) == JoinWith(parts, sep) + sep + last
    decreases |parts|
  {
    if |parts| == 1 {
      assert (parts + [last])[1..] == [last];
    } else {
      assert (parts + [last])[1..] == parts[1..] + [last];
      JoinWithSnoc(parts[1..], last, sep);
    }
  }

  /** Joining `front + back` is joining the already joined `front` with
      the parts of `back`. */
  lemma {:induction false} JoinWithAppend(front: seq<string>, back: seq<string>, sep: string)
    requires |front| > 0
    ensures JoinWith(front + back, sep) == JoinWith([JoinWith(front, sep)] + back, sep)
    decreases |back|
  {
    if |back| == 0 {
      assert front + back == front;
      assert [JoinWith(front, sep)] + back == [JoinWith(front, sep)];
    } else {
      var init, last := back[..|back| - 1], back[|back| - 1];
      assert back == init + [last];
      assert front + back == (front + init) + [last];
      assert [JoinWith(front, sep)] + back == ([JoinWith(front, sep)] + init) + [last];
      JoinWithSnoc(front + init, last, sep);
      JoinWithAppend(front, init, sep);
      JoinWithSnoc([JoinWith(front, sep)] + init, last, sep);
    }
  }

  /** Python's `s.split(c)` for a one-character separator: never empty,
      one more piece than `s` has separators, no piece holds the separator,
      and joining the pieces back with the separator gives `s`. */
  function SplitOn(s: string, c: char): (pieces: seq<string>)
    ensures |pieces| >= 1
    ensures forall i :: 0 <= i < |pieces| ==> c !in pieces[i]
    ensures JoinWith(pieces, [c]) == s
    decreases |s|
  {
    if |s| == 0 then [[]]
    else
      var rest := SplitOn(s[1..], c);
      if s[0] == c then
        assert s == [c] + s[1..];
        [[]] + rest
      else
        var pieces := [[s[0]] + rest[0]] + rest[1..];
        assert JoinWith(pieces, [c]) == [s[0]] + JoinWith(rest, [c]);
        assert s == [s[0]] + s[1..];
        pieces
  }

  /** Python's `s.split(c)[-1]`: the text after the last `c`, or all of `s`
      when it holds no `c`. */
  function LastSegment(s: string, c: char): (r: string)
    ensures IsSuffix(r, s) && c !in r
    ensures r == s || s[|s| - |r| - 1] == c
    decreases |s|
  {
    if |s| == 0 || s[|s| - 1] == c then []
    else
      var r := LastSegment(s[..|s| - 1], c);
      r + [s[|s| - 1]]
  }

  /** The text after a final separator is the last segment. */
  lemma {:induction false} LastSegmentAfter(s: string, c: char, t: string)
    requires c !in t
    ensures LastSegment(s + [c] + t, c) == t
    decreases |t|
  {
    var whole := s + [c] + t;
    if |t| > 0 {
      assert whole[..|whole| - 1] == s + [c] + t[..|t| - 1];
      LastSegmentAfter(s, c, t[..|t| - 1]);
      assert t[..|t| - 1] + [t[|t| - 1]] == t;
    }
  }

  /** Without a separator, the last segment is the whole text. */
  lemma {:induction false} LastSegmentWhole(s: string, c: char)
    requires c !in s
    ensures LastSegment(s, c) == s
    decreases |s|
  {
    if |s| > 0 {
      assert c !in s[..|s| - 1] by {
        assert forall x :: x in s[..|s| - 1] ==> x in s;
      }
      assert s[|s| - 1] != c;
      LastSegmentWhole(s[..|s| - 1], c);
      assert s[..|s| - 1] + [s[|s| - 1]] == s;
    }
  }

  /** A file name's extension as the bot reads it: the lower-cased text
      after the last '.', or "" when the name has no '.'. */
  function Extension(filename: string): (ext: string)
    ensures '.' !in filename ==> ext == ""
    ensures '.' in filename ==> |ext| < |filename| && IsSuffix(ext, Lower(filename)) && DotBefore(Lower(filename), |ext|)
    ensures '.' !in ext
  {
    if '.' in filename then
      var seg := LastSegment(filename, '.');
      SegmentAfterDot(filename, seg);
      DottedName(filename, seg);
      Lower(seg)
    else ""
  }

  /** The `n` characters at the end of `s` come right after a '.'. */
  predicate DotBefore(s: string, n: nat) {
    n < |s| && s[|s| - n - 1] == '.'
  }

  /** A tail right after a '.' is, with that '.', a tail too. */
  lemma DotThenSuffix(s: string, tail: string)
    requires IsSuffix(tail, s) && DotBefore(s, |tail|)
    ensures IsSuffix("." + tail, s)
  {
    var k := |s| - |tail|;
    assert s[k - 1..] == [s[k - 1]] + s[k..];
  }

  /** Lower-casing neither makes nor removes a '.'. */
  lemma LowerCharDot(c: char)
    ensures LowerChar(c) == '.' <==> c == '.'
  {
  }

  lemma LowerKeepsNoDot(t: string)
    requires '.' !in t
    ensures '.' !in Lower(t)
  {
    forall i | 0 <= i < |t|
      ensures Lower(t)[i] != '.'
    {
      LowerCharDot(t[i]);
    }
  }

  lemma LowerDotAt(s: string, i: nat)
    requires i < |s| && s[i] == '.'
    ensures Lower(s)[i] == '.'
  {
    LowerCharDot(s[i]);
  }

  /** Lower-casing commutes with dropping a prefix. */
  lemma LowerDrop(s: string, k: nat)
    requires k <= |s|
    ensures Lower(s)[k..] == Lower(s[k..])
  {
  }

  /** A name with a '.' has a last segment shorter than itself, right after a '.'. */
  lemma SegmentAfterDot(filename: string, seg: string)
    requires '.' in filename && seg == LastSegment(filename, '.')
    ensures DotBefore(filename, |seg|) && IsSuffix(seg, filename) && '.' !in seg
  {
    assert seg != filename;
  }

  /** A dot-free tail right after a '.' keeps those properties once the
      whole name is lower-cased. */
  lemma DottedName(filename: string, seg: string)
    requires DotBefore(filename, |seg|) && IsSuffix(seg, filename) && '.' !in seg
    ensures IsSuffix(Lower(seg), Lower(filename))
    ensures DotBefore(Lower(filename), |Lower(seg)|)
    ensures '.' !in Lower(seg)
  {
    var k := |filename| - |seg|;
    LowerDrop(filename, k);
    LowerKeepsNoDot(seg);
    LowerDotAt(filename, k - 1);
  }

  /** The number of times `c` occurs in `s`. */
  function Occurrences(s: string, c: char): nat
    decreases |s|
  {
    if |s| == 0 then 0 else (if s[0] == c then 1 else 0) + Occurrences(s[1..], c)
  }

  /** `s.split(c)` has one piece more than `s` has separators. */
  lemma {:induction false} SplitOnCount(s: string, c: char)
    ensures |SplitOn(s, c)| == Occurrences(s, c) + 1
    decreases |s|
  {
    if |s| > 0 {
      SplitOnCount(s[1..], c);
    }
  }

  /** The decimal value of a string of ASCII digits (the reading of
      `NatToString`'s output). */
  function ParseNat(s: string): nat
    decreases |s|
  {
    if |s| == 0 then 0
    else ParseNat(s[..|s| - 1]) * 10 + (if '0' <= s[|s| - 1] <= '9' then s[|s| - 1] as int - '0' as int else 0)
  }

  predicate IsDigits(s: string) {
    forall i :: 0 <= i < |s| ==> '0' <= s[i] <= '9'
  }

  /** Python's `str(n)` for `n >= 0`: decimal digits with no leading zero,
      which read back as `n`. */
  function NatToString(n: nat): (r: string)
    ensures |r| > 0 && IsDigits(r)
    ensures ParseNat(r) == n
    ensures |r| > 1 ==> r[0] != '0'
    decreases n
  {
    var d := [('0' as int + n % 10) as char];
    if n < 10 then
      assert ParseNat(d) == ParseNat(d[..0]) * 10 + n;
      d
    else
      var r := NatToString(n / 10) + d;
      assert r[..|r| - 1] == NatToString(n / 10);
      r
  }

  /** Python's `str(i)` for any integer. */
  function IntToString(i: int): (r: string)
    ensures |r| > 0
    ensures i >= 0 ==> r == NatToString(i)
    ensures i < 0 ==> r[0] == '-' && r[1..] == NatToString(-i)
  {
    if i < 0 then "-" + NatToString(-i) else NatToString(i)
  }

  /** How many of `words` occur in `text` (Python's
      `sum(1 for w in words if w in text)`). */
  function CountContained(words: seq<string>, text: string): (n: nat)
    ensures n <= |words|
    ensures n == 0 <==> forall i :: 0 <= i < |words| ==> !Contains(text, words[i])
  {
    if |words| == 0 then 0
    else (if Contains(text, words[0]) then 1 else 0) + CountContained(words[1..], text)
  }

  /** The entries of `words` that occur in `text`, in list order (Python's
      `[w for w in words if w in text]`). */
  function FoundIn(words: seq<string>, text: string): (found: seq<string>)
    ensures |found| == CountContained(words, text)
    ensures forall i :: 0 <= i < |found| ==> found[i] in words && Contains(text, found[i])
    ensures forall i :: 0 <= i < |words| && Contains(text, words[i]) ==> words[i] in found
  {
    if |words| == 0 then []
    else if Contains(text, words[0]) then [words[0]] + FoundIn(words[1..], text)
    else FoundIn(words[1..], text)
  }

  /** `sub` is a subsequence of `s`: `s` with some elements dropped, order kept. */
  predicate IsSubsequence<T(==)>(sub: seq<T>, s: seq<T>)
    decreases |s|
  {
    if |sub| == 0 then true
    else if |s| == 0 then false
    else if sub[0] == s[0] then IsSubsequence(sub[1..], s[1..])
    else IsSubsequence(sub, s[1..])
  }

  lemma {:induction false} FoundInIsSubsequence(words: seq<string>, text: string)
    ensures IsSubsequence(FoundIn(words, text), words)
    decreases |words|
  {
    if |words| > 0 {
      FoundInIsSubsequence(words[1..], text);
      var rest := FoundIn(words[1..], text);
      if Contains(text, words[0]) {
        assert FoundIn(words, text)[1..] == rest;
      } else {
        SubsequenceOfTail(rest, words);
      }
    }
  }

  /** A subsequence of the tail is a subsequence of the whole. */
  lemma {:induction false} SubsequenceOfTail<T>(sub: seq<T>, s: seq<T>)
    requires |s| > 0 && IsSubsequence(sub, s[1..])
    ensures IsSubsequence(sub, s)
    decreases |s|, 0
  {
    if |sub| > 0 && sub[0] == s[0] {
      SubsequenceDropHead(sub, s[1..]);
    }
  }

  /** Dropping the first element of a subsequence keeps it a subsequence. */
  lemma {:induction false} SubsequenceDropHead<T>(sub: seq<T>, t: seq<T>)
    requires |sub| > 0 && IsSubsequence(sub, t)
    ensures IsSubsequence(sub[1..], t)
    decreases |t|, 1
  {
    if sub[0] == t[0] {
      SubsequenceOfTail(sub[1..], t);
    } else {
      SubsequenceDropHead(sub, t[1..]);
      SubsequenceOfTail(sub[1..], t);
    }
  }

  /** A prefix of a subsequence is a subsequence. */
  lemma {:induction false} SubsequencePrefix<T>(sub: seq<T>, s: seq<T>, n: nat)
    requires n <= |sub| && IsSubsequence(sub, s)
    ensures IsSubsequence(sub[..n], s)
    decreases |s|
  {
    if n > 0 && |s| > 0 {
      if sub[0] == s[0] {
        assert sub[..n][1..] == sub[1..][..n - 1];
        SubsequencePrefix(sub[1..], s[1..], n - 1);
      } else {
        SubsequencePrefix(sub, s[1..], n);
      }
    }
  }

  /** Every element of a subsequence is an element of the whole. */
  lemma {:induction false} SubsequenceMembers<T>(sub: seq<T>, s: seq<T>)
    requires IsSubsequence(sub, s)
    ensures forall x :: x in sub ==> x in s
    decreases |s|
  {
    if |sub| > 0 && |s| > 0 {
      if sub[0] == s[0] {
        SubsequenceMembers(sub[1..], s[1..]);
        assert forall x :: x in sub ==> x == sub[0] || x in sub[1..];
      } else {
        SubsequenceMembers(sub, s[1..]);
      }
    }
  }

  /** The index of the first largest score: Python's `max(d, key=d.get)`
      over a dict listed in this order keeps the first maximum it meets. */
  function ArgMaxFirst(scores: seq<int>): (k: nat)
    requires |scores| > 0
    ensures k < |scores|
    ensures forall j :: 0 <= j < |scores| ==> scores[j] <= scores[k]
    ensures forall j :: 0 <= j < k ==> scores[j] < scores[k]
    decreases |scores|
  {
    if |scores| == 1 then 0
    else
      var init := scores[..|scores| - 1];
      var k := ArgMaxFirst(init);
      assert forall j :: 0 <= j < |init| ==> scores[j] == init[j];
      if scores[|scores| - 1] > scores[k] then |scores| - 1 else k
  }

  /** Each element once, at its first occurrence (the
      `if x not in out: out.append(x)` idiom). */
  function Distinct<T(==)>(s: seq<T>): (r: seq<T>)
    ensures forall i, j :: 0 <= i < j < |r| ==> r[i] != r[j]
    ensures forall i :: 0 <= i < |r| ==> r[i] in s
    ensures forall i :: 0 <= i < |s| ==> s[i] in r
    ensures |r| <= |s|
    decreases |s|
  {
    if |s| == 0 then []
    else
      var init := s[..|s| - 1];
      var r := Distinct(init);
      assert forall i :: 0 <= i < |init| ==> s[i] == init[i];
      if s[|s| - 1] in r then r else r + [s[|s| - 1]]
  }

  /** The lists `f` gives the elements, concatenated in order (Python's
      `for x in xs: out.extend(f(x))`). */
  function FlatMap<T, U>(xs: seq<T>, f: T -> seq<U>): seq<U>
    decreases |xs|
  {
    if |xs| == 0 then [] else f(xs[0]) + FlatMap(xs[1..], f)
  }

  lemma {:induction false} FlatMapAppend<T, U>(xs: seq<T>, ys: seq<T>, f: T -> seq<U>)
    ensures FlatMap(xs + ys, f) == FlatMap(xs, f) + FlatMap(ys, f)
    decreases |xs|
  {
    if |xs| == 0 {
      assert xs + ys == ys;
    } else {
      assert (xs + ys)[0] == xs[0] && (xs + ys)[1..] == xs[1..] + ys;
      FlatMapAppend(xs[1..], ys, f);
    }
  }

  lemma {:induction false} FlatMapNil<T, U>(xs: seq<T>, f: T -> seq<U>)
    ensures FlatMap(xs, f) == [] <==> forall i :: 0 <= i < |xs| ==> f(xs[i]) == []
    decreases |xs|
  {
    if |xs| > 0 {
      FlatMapNil(xs[1..], f);
      assert forall i :: 1 <= i < |xs| ==> xs[i] == xs[1..][i - 1];
    }
  }

  lemma {:induction false} FlatMapLength<T, U>(xs: seq<T>, f: T -> seq<U>, k: nat)
    requires forall i :: 0 <= i < |xs| ==> |f(xs[i])| <= k
    ensures |FlatMap(xs, f)| <= k * |xs|
    decreases |xs|
  {
    if |xs| > 0 {
      assert forall i :: 0 <= i < |xs[1..]| ==> xs[1..][i] == xs[i + 1];
      FlatMapLength(xs[1..], f, k);
    }
  }

  /** Every element of the result comes from the list of some element. */
  lemma {:induction false} FlatMapMember<T, U>(xs: seq<T>, f: T -> seq<U>, y: U)
    requires y in FlatMap(xs, f)
    ensures exists i :: 0 <= i < |xs| && y in f(xs[i])
    decreases |xs|
  {
    if y !in f(xs[0]) {
      FlatMapMember(xs[1..], f, y);
      var i :| 0 <= i < |xs[1..]| && y in f(xs[1..][i]);
      assert xs[1..][i] == xs[i + 1];
    }
  }

  /** As `FlatMap`, with each element's position, counted from `first`,
      passed to `f`. */
  function FlatMapFrom<T, U>(xs: seq<T>, first: nat, f: (T, nat) -> seq<U>): seq<U>
    decreases |xs|
  {
    if |xs| == 0 then [] else f(xs[0], first) + FlatMapFrom(xs[1..], first + 1, f)
  }

  lemma {:induction false} FlatMapFromSnoc<T, U>(xs: seq<T>, x: T, first: nat, f: (T, nat) -> seq<U>)
    ensures FlatMapFrom(xs + [x], first, f) == FlatMapFrom(xs, first, f) + f(x, first + |xs|)
    decreases |xs|
  {
    if |xs| == 0 {
      assert [x][1..] == [];
    } else {
      assert (xs + [x])[0] == xs[0] && (xs + [x])[1..] == xs[1..] + [x];
      FlatMapFromSnoc(xs[1..], x, first + 1, f);
    }
  }

  lemma {:induction false} FlatMapFromNil<T, U>(xs: seq<T>, first: nat, f: (T, nat) -> seq<U>)
    requires forall i :: 0 <= i < |xs| ==> f(xs[i], first + i) == []
    ensures FlatMapFrom(xs, first, f) == []
    decreases |xs|
  {
    if |xs| > 0 {
      assert f(xs[0], first + 0) == [];
      assert forall i :: 0 <= i < |xs[1..]| ==> xs[1..][i] == xs[i + 1] && first + 1 + i == first + (i + 1);
      FlatMapFromNil(xs[1..], first + 1, f);
    }
  }

  /** The index of the first occurrence of `x` in `s`. */
  function FirstIndex<T(==)>(s: seq<T>, x: T): (k: nat)
    requires x in s
    ensures k < |s| && s[k] == x
    ensures forall j :: 0 <= j < k ==> s[j] != x
    decreases |s|
  {
    if s[0] == x then 0 else 1 + FirstIndex(s[1..], x)
  }

  /** An element of a prefix first occurs at the same place in the whole. */
  lemma FirstIndexOfPrefix<T>(s: seq<T>, n: nat, x: T)
    requires n <= |s| && x in s[..n]
    ensures FirstIndex(s, x) == FirstIndex(s[..n], x)
  {
    var k1, k2 := FirstIndex(s, x), FirstIndex(s[..n], x);
    assert s[k2] == x;
    assert k1 <= k2;
    assert s[..n][k1] == x;
  }

  /** An element missing from `s[..n]` first occurs in `s` at `n` or later. */
  lemma FirstIndexPastPrefix<T>(s: seq<T>, n: nat, x: T)
    requires n <= |s| && x in s && x !in s[..n]
    ensures FirstIndex(s, x) >= n
  {
  }

  /** One pair of `Distinct(init + [last])`, ordered from the order on
      `init`. */
  lemma DistinctStep<T>(init: seq<T>, last: T, i: nat, j: nat)
    requires InFirstOccurrenceOrder(Distinct(init), init)
    requires i < j < |Distinct(init + [last])|
    ensures FirstIndex(init + [last], Distinct(init + [last])[i]) < FirstIndex(init + [last], Distinct(init + [last])[j])
  {
    var s := init + [last];
    assert s[..|s| - 1] == init;
    var ri, r := Distinct(init), Distinct(s);
    assert r == ri || (r == ri + [last] && last !in ri);
    var x := ri[i];
    assert r[i] == x && x in init;
    FirstIndexOfPrefix(s, |init|, x);
    if j < |ri| {
      var y := ri[j];
      assert r[j] == y && y in init;
      FirstIndexOfPrefix(s, |init|, y);
      assert FirstIndex(init, x) < FirstIndex(init, y);
    } else {
      assert r[j] == last;
      FirstIndexPastPrefix(s, |init|, last);
    }
  }

  /** Every element of `r` occurs in `s`, and `r` lists them in the order
      of their first occurrences in `s`. */
  predicate InFirstOccurrenceOrder<T(==)>(r: seq<T>, s: seq<T>) {
    && (forall i :: 0 <= i < |r| ==> r[i] in s)
    && forall i, j :: 0 <= i < j < |r| ==> r[i] in s && r[j] in s && FirstIndex(s, r[i]) < FirstIndex(s, r[j])
  }

  /** `Distinct` keeps the elements in the order of their first
      occurrences. */
  lemma {:induction false} DistinctInFirstOccurrenceOrder<T>(s: seq<T>)
    ensures InFirstOccurrenceOrder(Distinct(s), s)
    decreases |s|
  {
    if |s| > 0 {
      var init, last := s[..|s| - 1], s[|s| - 1];
      DistinctInFirstOccurrenceOrder(init);
      assert s == init + [last];
      DistinctSnocOrdered(init, last);
    }
  }

  /** The order of `Distinct(init)` carries over to `Distinct(init + [last])`. */
  lemma DistinctSnocOrdered<T>(init: seq<T>, last: T)
    requires InFirstOccurrenceOrder(Distinct(init), init)
    ensures InFirstOccurrenceOrder(Distinct(init + [last]), init + [last])
  {
    var s, r := init + [last], Distinct(init + [last]);
    forall i, j | 0 <= i < j < |r|
      ensures r[i] in s && r[j] in s && FirstIndex(s, r[i]) < FirstIndex(s, r[j])
    {
      DistinctStep(init, last, i, j);
    }
  }

  /** An occurrence in `a` is an occurrence in `a + b`. */
  lemma {:induction false} ContainsAppendRight(a: string, b: string, sub: string)
    requires Contains(a, sub)
    ensures Contains(a + b, sub)
    decreases |a|
  {
    if IsPrefix(sub, a) {
      assert (a + b)[..|sub|] == a[..|sub|];
    } else {
      ContainsAppendRight(a[1..], b, sub);
      assert (a + b)[1..] == a[1..] + b;
    }
  }

  /** An occurrence in `b` is an occurrence in `a + b`. */
  lemma {:induction false} ContainsAppendLeft(a: string, b: string, sub: string)
    requires Contains(b, sub)
    ensures Contains(a + b, sub)
    decreases |a|
  {
    if |a| > 0 {
      ContainsAppendLeft(a[1..], b, sub);
      assert (a + b)[1..] == a[1..] + b;
    } else {
      assert a + b == b;
    }
  }

  /** A piece's occurrence is an occurrence in the joined text. */
  lemma {:induction false} ContainsInJoin(parts: seq<string>, sep: string, k: nat, sub: string)
    requires k < |parts| && Contains(parts[k], sub)
    ensures Contains(JoinWith(parts, sep), sub)
    decreases |parts|
  {
    if |parts| > 1 {
      if k == 0 {
        ContainsAppendRight(parts[0], sep + JoinWith(parts[1..], sep), sub);
        assert parts[0] + sep + JoinWith(parts[1..], sep) == parts[0] + (sep + JoinWith(parts[1..], sep));
      } else {
        ContainsInJoin(parts[1..], sep, k - 1, sub);
        ContainsAppendLeft(parts[0] + sep, JoinWith(parts[1..], sep), sub);
      }
    }
  }

  /** When the lower-cased text starts with `p`, and `p` holds no `c` (a
      character lower-casing leaves alone), the first piece of the split starts with `p` once lower-cased. */
  lemma {:induction false} PrefixInFirstPiece(s: string, c: char, p: string)
    requires LowerChar(c) == c
    requires c !in p && IsPrefix(p, Lower(s))
    ensures IsPrefix(p, Lower(SplitOn(s, c)[0]))
    decreases |s|
  {
    if |p| > 0 {
      assert LowerChar(s[0]) == p[0];
      assert s[0] != c;
      var rest := SplitOn(s[1..], c);
      assert SplitOn(s, c)[0] == [s[0]] + rest[0];
      assert Lower(s[1..]) == Lower(s)[1..];
      PrefixInFirstPiece(s[1..], c, p[1..]);
      assert Lower([s[0]] + rest[0]) == [LowerChar(s[0])] + Lower(rest[0]);
    }
  }

  /** A separator-free `p` found in the lower-cased text is found in one of
      the lower-cased pieces of splitting the text on `c`. */
  lemma {:induction false} ContainsInSomePiece(s: string, c: char, p: string)
    requires LowerChar(c) == c
    requires c !in p && Contains(Lower(s), p)
    ensures exists k :: 0 <= k < |SplitOn(s, c)| && Contains(Lower(SplitOn(s, c)[k]), p)
    decreases |s|
  {
    var pieces := SplitOn(s, c);
    if IsPrefix(p, Lower(s)) {
      PrefixInFirstPiece(s, c, p);
      assert Contains(Lower(pieces[0]), p);
    } else {
      assert Lower(s[1..]) == Lower(s)[1..];
      ContainsInSomePiece(s[1..], c, p);
      var rest := SplitOn(s[1..], c);
      var k :| 0 <= k < |rest| && Contains(Lower(rest[k]), p);
      if s[0] == c {
        assert pieces[k + 1] == rest[k];
      } else if k > 0 {
        assert pieces[k] == rest[k];
      } else {
        assert pieces[0] == [s[0]] + rest[0];
        LowerConcat([s[0]], rest[0]);
        ContainsAppendLeft(Lower([s[0]]), Lower(rest[0]), p);
      }
    }
  }
}

=== FILE: utils.dfy ===
/** The chat flow of agent/utils.py: the LLM client's request payload and
    response classification (`TogetherAIClient`), the FAQ search and the
    keyword context lookup (`KnowledgeBaseManager`), and message composition
    plus request logging (`ChatManager`). The HTTP exchange is an input
    (`HttpOutcome`), as is the elapsed time. */
module Utils {
  import opened Common
  import opened Text
  import opened Models

  // ---------------------------------------------------------------------
  // TogetherAIClient

  datatype ModelConfig = ModelConfig(
    model: string,
    maxTokens: int,
    temperature: real,
    topP: real,
    repetitionPenalty: real)

  /** The settings used when no `AIModelConfig` row is active. */
  const DefaultModelConfig := ModelConfig("mistralai/Mistral-7B-Instruct-v0.1", 500, 0.7, 0.9, 1.0)

  /** The active model configuration, or the built-in one when none is active. */
  function ResolveModelConfig(active: Option<ModelConfig>): (c: ModelConfig)
    ensures active.Some? ==> c == active.value
    ensures active.None? ==> c.model == "mistralai/Mistral-7B-Instruct-v0.1" && c.maxTokens == 500
    ensures active.None? ==> c.temperature == 0.7 && c.topP == 0.9 && c.repetitionPenalty == 1.0
  {
    active.GetOr(DefaultModelConfig)
  }

  datatype Role = SystemRole | UserRole

  datatype ApiMessage = ApiMessage(role: Role, content: string)

  /** The JSON body posted to the provider. */
  datatype Payload = Payload(
    model: string,
    messages: seq<ApiMessage>,
    maxTokens: int,
    temperature: real,
    topP: real,
    repetitionPenalty: real,
    stream: bool)

  /** `generate_response`'s payload. The overrides are combined with Python's
      `or`, so a falsy override (absent, `0` or `0.0`) falls back to the
      configured value and only a non-zero override replaces it. */
  function BuildPayload(cfg: ModelConfig, messages: seq<ApiMessage>, maxTokens: Option<int>, temperature: Option<real>): (p: Payload)
    ensures p.model == cfg.model && p.messages == messages && !p.stream
    ensures p.topP == cfg.topP && p.repetitionPenalty == cfg.repetitionPenalty
    ensures maxTokens.None? || maxTokens == Some(0) ==> p.maxTokens == cfg.maxTokens
    ensures maxTokens.Some? && maxTokens.value != 0 ==> p.maxTokens == maxTokens.value
    ensures temperature.None? || temperature == Some(0.0) ==> p.temperature == cfg.temperature
    ensures temperature.Some? && temperature.value != 0.0 ==> p.temperature == temperature.value
  {
    Payload(
      cfg.model, messages,
      if maxTokens.Some? && maxTokens.value != 0 then maxTokens.value else cfg.maxTokens,
      if temperature.Some? && temperature.value != 0.0 then temperature.value else cfg.temperature,
      cfg.topP, cfg.repetitionPenalty, false)
  }

  /** Without an active configuration and without overrides, the request
      carries the built-in model and sampling values. */
  lemma DefaultRequest(messages: seq<ApiMessage>)
    ensures BuildPayload(ResolveModelConfig(None), messages, None, None)
      == Payload("mistralai/Mistral-7B-Instruct-v0.1", messages, 500, 0.7, 0.9, 1.0, false)
  {
  }

  /** An active configuration is what the request carries, setting by
      setting, when no override is given. */
  lemma ActiveConfigurationIsSent(cfg: ModelConfig, messages: seq<ApiMessage>)
    ensures BuildPayload(ResolveModelConfig(Some(cfg)), messages, None, None)
      == Payload(cfg.model, messages, cfg.maxTokens, cfg.temperature, cfg.topP, cfg.repetitionPenalty, false)
  {
  }

  /** Passing a zero override is the same request as passing none. */
  lemma ZeroOverridesAreIgnored(cfg: ModelConfig, messages: seq<ApiMessage>)
    ensures BuildPayload(cfg, messages, Some(0), Some(0.0)) == BuildPayload(cfg, messages, None, None)
    ensures BuildPayload(cfg, messages, None, None).maxTokens == cfg.maxTokens
  {
  }

  /** What the provider's JSON holds: `choices[0].message.content` when that
      path exists, and `usage.total_tokens` when present. */
  datatype ProviderReply = ProviderReply(firstContent: Option<string>, totalTokens: Option<int>)

  /** Reading the body as JSON either works or fails with a decode error
      (a `RequestException` in the `requests` library). */
  datatype JsonReading = Parsed(reply: ProviderReply) | NotJson(decodeError: string)

  /** The outcome of the one `requests.post`: a response, or a transport
      error (timeout, connection failure). */
  datatype HttpOutcome =
    | HttpResponse(status: int, text: string, json: JsonReading)
    | RequestFailed(reason: string)

  /** The client's result dictionary. `Raised` is an exception the client
      does not catch (a 200 body without `choices[0].message.content`). */
  datatype Completion =
    | Completed(message: string, responseTime: real, tokensUsed: int, model: string)
    | Failed(error: string, responseTime: real)
    | Raised

  function ApiErrorText(status: int, body: string): string {
    "API Error: " + IntToString(status) + " - " + body
  }

  /** `generate_response` from the HTTP outcome on: only status 200 with a
      readable first choice succeeds; any other status fails with the code
      and body; transport and decode errors fail as "Request failed". */
  function ClassifyResponse(model: string, outcome: HttpOutcome, elapsed: real): (c: Completion)
    ensures c.Completed? <==>
      outcome.HttpResponse? && outcome.status == 200 && outcome.json.Parsed? && outcome.json.reply.firstContent.Some?
    ensures c.Completed? ==>
      && c.message == outcome.json.reply.firstContent.value
      && c.tokensUsed == outcome.json.reply.totalTokens.GetOr(0)
      && c.model == model && c.responseTime == elapsed
    ensures outcome.HttpResponse? && outcome.status != 200 ==>
      c == Failed(ApiErrorText(outcome.status, outcome.text), elapsed)
    ensures outcome.RequestFailed? ==> c == Failed("Request failed: " + outcome.reason, elapsed)
    ensures outcome.HttpResponse? && outcome.status == 200 && outcome.json.NotJson? ==>
      c == Failed("Request failed: " + outcome.json.decodeError, elapsed)
    ensures c.Raised? <==>
      outcome.HttpResponse? && outcome.status == 200 && outcome.json.Parsed? && outcome.json.reply.firstContent.None?
  {
    match outcome
    case RequestFailed(reason) => Failed("Request failed: " + reason, elapsed)
    case HttpResponse(status, text, json) =>
      if status != 200 then Failed(ApiErrorText(status, text), elapsed)
      else match json
        case NotJson(err) => Failed("Request failed: " + err, elapsed)
        case Parsed(reply) =>
          if reply.firstContent.None? then Raised
          else Completed(reply.firstContent.value, elapsed, reply.totalTokens.GetOr(0), model)
  }

  /** A non-200 error message carries the status code as its decimal digits
      right after "API Error: ", so the code can be read back from it. */
  lemma {:induction false} ApiErrorNamesStatus(status: nat, body: string)
    requires status != 200
    ensures var e := ApiErrorText(status, body);
      var digits := NatToString(status);
      && IsPrefix("API Error: ", e)
      && e[11..11 + |digits|] == digits
      && ParseNat(e[11..11 + |digits|]) == status
  {
    var digits := NatToString(status);
    var e := ApiErrorText(status, body);
    assert e == "API Error: " + digits + " - " + body;
    assert e[11..11 + |digits|] == digits;
  }

  // ---------------------------------------------------------------------
  // KnowledgeBaseManager

  /** `icontains` on question, answer or keywords. */
  predicate MatchesQuery(e: FAQEntry, query: string) {
    var q := Lower(query);
    Contains(Lower(e.question), q) || Contains(Lower(e.answer), q) || Contains(Lower(e.keywords), q)
  }

  /** The category filter; the empty string is Python's falsy "no category". */
  predicate InCategory(e: FAQEntry, category: string) {
    category == "" || CategoryValue(e.category) == category
  }

  /** The whole `search_faq` filter. */
  predicate Eligible(e: FAQEntry, query: string, category: string) {
    e.isActive && InCategory(e, category) && MatchesQuery(e, query)
  }

  /** The rows of the table that pass the filter, in table order. */
  function FilterEligible(store: seq<FAQEntry>, query: string, category: string): (r: seq<FAQEntry>)
    ensures forall i :: 0 <= i < |r| ==> Eligible(r[i], query, category)
    ensures forall i :: 0 <= i < |store| && Eligible(store[i], query, category) ==> store[i] in r
    ensures IsSubsequence(r, store)
    decreases |store|
  {
    if |store| == 0 then []
    else
      var rest := FilterEligible(store[1..], query, category);
      if Eligible(store[0], query, category) then
        var r := [store[0]] + rest;
        assert r[1..] == rest;
        r
      else
        SubsequenceOfTail(rest, store);
        rest
  }

  /** `search_faq`: nothing for a blank query; otherwise the first `limit`
      active rows of the category (if one is given) whose question, answer
      or keywords contain the query case-insensitively, in table order, and
      every such row when fewer than `limit` were found. */
  function SearchFaq(store: seq<FAQEntry>, query: string, category: string, limit: nat): (r: seq<FAQEntry>)
    ensures IsBlank(query) ==> r == []
    ensures |r| <= limit
    ensures forall i :: 0 <= i < |r| ==> Eligible(r[i], query, category)
    ensures IsSubsequence(r, store)
    ensures !IsBlank(query) && |r| < limit ==>
      forall i :: 0 <= i < |store| && Eligible(store[i], query, category) ==> store[i] in r
    ensures !IsBlank(query) ==>
      var all := FilterEligible(store, query, category);
      IsPrefix(r, all) && |r| == (if |all| < limit then |all| else limit)
  {
    if Strip(query) == [] then []
    else
      var all := FilterEligible(store, query, category);
      SubsequencePrefix(all, store, |Take(all, limit)|);
      Take(all, limit)
  }

  /** On the newest-first FAQ table the results come newest first. */
  lemma SearchKeepsNewestFirst(store: seq<FAQEntry>, query: string, category: string, limit: nat)
    requires NewestFirst(store)
    ensures NewestFirst(SearchFaq(store, query, category, limit))
  {
    SubsequenceKeepsNewestFirst(SearchFaq(store, query, category, limit), store);
  }

  /** The concatenated `search_faq(token, limit=2)` results for the tokens
      longer than two characters, in token order. */
  function KeywordCandidates(store: seq<FAQEntry>, tokens: seq<string>): (r: seq<FAQEntry>)
    ensures |r| <= 2 * |tokens|
    ensures forall i :: 0 <= i < |r| ==>
      r[i].isActive && r[i] in store &&
      exists k :: 0 <= k < |tokens| && |tokens[k]| > 2 && MatchesQuery(r[i], tokens[k])
    decreases |tokens|
  {
    if |tokens| == 0 then []
    else
      var hits := if |tokens[0]| > 2 then SearchFaq(store, tokens[0], "", 2) else [];
      var rest := KeywordCandidates(store, tokens[1..]);
      SubsequenceMembers(hits, store);
      assert forall i :: 0 <= i < |hits| ==> MatchesQuery(hits[i], tokens[0]) && hits[i] in store;
      forall i | 0 <= i < |rest|
        ensures exists k :: 0 <= k < |tokens| && |tokens[k]| > 2 && MatchesQuery(rest[i], tokens[k])
      {
        var k :| 0 <= k < |tokens[1..]| && |tokens[1..][k]| > 2 && MatchesQuery(rest[i], tokens[1..][k]);
        assert tokens[k + 1] == tokens[1..][k];
      }
      hits + rest
  }

  predicate DistinctIds(es: seq<FAQEntry>) {
    forall i, j :: 0 <= i < j < |es| ==> es[i].id != es[j].id
  }

  function Ids(es: seq<FAQEntry>): set<int> {
    set i | 0 <= i < |es| :: es[i].id
  }

  /** The first entry carrying `id`, if any. */
  function FirstWithId(entries: seq<FAQEntry>, id: int): Option<FAQEntry>
    decreases |entries|
  {
    if |entries| == 0 then None
    else if entries[0].id == id then Some(entries[0])
    else FirstWithId(entries[1..], id)
  }

  /** Reference de-duplication: keep each entry whose id is neither in
      `seen` nor carried by an earlier entry, in input order. */
  function FirstSeenFrom(entries: seq<FAQEntry>, seen: set<int>): (r: seq<FAQEntry>)
    ensures IsSubsequence(r, entries)
    decreases |entries|
  {
    if |entries| == 0 then []
    else if entries[0].id in seen then
      var r := FirstSeenFrom(entries[1..], seen);
      SubsequenceOfTail(r, entries);
      r
    else
      var r := [entries[0]] + FirstSeenFrom(entries[1..], seen + {entries[0].id});
      assert r[1..] == FirstSeenFrom(entries[1..], seen + {entries[0].id});
      r
  }

  /** The de-duplication holds distinct ids, none of them in `seen`, and
      each kept entry is the first entry of the input with its id. */
  lemma {:induction false} FirstSeenSound(entries: seq<FAQEntry>, seen: set<int>)
    ensures var r := FirstSeenFrom(entries, seen);
      && DistinctIds(r)
      && forall i :: 0 <= i < |r| ==> r[i].id !in seen && Some(r[i]) == FirstWithId(entries, r[i].id)
    decreases |entries|
  {
    if |entries| > 0 {
      var e := entries[0];
      if e.id in seen {
        FirstSeenSound(entries[1..], seen);
      } else {
        var rest := FirstSeenFrom(entries[1..], seen + {e.id});
        FirstSeenSound(entries[1..], seen + {e.id});
        var r := [e] + rest;
        assert r == FirstSeenFrom(entries, seen);
        forall i | 1 <= i < |r| ensures r[i] == rest[i - 1] { }
      }
    }
  }

  /** Every id of the input outside `seen` is kept. */
  lemma {:induction false} FirstSeenComplete(entries: seq<FAQEntry>, seen: set<int>)
    ensures var r := FirstSeenFrom(entries, seen);
      forall i :: 0 <= i < |entries| && entries[i].id !in seen ==> entries[i].id in Ids(r)
    decreases |entries|
  {
    if |entries| > 0 {
      var e := entries[0];
      var r := FirstSeenFrom(entries, seen);
      if e.id in seen {
        FirstSeenComplete(entries[1..], seen);
        assert forall i :: 1 <= i < |entries| ==> entries[i] == entries[1..][i - 1];
      } else {
        var rest := FirstSeenFrom(entries[1..], seen + {e.id});
        FirstSeenComplete(entries[1..], seen + {e.id});
        assert r == [e] + rest;
        IdsCons(e, rest);
        assert forall i :: 1 <= i < |entries| ==> entries[i] == entries[1..][i - 1];
      }
    }
  }

  lemma IdsCons(e: FAQEntry, es: seq<FAQEntry>)
    ensures Ids([e] + es) == {e.id} + Ids(es)
  {
    var l := [e] + es;
    forall x | x in Ids(l) ensures x in {e.id} + Ids(es) {
      var i :| 0 <= i < |l| && l[i].id == x;
      if i > 0 { assert l[i] == es[i - 1]; }
    }
    forall x | x in Ids(es) ensures x in Ids(l) {
      var i :| 0 <= i < |es| && es[i].id == x;
      assert l[i + 1] == es[i];
    }
    assert l[0] == e;
  }

  lemma IdsSnoc(es: seq<FAQEntry>, e: FAQEntry)
    ensures Ids(es + [e]) == Ids(es) + {e.id}
  {
    var l := es + [e];
    forall x | x in Ids(l) ensures x in Ids(es) + {e.id} {
      var i :| 0 <= i < |l| && l[i].id == x;
      if i < |es| { assert l[i] == es[i]; }
    }
    forall x | x in Ids(es) ensures x in Ids(l) {
      var i :| 0 <= i < |es| && es[i].id == x;
      assert l[i] == es[i];
    }
    assert l[|es|] == e;
  }

  /** `get_context_for_ai` stops once `max_entries` unique entries are held,
      checked only after an append, so any `max_entries < 1` behaves as 1. */
  function Cap(maxEntries: int): nat {
    if maxEntries < 1 then 1 else maxEntries
  }

  /** One step of the scan over `entries[i]`: an id already seen adds
      nothing; a new one is appended and marked seen. */
  lemma ScanStep(entries: seq<FAQEntry>, i: nat, seen: set<int>, unique: seq<FAQEntry>, all: seq<FAQEntry>)
    requires i < |entries|
    requires seen == Ids(unique)
    requires unique + FirstSeenFrom(entries[i..], seen) == all
    ensures entries[i].id in seen ==> unique + FirstSeenFrom(entries[i + 1..], seen) == all
    ensures entries[i].id !in seen ==>
      && seen + {entries[i].id} == Ids(unique + [entries[i]])
      && (unique + [entries[i]]) + FirstSeenFrom(entries[i + 1..], seen + {entries[i].id}) == all
  {
    FirstSeenFromAt(entries, i, seen);
    if entries[i].id !in seen {
      IdsSnoc(unique, entries[i]);
      var tail := FirstSeenFrom(entries[i + 1..], seen + {entries[i].id});
      assert unique + ([entries[i]] + tail) == (unique + [entries[i]]) + tail;
    }
  }

  /** `FirstSeenFrom` on the suffix from `i`, one entry unfolded. */
  lemma FirstSeenFromAt(entries: seq<FAQEntry>, i: nat, seen: set<int>)
    requires i < |entries|
    ensures entries[i].id in seen ==> FirstSeenFrom(entries[i..], seen) == FirstSeenFrom(entries[i + 1..], seen)
    ensures entries[i].id !in seen ==>
      FirstSeenFrom(entries[i..], seen) == [entries[i]] + FirstSeenFrom(entries[i + 1..], seen + {entries[i].id})
  {
    assert entries[i..][1..] == entries[i + 1..];
  }

  /** Where the scan stops (capacity reached, or input exhausted) it holds
      the capped reference result. */
  lemma StoppedScan(entries: seq<FAQEntry>, unique: seq<FAQEntry>, rest: seq<FAQEntry>, cap: nat)
    requires unique + rest == FirstSeenFrom(entries, {})
    requires rest == [] || |unique| == cap
    requires |unique| <= cap
    ensures unique == Take(FirstSeenFrom(entries, {}), cap)
  {
    assert FirstSeenFrom(entries, {})[..|unique|] == unique;
  }

  /** The capped de-duplication has distinct ids, at most `cap` of them, and
      below the cap it holds every id of the input. */
  lemma CappedDedupe(entries: seq<FAQEntry>, cap: nat)
    ensures var unique := Take(FirstSeenFrom(entries, {}), cap);
      && DistinctIds(unique) && |unique| <= cap
      && (|unique| < cap ==> forall i :: 0 <= i < |entries| ==> entries[i].id in Ids(unique))
  {
    var all := FirstSeenFrom(entries, {});
    var unique := Take(all, cap);
    FirstSeenSound(entries, {});
    FirstSeenComplete(entries, {});
    forall i, j | 0 <= i < j < |unique| ensures unique[i].id != unique[j].id {
      assert unique[i] == all[i] && unique[j] == all[j];
    }
  }

  /** The de-duplication loop of `get_context_for_ai`: the first `Cap`
      entries of the reference de-duplication. */
  method UniqueEntries(entries: seq<FAQEntry>, maxEntries: int) returns (unique: seq<FAQEntry>)
    ensures unique == Take(FirstSeenFrom(entries, {}), Cap(maxEntries))
  {
    ghost var all := FirstSeenFrom(entries, {});
    var seen: set<int> := {};
    unique := [];
    var i := 0;
    while i < |entries|
      invariant 0 <= i <= |entries|
      invariant seen == Ids(unique)
      invariant |unique| < Cap(maxEntries)
      invariant unique + FirstSeenFrom(entries[i..], seen) == all
    {
      var e := entries[i];
      ScanStep(entries, i, seen, unique, all);
      if e.id !in seen {
        seen := seen + {e.id};
        unique := unique + [e];
        if |unique| >= maxEntries {
          StoppedScan(entries, unique, FirstSeenFrom(entries[i + 1..], seen), Cap(maxEntries));
          return;
        }
      }
      i := i + 1;
    }
    assert entries[i..] == [];
    StoppedScan(entries, unique, [], Cap(maxEntries));
  }

  /** `get_context_for_ai`: search each lower-cased whitespace token longer
      than two characters (two hits per token), then keep the first
      `max_entries` distinct entries in first-seen order. */
  method ContextForAi(store: seq<FAQEntry>, message: string, maxEntries: int) returns (entries: seq<FAQEntry>)
    ensures entries == Take(FirstSeenFrom(KeywordCandidates(store, Words(Lower(message))), {}), Cap(maxEntries))
    ensures DistinctIds(entries) && |entries| <= Cap(maxEntries)
    ensures forall i :: 0 <= i < |entries| ==>
      var tokens := Words(Lower(message));
      entries[i].isActive && entries[i] in store &&
      exists k :: 0 <= k < |tokens| && |tokens[k]| > 2 && MatchesQuery(entries[i], tokens[k])
  {
    var tokens := Words(Lower(message));
    var candidates := KeywordCandidates(store, tokens);
    entries := UniqueEntries(candidates, maxEntries);
    CappedDedupe(candidates, Cap(maxEntries));
    var all := FirstSeenFrom(candidates, {});
    SubsequencePrefix(all, candidates, |entries|);
    SubsequenceMembers(entries, candidates);
    forall i | 0 <= i < |entries|
      ensures entries[i] in candidates
    {
      assert entries[i] in entries;
    }
  }

  // ---------------------------------------------------------------------
  // ChatManager

  const KbHeader := "Relevant information from knowledge base:\n"

  /** The system prompt used when no `SystemPrompt` of type 'system' is active. */
  const DefaultSystemPrompt :=
    "You are a helpful AI assistant for a university or educational institution. \n"
    + "            Use the provided knowledge base information to answer questions about schedules, documents, \n"
    + "            scholarships, exams, and administration. If you don't find relevant information in the \n"
    + "            knowledge base, provide general helpful guidance and suggest contacting the appropriate \n"
    + "            department."

  function EntryBlock(e: FAQEntry): string {
    "Q: " + e.question + "\nA: " + e.answer + "\n\n"
  }

  /** The Q/A blocks of the entries, in order. */
  function Blocks(entries: seq<FAQEntry>): string
    decreases |entries|
  {
    if |entries| == 0 then "" else EntryBlock(entries[0]) + Blocks(entries[1..])
  }

  /** Appending one block at a time (the source's `context +=` loop) builds
      the same text as `Blocks`. */
  lemma {:induction false} BlocksAppend(entries: seq<FAQEntry>, e: FAQEntry)
    ensures Blocks(entries + [e]) == Blocks(entries) + EntryBlock(e)
    decreases |entries|
  {
    if |entries| > 0 {
      assert (entries + [e])[1..] == entries[1..] + [e];
      BlocksAppend(entries[1..], e);
    } else {
      assert [e][1..] == [];
    }
  }

  /** The knowledge-base context: empty without entries, otherwise the header
      followed by one block per entry. */
  function KbContext(entries: seq<FAQEntry>): (c: string)
    ensures entries == [] <==> c == ""
    ensures entries != [] ==> c == KbHeader + Blocks(entries)
  {
    if |entries| == 0 then "" else KbHeader + Blocks(entries)
  }

  function SystemContent(activePrompt: Option<string>): string {
    activePrompt.GetOr(DefaultSystemPrompt)
  }

  /** The provider messages: `[system, user]` without knowledge-base entries,
      `[system, context, user]` with them; the user's text is last, verbatim. */
  function ComposeMessages(system: string, entries: seq<FAQEntry>, userMessage: string): (ms: seq<ApiMessage>)
    ensures |ms| == if entries == [] then 2 else 3
    ensures ms[0] == ApiMessage(SystemRole, system)
    ensures ms[|ms| - 1] == ApiMessage(UserRole, userMessage)
    ensures entries != [] ==> ms[1] == ApiMessage(SystemRole, KbHeader + Blocks(entries))
    ensures forall i :: 0 <= i < |ms| - 1 ==> ms[i].role == SystemRole
  {
    var context := KbContext(entries);
    var head := if context != "" then [ApiMessage(SystemRole, system), ApiMessage(SystemRole, context)]
                else [ApiMessage(SystemRole, system)];
    head + [ApiMessage(UserRole, userMessage)]
  }

  predicate KnownSession(sessions: seq<ChatSession>, sessionId: string) {
    exists i :: 0 <= i < |sessions| && sessions[i].sessionId == sessionId
  }

  /** One processed message: the request sent, the client's result, and the
      `RequestLog` row written (none when the client raised). */
  datatype ChatTurn = ChatTurn(payload: Payload, response: Completion, log: Option<RequestLog>)

  /** The session a message is logged against: looked up only for a
      non-empty id, and absent when no session carries it. */
  function SessionOf(sessions: seq<ChatSession>, sessionId: string): (r: Option<string>)
    ensures r.Some? <==> sessionId != "" && KnownSession(sessions, sessionId)
    ensures r.Some? ==> r.value == sessionId
  {
    if sessionId != "" && KnownSession(sessions, sessionId) then Some(sessionId) else None
  }

  function EntryIds(entries: seq<FAQEntry>): (ids: seq<int>)
    ensures |ids| == |entries|
    ensures forall i :: 0 <= i < |entries| ==> ids[i] == entries[i].id
  {
    seq(|entries|, i requires 0 <= i < |entries| => entries[i].id)
  }

  /** The `RequestLog` row `process_message` writes for a reply: none when
      the client raised; otherwise success mirrors the reply, the response
      text is the reply's message on success and blank on failure, the error
      is blank on success, and tokens default to 0. */
  function LogFor(session: Option<string>, userMessage: string, response: Completion, kbIds: seq<int>, now: int): (log: Option<RequestLog>)
    ensures log.None? <==> response.Raised?
    ensures log.Some? ==>
      && log.value.apiSuccess == response.Completed?
      && log.value.userMessage == userMessage
      && log.value.aiResponse == (if response.Completed? then response.message else "")
      && log.value.errorMessage == (if response.Failed? then response.error else "")
      && log.value.tokensUsed == Some(if response.Completed? then response.tokensUsed else 0)
      && log.value.sessionId == session && log.value.timestamp == now && log.value.kbEntryIds == kbIds
  {
    match response
    case Raised => None
    case Completed(message, elapsed, tokens, _) =>
      Some(RequestLog(session, userMessage, message, elapsed, now, true, "", Some(tokens), kbIds))
    case Failed(error, elapsed) =>
      Some(RequestLog(session, userMessage, "", elapsed, now, false, error, Some(0), kbIds))
  }

  /** `process_message`: compose the request from the system prompt, up to
      three knowledge-base entries and the user's text; classify the reply;
      write exactly one log (unless the client raised) and return the reply
      unchanged. */
  method ProcessMessage(
    store: seq<FAQEntry>, sessions: seq<ChatSession>, activePrompt: Option<string>,
    activeModel: Option<ModelConfig>, userMessage: string, sessionId: string,
    outcome: HttpOutcome, elapsed: real, now: int)
    returns (turn: ChatTurn)
    ensures turn.response == ClassifyResponse(ResolveModelConfig(activeModel).model, outcome, elapsed)
    ensures |turn.payload.messages| >= 2
    ensures turn.payload.messages[0] == ApiMessage(SystemRole, SystemContent(activePrompt))
    ensures turn.payload.messages[|turn.payload.messages| - 1] == ApiMessage(UserRole, userMessage)
    ensures turn.payload.model == ResolveModelConfig(activeModel).model
    ensures turn.payload.maxTokens == ResolveModelConfig(activeModel).maxTokens
    ensures turn.log.None? <==> turn.response.Raised?
    ensures turn.log.Some? ==>
      && turn.log.value.apiSuccess == turn.response.Completed?
      && turn.log.value.userMessage == userMessage
      && turn.log.value.timestamp == now
      && turn.log.value.sessionId == SessionOf(sessions, sessionId)
      && |turn.log.value.kbEntryIds| <= 3
      && (turn.log.value.kbEntryIds == [] <==> |turn.payload.messages| == 2)
    ensures var kb := Take(FirstSeenFrom(KeywordCandidates(store, Words(Lower(userMessage))), {}), Cap(3));
      && |kb| <= 3
      && turn.payload == BuildPayload(ResolveModelConfig(activeModel), ComposeMessages(SystemContent(activePrompt), kb, userMessage), None, None)
      && (turn.log.Some? ==> turn.log.value.kbEntryIds == EntryIds(kb))
  {
    var kbEntries := ContextForAi(store, userMessage, 3);
    var messages := ComposeMessages(SystemContent(activePrompt), kbEntries, userMessage);
    var cfg := ResolveModelConfig(activeModel);
    var payload := BuildPayload(cfg, messages, None, None);
    var response := ClassifyResponse(cfg.model, outcome, elapsed);
    var log := LogFor(SessionOf(sessions, sessionId), userMessage, response, EntryIds(kbEntries), now);
    turn := ChatTurn(payload, response, log);
  }

  /** The messages of one session, in table order. */
  function SessionMessages(messages: seq<ChatMessage>, sessionId: string): (r: seq<ChatMessage>)
    ensures forall i :: 0 <= i < |r| ==> r[i].sessionId == sessionId
    ensures forall i :: 0 <= i < |messages| && messages[i].sessionId == sessionId ==> messages[i] in r
    ensures IsSubsequence(r, messages)
    decreases |messages|
  {
    if |messages| == 0 then []
    else
      var rest := SessionMessages(messages[1..], sessionId);
      if messages[0].sessionId == sessionId then
        var r := [messages[0]] + rest;
        assert r[1..] == rest;
        r
      else
        SubsequenceOfTail(rest, messages);
        rest
  }

  /** Any subsequence of an oldest-first message table is oldest first. */
  lemma {:induction false} SubsequenceKeepsOldestFirst(sub: seq<ChatMessage>, messages: seq<ChatMessage>)
    requires OldestFirst(messages) && IsSubsequence(sub, messages)
    ensures OldestFirst(sub)
    decreases |messages|
  {
    if |sub| > 0 && |messages| > 0 {
      if sub[0] == messages[0] {
        SubsequenceKeepsOldestFirst(sub[1..], messages[1..]);
        SubsequenceMembers(sub[1..], messages[1..]);
        forall j | 0 < j < |sub|
          ensures sub[0].timestamp <= sub[j].timestamp
        {
          assert sub[j] == sub[1..][j - 1];
          assert sub[j] in sub[1..];
          assert sub[j] in messages[1..];
          var k :| 0 <= k < |messages[1..]| && messages[1..][k] == sub[j];
          assert messages[k + 1] == sub[j];
        }
        forall i, j | 0 <= i < j < |sub|
          ensures sub[i].timestamp <= sub[j].timestamp
        {
          if i > 0 {
            assert sub[i] == sub[1..][i - 1] && sub[j] == sub[1..][j - 1];
          }
        }
      } else {
        SubsequenceKeepsOldestFirst(sub, messages[1..]);
      }
    }
  }

  /** `get_chat_history`: nothing for an unknown session, otherwise the first
      `limit` messages of the session in table order. */
  function ChatHistory(sessions: seq<ChatSession>, messages: seq<ChatMessage>, sessionId: string, limit: nat): (r: seq<ChatMessage>)
    ensures !KnownSession(sessions, sessionId) ==> r == []
    ensures |r| <= limit
    ensures forall i :: 0 <= i < |r| ==> r[i].sessionId == sessionId
    ensures IsSubsequence(r, messages)
    ensures KnownSession(sessions, sessionId) ==>
      var all := SessionMessages(messages, sessionId);
      IsPrefix(r, all) && |r| == (if |all| < limit then |all| else limit)
  {
    if !KnownSession(sessions, sessionId) then []
    else
      var all := SessionMessages(messages, sessionId);
      SubsequencePrefix(all, messages, |Take(all, limit)|);
      Take(all, limit)
  }
}

=== FILE: views.dfy ===
/** The JSON endpoints of agent/views.py: the chat API (`ChatAPIView.post`),
    the FAQ search with its search-query ledger (`FAQView`), and the chat
    history (`ChatHistoryView.get`). The request body arrives already
    classified by the JSON parser; the provider's reply and the clock are
    inputs. */
module Views {
  import opened Common
  import opened Text
  import opened Models
  import opened Forms
  import opened Utils

  // ---------------------------------------------------------------------
  // ChatAPIView

  /** The `message` member of the request object: absent (read as ""), a
      string, or any other JSON value (whose `.strip()` raises). */
  datatype MessageField = Absent | Text(text: string) | NotText

  /** The request body as the JSON parser sees it. */
  datatype ChatRequest =
    | NotJson
    | NotObject
    | JsonObject(message: MessageField, sessionId: string)

  /** The tables the endpoint writes: sessions, messages (oldest first),
      request logs (newest first), and the next message id the database
      would assign. */
  datatype ChatStore = ChatStore(
    sessions: seq<ChatSession>,
    messages: seq<ChatMessage>,
    logs: seq<RequestLog>,
    nextMessageId: int)

  datatype ChatApiResponse =
    | ChatReply(message: string, responseTime: real, sessionId: string)
    | ChatError(status: int, error: string, errorSession: Option<string>)

  /** The HTTP status of a response: 200 for a reply. */
  function StatusOf(r: ChatApiResponse): int {
    if r.ChatReply? then 200 else r.status
  }

  const InvalidJson := ChatError(400, "Invalid JSON data", None)
  const InternalError := ChatError(500, "Internal server error", None)
  const EmptyMessage := ChatError(400, "Message cannot be empty", None)
  const TooLong := ChatError(400, "Message too long (max 1000 characters)", None)

  /** The message text the endpoint reads: the stripped string, or "" when
      the member is absent. */
  function MessageText(field: MessageField): string {
    if field.Text? then Strip(field.text) else ""
  }

  /** Whether a request gets past the endpoint's own checks. */
  predicate Accepted(request: ChatRequest) {
    request.JsonObject? && !request.message.NotText?
    && MessageText(request.message) != "" && |MessageText(request.message)| <= 1000
  }

  /** The session table after `get` or `create` for a non-empty id. */
  function EnsureSession(sessions: seq<ChatSession>, sessionId: string, now: int): (r: seq<ChatSession>)
    ensures sessionId != "" ==> KnownSession(r, sessionId)
    ensures sessionId == "" || KnownSession(sessions, sessionId) ==> r == sessions
    ensures !(sessionId == "" || KnownSession(sessions, sessionId)) ==> r == sessions + [ChatSession(sessionId, now)]
  {
    if sessionId != "" && !KnownSession(sessions, sessionId) then
      var r := sessions + [ChatSession(sessionId, now)];
      assert r[|sessions|].sessionId == sessionId;
      r
    else sessions
  }

  /** Messages stamped no later than `now`. */
  predicate StampedBy(messages: seq<ChatMessage>, now: int) {
    forall i :: 0 <= i < |messages| ==> messages[i].timestamp <= now
  }

  /** Logs stamped no later than `now`. */
  predicate LogsStampedBy(logs: seq<RequestLog>, now: int) {
    forall i :: 0 <= i < |logs| ==> logs[i].timestamp <= now
  }

  /** The part of `ChatAPIView.post` after validation, for a stripped
      message of 1 to 1000 characters: create the session if needed, store
      the user's message when a session id was given, run
      `process_message`, store the assistant's reply on success, and map
      the reply to the response. When the client raised, the session and the
      user's message stay written and the answer is 500 "Internal server
      error". */
  method AnswerMessage(
    store: ChatStore, kb: seq<FAQEntry>, activePrompt: Option<string>,
    activeModel: Option<ModelConfig>, message: string, sid: string,
    outcome: HttpOutcome, elapsed: real, now: int)
    returns (response: ChatApiResponse, store': ChatStore)
    ensures var completion := ClassifyResponse(ResolveModelConfig(activeModel).model, outcome, elapsed);
      && (completion.Completed? ==> response == ChatReply(completion.message, completion.responseTime, sid))
      && (completion.Failed? ==> response == ChatError(500, completion.error, Some(sid)))
      && (completion.Raised? ==> response == InternalError)
    ensures sid != "" ==> KnownSession(store'.sessions, sid)
    ensures store'.sessions == EnsureSession(store.sessions, sid, now)
    ensures var completion := ClassifyResponse(ResolveModelConfig(activeModel).model, outcome, elapsed);
      |store'.messages| == |store.messages| + (if sid == "" then 0 else if completion.Completed? then 2 else 1)
    ensures store'.nextMessageId == store.nextMessageId + (|store'.messages| - |store.messages|)
    ensures var completion := ClassifyResponse(ResolveModelConfig(activeModel).model, outcome, elapsed);
      completion.Completed? && sid != "" ==>
        store'.messages[|store.messages| + 1]
        == ChatMessage(store.nextMessageId + 1, sid, Assistant, completion.message, now,
                       Some(completion.responseTime), Some(completion.tokensUsed), Some(completion.model))
    ensures store'.messages[..|store.messages|] == store.messages
    ensures sid != "" ==>
      store'.messages[|store.messages|] == ChatMessage(store.nextMessageId, sid, User, message, now, None, None, None)
    ensures var completion := ClassifyResponse(ResolveModelConfig(activeModel).model, outcome, elapsed);
      && |store'.logs| == |store.logs| + (if completion.Raised? then 0 else 1)
      && store'.logs[|store'.logs| - |store.logs|..] == store.logs
      && (!completion.Raised? ==> store'.logs[0].apiSuccess == completion.Completed? && store'.logs[0].userMessage == message)
    ensures OldestFirst(store.messages) && StampedBy(store.messages, now) ==> OldestFirst(store'.messages)
    ensures LogsNewestFirst(store.logs) && LogsStampedBy(store.logs, now) ==> LogsNewestFirst(store'.logs)
  {
    var sessions := EnsureSession(store.sessions, sid, now);
    var turn := ProcessMessage(kb, sessions, activePrompt, activeModel, message, sid, outcome, elapsed, now);
    ghost var completion := ClassifyResponse(ResolveModelConfig(activeModel).model, outcome, elapsed);
    assert turn.response == completion;
    response, store' := RecordTurn(store, sessions, message, sid, turn.response, turn.log, now);
  }

  /** What `ChatAPIView.post` writes around one turn: the user's message
      when a session id was given, the assistant's reply on success, the
      request log unless the client raised; and the response it answers. */
  method RecordTurn(
    store: ChatStore, sessions: seq<ChatSession>, message: string, sid: string,
    completion: Completion, log: Option<RequestLog>, now: int)
    returns (response: ChatApiResponse, store': ChatStore)
    requires log.None? <==> completion.Raised?
    requires log.Some? ==> log.value.apiSuccess == completion.Completed? && log.value.userMessage == message && log.value.timestamp == now
    ensures completion.Completed? ==> response == ChatReply(completion.message, completion.responseTime, sid)
    ensures completion.Failed? ==> response == ChatError(500, completion.error, Some(sid))
    ensures completion.Raised? ==> response == InternalError
    ensures store'.sessions == sessions
    ensures |store'.messages| == |store.messages| + (if sid == "" then 0 else if completion.Completed? then 2 else 1)
    ensures store'.nextMessageId == store.nextMessageId + (|store'.messages| - |store.messages|)
    ensures store'.messages[..|store.messages|] == store.messages
    ensures sid != "" ==>
      store'.messages[|store.messages|] == ChatMessage(store.nextMessageId, sid, User, message, now, None, None, None)
    ensures completion.Completed? && sid != "" ==>
      store'.messages[|store.messages| + 1]
      == ChatMessage(store.nextMessageId + 1, sid, Assistant, completion.message, now,
                     Some(completion.responseTime), Some(completion.tokensUsed), Some(completion.model))
    ensures |store'.logs| == |store.logs| + (if completion.Raised? then 0 else 1)
    ensures store'.logs[|store'.logs| - |store.logs|..] == store.logs
    ensures !completion.Raised? ==> store'.logs[0].apiSuccess == completion.Completed? && store'.logs[0].userMessage == message
    ensures OldestFirst(store.messages) && StampedBy(store.messages, now) ==> OldestFirst(store'.messages)
    ensures LogsNewestFirst(store.logs) && LogsStampedBy(store.logs, now) ==> LogsNewestFirst(store'.logs)
  {
    ghost var ordered := OldestFirst(store.messages) && StampedBy(store.messages, now);
    var messages := store.messages;
    var nextId := store.nextMessageId;
    if sid != "" {
      var m := ChatMessage(nextId, sid, User, message, now, None, None, None);
      if ordered {
        AppendKeepsOldestFirst(messages, m);
      }
      messages := messages + [m];
      nextId := nextId + 1;
    }
    assert ordered ==> OldestFirst(messages) && StampedBy(messages, now);
    var logs := store.logs;
    if log.Some? {
      if LogsNewestFirst(store.logs) && LogsStampedBy(store.logs, now) {
        PrependKeepsLogsNewestFirst(store.logs, log.value);
      }
      logs := [log.value] + store.logs;
    }
    match completion {
      case Raised =>
        response := InternalError;
      case Completed(reply, responseTime, tokens, model) =>
        if sid != "" {
          var m := ChatMessage(nextId, sid, Assistant, reply, now, Some(responseTime), Some(tokens), Some(model));
          if ordered {
            AppendKeepsOldestFirst(messages, m);
          }
          messages := messages + [m];
          nextId := nextId + 1;
        }
        response := ChatReply(reply, responseTime, sid);
      case Failed(error, _) =>
        response := ChatError(500, error, Some(sid));
    }
    store' := ChatStore(sessions, messages, logs, nextId);
    assert store'.messages[..|store.messages|] == store.messages;
    assert logs[|logs| - |store.logs|..] == store.logs;
  }

  /** `ChatAPIView.post`. The checks run in order (parsable JSON, an object
      with a string message, non-empty after stripping, at most 1000
      characters) and a rejected request changes nothing; an accepted one
      is answered as `AnswerMessage` describes. */
  method ChatApiPost(
    store: ChatStore, kb: seq<FAQEntry>, activePrompt: Option<string>,
    activeModel: Option<ModelConfig>, request: ChatRequest,
    outcome: HttpOutcome, elapsed: real, now: int)
    returns (response: ChatApiResponse, store': ChatStore)
    ensures request.NotJson? ==> response == InvalidJson
    ensures request.NotObject? || (request.JsonObject? && request.message.NotText?) ==> response == InternalError
    ensures request.JsonObject? && !request.message.NotText? && MessageText(request.message) == "" ==> response == EmptyMessage
    ensures request.JsonObject? && !request.message.NotText? && |MessageText(request.message)| > 1000 ==> response == TooLong
    ensures !Accepted(request) ==> store' == store
    ensures Accepted(request) ==>
      var completion := ClassifyResponse(ResolveModelConfig(activeModel).model, outcome, elapsed);
      && (StatusOf(response) == 200 <==> completion.Completed?)
      && (completion.Completed? ==> response == ChatReply(completion.message, completion.responseTime, request.sessionId))
      && (completion.Failed? ==> response == ChatError(500, completion.error, Some(request.sessionId)))
      && |store'.logs| == |store.logs| + (if completion.Raised? then 0 else 1)
      && (request.sessionId != "" ==> KnownSession(store'.sessions, request.sessionId))
    ensures OldestFirst(store.messages) && StampedBy(store.messages, now) ==> OldestFirst(store'.messages)
    ensures LogsNewestFirst(store.logs) && LogsStampedBy(store.logs, now) ==> LogsNewestFirst(store'.logs)
  {
    if request.NotJson? {
      return InvalidJson, store;
    }
    if request.NotObject? || request.message.NotText? {
      return InternalError, store;
    }
    var message := MessageText(request.message);
    if message == "" {
      return EmptyMessage, store;
    }
    if |message| > 1000 {
      return TooLong, store;
    }
    response, store' := AnswerMessage(store, kb, activePrompt, activeModel, message, request.sessionId, outcome, elapsed, now);
  }

  // ---------------------------------------------------------------------
  // FAQView: the search-query ledger

  /** A `SearchQuery` row. `SearchQuery` is not declared in
      `agent/models.py`; its shape follows its uses in `views.py`.
      `sessionId` is the browser session key, which may be absent. */
  datatype SearchQuery = SearchQuery(
    query: string,
    language: string,
    sessionId: Option<string>,
    ipAddress: Option<string>,
    userAgent: string,
    createdAt: int,
    resultsFound: bool,
    shouldAddToKb: bool)

  /** The five English words that mark a query as English. */
  const EnglishWords: seq<string> := ["schedule", "document", "exam", "scholarship", "admin"]

  predicate HasLowerAsciiLetter(s: string) {
    exists i :: 0 <= i < |s| && 'a' <= s[i] <= 'z'
  }

  /** `log_search_query`'s language guess: 'en' only when the raw query has
      a lower-case ASCII letter and its lower-cased form contains one of
      the English words; 'ru' otherwise. */
  function DetectQueryLanguage(query: string): (lang: string)
    ensures lang == "en" || lang == "ru"
    ensures lang == "en" <==> HasLowerAsciiLetter(query) && CountContained(EnglishWords, Lower(query)) > 0
  {
    if HasLowerAsciiLetter(query) && CountContained(EnglishWords, Lower(query)) > 0 then "en" else "ru"
  }

  /** Every listed English word is spelled in lower-case ASCII letters. */
  lemma EnglishWordIsLowerAscii(k: nat, j: nat)
    requires k < |EnglishWords| && j < |EnglishWords[k]|
    ensures 'a' <= EnglishWords[k][j] <= 'z'
  {
  }

  /** A listed English word written anywhere in the query, in lower case,
      makes the query English: it supplies the lower-case letter, and
      lower-casing leaves it in place. */
  lemma EnglishWordAtMakesEnglish(query: string, k: nat, i: nat)
    requires k < |EnglishWords| && i + |EnglishWords[k]| <= |query|
    requires query[i..i + |EnglishWords[k]|] == EnglishWords[k]
    ensures DetectQueryLanguage(query) == "en"
  {
    var w := EnglishWords[k];
    forall j | 0 <= j < |w|
      ensures Lower(query)[i + j] == w[j]
    {
      EnglishWordIsLowerAscii(k, j);
      assert query[i + j] == w[j];
    }
    assert Lower(query)[i..i + |w|] == w;
    ContainsAt(Lower(query), w, i);
    EnglishWordIsLowerAscii(k, 0);
    assert query[i] == w[0];
    assert HasLowerAsciiLetter(query);
    assert CountContained(EnglishWords, Lower(query)) > 0;
  }

  /** An upper-case-only English query has no lower-case letter, so it is
      taken for Russian. */
  lemma UpperCaseQueryIsRussian()
    ensures DetectQueryLanguage("EXAM") == "ru"
    ensures DetectQueryLanguage("exam") == "en"
  {
    assert !HasLowerAsciiLetter("EXAM");
    assert "exam"[0] == 'e';
    assert Lower("exam") == "exam";
    assert IsPrefix("exam", "exam");
    assert Contains("exam", "exam");
  }

  /** The de-duplication window: one hour. */
  const RecentWindow := 3600

  /** A row for this query and session created within the last hour. */
  predicate RecentlyLogged(ledger: seq<SearchQuery>, query: string, sessionId: Option<string>, now: int) {
    exists i :: 0 <= i < |ledger| && ledger[i].query == query && ledger[i].sessionId == sessionId
      && ledger[i].createdAt >= now - RecentWindow
  }

  /** `log_search_query`: append a new row unless the same query from the
      same session was logged in the last hour; the new row starts with no
      results recorded and not marked for the knowledge base. */
  function LogSearchQuery(ledger: seq<SearchQuery>, query: string, sessionId: Option<string>,
                          ipAddress: Option<string>, userAgent: string, now: int): (r: seq<SearchQuery>)
    ensures RecentlyLogged(ledger, query, sessionId, now) ==> r == ledger
    ensures !RecentlyLogged(ledger, query, sessionId, now) ==>
      && |r| == |ledger| + 1 && r[..|ledger|] == ledger
      && r[|ledger|].query == query && r[|ledger|].sessionId == sessionId
      && r[|ledger|].createdAt == now && r[|ledger|].language == DetectQueryLanguage(query)
      && !r[|ledger|].resultsFound && !r[|ledger|].shouldAddToKb
    ensures RecentlyLogged(r, query, sessionId, now)
  {
    if RecentlyLogged(ledger, query, sessionId, now) then ledger
    else
      var r := ledger + [SearchQuery(query, DetectQueryLanguage(query), sessionId, ipAddress, userAgent, now, false, false)];
      assert r[|ledger|].query == query;
      r
  }

  /** Once a query is logged afresh, logging it again from the same session
      within the hour adds nothing. */
  lemma RepeatWithinHourLogsOnce(ledger: seq<SearchQuery>, query: string, sessionId: Option<string>,
                                 ip1: Option<string>, ua1: string, t1: int,
                                 ip2: Option<string>, ua2: string, t2: int)
    requires !RecentlyLogged(ledger, query, sessionId, t1)
    requires t1 <= t2 <= t1 + RecentWindow
    ensures var once := LogSearchQuery(ledger, query, sessionId, ip1, ua1, t1);
      LogSearchQuery(once, query, sessionId, ip2, ua2, t2) == once
  {
    var once := LogSearchQuery(ledger, query, sessionId, ip1, ua1, t1);
    assert once[|ledger|].createdAt == t1;
    assert RecentlyLogged(once, query, sessionId, t2);
  }

  /** Two rows for the same query and session. */
  predicate SameKey(a: SearchQuery, b: SearchQuery) {
    a.query == b.query && a.sessionId == b.sessionId
  }

  /** The ledger's de-duplication invariant: rows for the same query and
      session are created more than an hour apart, in creation order. */
  predicate SpacedByTheHour(ledger: seq<SearchQuery>) {
    forall i, j :: 0 <= i < j < |ledger| && SameKey(ledger[i], ledger[j]) ==>
      ledger[j].createdAt - ledger[i].createdAt > RecentWindow
  }

  /** Logging at a time no earlier than any row keeps the rows of one query
      and session more than an hour apart. */
  lemma LogKeepsSpacing(ledger: seq<SearchQuery>, query: string, sessionId: Option<string>,
                        ip: Option<string>, ua: string, now: int)
    requires SpacedByTheHour(ledger)
    requires forall i :: 0 <= i < |ledger| ==> ledger[i].createdAt <= now
    ensures SpacedByTheHour(LogSearchQuery(ledger, query, sessionId, ip, ua, now))
  {
    var r := LogSearchQuery(ledger, query, sessionId, ip, ua, now);
    if !RecentlyLogged(ledger, query, sessionId, now) {
      forall i, j | 0 <= i < j < |r| && SameKey(r[i], r[j])
        ensures r[j].createdAt - r[i].createdAt > RecentWindow
      {
        if j == |ledger| {
          assert r[i] == ledger[i];
        } else {
          assert r[i] == ledger[i] && r[j] == ledger[j];
        }
      }
    }
  }

  /** The row `update_search_results` acts on: among the rows with this
      query (from any session), one with the latest creation time, the
      last such row when several tie. */
  function MostRecentIndex(ledger: seq<SearchQuery>, query: string): (k: Option<nat>)
    ensures k.None? <==> forall i :: 0 <= i < |ledger| ==> ledger[i].query != query
    ensures k.Some? ==>
      && k.value < |ledger| && ledger[k.value].query == query
      && forall i :: 0 <= i < |ledger| && ledger[i].query == query ==>
           ledger[i].createdAt < ledger[k.value].createdAt
           || (ledger[i].createdAt == ledger[k.value].createdAt && i <= k.value)
    decreases |ledger|
  {
    if |ledger| == 0 then None
    else
      var last := |ledger| - 1;
      var k := MostRecentIndex(ledger[..last], query);
      if ledger[last].query != query then
        assert forall i :: 0 <= i < last ==> ledger[i] == ledger[..last][i];
        k
      else if k.None? || ledger[k.value].createdAt <= ledger[last].createdAt then
        assert forall i :: 0 <= i < last ==> ledger[i] == ledger[..last][i];
        Some(last)
      else
        assert forall i :: 0 <= i < last ==> ledger[i] == ledger[..last][i];
        k
  }

  /** `update_search_results`: on the most recent row with this query,
      record whether anything was found and, when nothing was, mark the row
      for the knowledge base; every other row is unchanged, and with no such
      row nothing changes. */
  function UpdateSearchResults(ledger: seq<SearchQuery>, query: string, found: nat): (r: seq<SearchQuery>)
    ensures |r| == |ledger|
    ensures MostRecentIndex(ledger, query).None? ==> r == ledger
    ensures MostRecentIndex(ledger, query).Some? ==>
      var k := MostRecentIndex(ledger, query).value;
      && (forall i :: 0 <= i < |ledger| && i != k ==> r[i] == ledger[i])
      && r[k].resultsFound == (found > 0)
      && r[k].shouldAddToKb == (found == 0 || ledger[k].shouldAddToKb)
      && r[k].query == query
    ensures forall i :: 0 <= i < |r| ==> SameKey(r[i], ledger[i]) && r[i].createdAt == ledger[i].createdAt
  {
    match MostRecentIndex(ledger, query)
    case None => ledger
    case Some(k) =>
      var row := ledger[k];
      ledger[k := row.(resultsFound := found > 0, shouldAddToKb := found == 0 || row.shouldAddToKb)]
  }

  /** Recording results keeps every row's query, session and creation
      time, so it keeps the spacing invariant and what counts as logged. */
  lemma UpdateKeepsLedger(ledger: seq<SearchQuery>, query: string, found: nat, q: string, sessionId: Option<string>, now: int)
    ensures var r := UpdateSearchResults(ledger, query, found);
      && (SpacedByTheHour(ledger) ==> SpacedByTheHour(r))
      && (RecentlyLogged(ledger, q, sessionId, now) ==> RecentlyLogged(r, q, sessionId, now))
  {
    var r := UpdateSearchResults(ledger, query, found);
    if RecentlyLogged(ledger, q, sessionId, now) {
      var i :| 0 <= i < |ledger| && ledger[i].query == q && ledger[i].sessionId == sessionId
        && ledger[i].createdAt >= now - RecentWindow;
      assert SameKey(r[i], ledger[i]);
    }
    if SpacedByTheHour(ledger) {
      forall i, j | 0 <= i < j < |r| && SameKey(r[i], r[j])
        ensures r[j].createdAt - r[i].createdAt > RecentWindow
      {
        assert SameKey(r[i], ledger[i]) && SameKey(r[j], ledger[j]);
      }
    }
  }

  /** What the FAQ view returns and the ledger after the request. */
  datatype FaqResult = FaqResult(entries: seq<FAQEntry>, ledger: seq<SearchQuery>)

  /** `FAQView.get`: an invalid form, or a valid one with neither query nor
      category, returns no entries and logs nothing; otherwise the query is
      logged (once per session and hour), up to 20 matching entries are
      returned, and the most recent row for the query records the outcome. */
  function FaqGet(store: seq<FAQEntry>, ledger: seq<SearchQuery>, q: Option<string>, category: Option<string>,
                  sessionId: Option<string>, ipAddress: Option<string>, userAgent: string, now: int): (r: FaqResult)
    ensures |r.entries| <= 20
    ensures !CleanSearchForm(q, category).ValidSearch? ==> r == FaqResult([], ledger)
    ensures CleanSearchForm(q, category).ValidSearch? ==>
      var form := CleanSearchForm(q, category).form;
      && (form.q == "" && form.category == "" ==> r == FaqResult([], ledger))
      && (form.q != "" || form.category != "" ==>
            && r.entries == SearchFaq(store, form.q, form.category, 20)
            && RecentlyLogged(r.ledger, form.q, sessionId, now)
            && |ledger| <= |r.ledger| <= |ledger| + 1)
  {
    match CleanSearchForm(q, category)
    case InvalidSearch(_, _) => FaqResult([], ledger)
    case ValidSearch(form) =>
      if form.q == "" && form.category == "" then FaqResult([], ledger)
      else
        var logged := LogSearchQuery(ledger, form.q, sessionId, ipAddress, userAgent, now);
        var entries := SearchFaq(store, form.q, form.category, 20);
        UpdateKeepsLedger(logged, form.q, |entries|, form.q, sessionId, now);
        FaqResult(entries, UpdateSearchResults(logged, form.q, |entries|))
  }

  /** The ledger a valid, non-empty FAQ search leaves behind. */
  lemma FaqGetLedger(store: seq<FAQEntry>, ledger: seq<SearchQuery>, q: Option<string>, category: Option<string>,
                     sessionId: Option<string>, ip: Option<string>, ua: string, now: int, form: SearchForm)
    requires CleanSearchForm(q, category) == ValidSearch(form) && (form.q != "" || form.category != "")
    ensures FaqGet(store, ledger, q, category, sessionId, ip, ua, now).ledger
            == UpdateSearchResults(LogSearchQuery(ledger, form.q, sessionId, ip, ua, now), form.q,
                                   |SearchFaq(store, form.q, form.category, 20)|)
  {
  }

  /** A FAQ request keeps the ledger's spacing invariant. */
  lemma FaqGetKeepsSpacing(store: seq<FAQEntry>, ledger: seq<SearchQuery>, q: Option<string>, category: Option<string>,
                           sessionId: Option<string>, ip: Option<string>, ua: string, now: int)
    requires SpacedByTheHour(ledger)
    requires forall i :: 0 <= i < |ledger| ==> ledger[i].createdAt <= now
    ensures SpacedByTheHour(FaqGet(store, ledger, q, category, sessionId, ip, ua, now).ledger)
  {
    var form := CleanSearchForm(q, category);
    if form.ValidSearch? && (form.form.q != "" || form.form.category != "") {
      var logged := LogSearchQuery(ledger, form.form.q, sessionId, ip, ua, now);
      LogKeepsSpacing(ledger, form.form.q, sessionId, ip, ua, now);
      var entries := SearchFaq(store, form.form.q, form.form.category, 20);
      UpdateKeepsLedger(logged, form.form.q, |entries|, form.form.q, sessionId, now);
    }
  }

  /** A category chosen with an empty query finds nothing, because the
      search rejects the blank query; the empty query is still logged, and
      a row for it is marked for the knowledge base. */
  lemma CategoryOnlySearchFindsNothing(store: seq<FAQEntry>, ledger: seq<SearchQuery>, c: Category,
                                       sessionId: Option<string>, ip: Option<string>, ua: string, now: int)
    ensures var r := FaqGet(store, ledger, None, Some(CategoryValue(c)), sessionId, ip, ua, now);
      && r.entries == []
      && exists k :: 0 <= k < |r.ledger| && r.ledger[k].query == "" && r.ledger[k].shouldAddToKb
  {
    var cat := CategoryValue(c);
    var form := SearchForm("", cat);
    assert CleanSearchForm(None, Some(cat)) == ValidSearch(form);
    var logged := LogSearchQuery(ledger, "", sessionId, ip, ua, now);
    assert SearchFaq(store, "", cat, 20) == [];
    FaqGetLedger(store, ledger, None, Some(cat), sessionId, ip, ua, now, form);
    var r := UpdateSearchResults(logged, "", 0);
    assert RecentlyLogged(logged, "", sessionId, now);
    var k := MostRecentIndex(logged, "").value;
    assert r[k].query == "" && r[k].shouldAddToKb;
  }

  // ---------------------------------------------------------------------
  // ChatHistoryView

  datatype HistoryResponse =
    | History(messages: seq<ChatMessage>)
    | HistoryError(status: int, error: string)

  /** The page size of the history endpoint. */
  const HistoryLimit := 50

  /** `ChatHistoryView.get`: 400 without a session id, 404 for an unknown
      session, otherwise the session's messages in table order cut to the
      first 50, which on the oldest-first table are its 50 oldest. */
  function ChatHistoryGet(sessions: seq<ChatSession>, messages: seq<ChatMessage>, sessionId: string): (r: HistoryResponse)
    ensures sessionId == "" ==> r == HistoryError(400, "Session ID required")
    ensures sessionId != "" && !KnownSession(sessions, sessionId) ==> r == HistoryError(404, "Session not found")
    ensures sessionId != "" && KnownSession(sessions, sessionId) ==>
      && r.History?
      && IsPrefix(r.messages, SessionMessages(messages, sessionId))
      && |r.messages| == (if |SessionMessages(messages, sessionId)| <= HistoryLimit then |SessionMessages(messages, sessionId)| else HistoryLimit)
      && (forall i :: 0 <= i < |r.messages| ==> r.messages[i].sessionId == sessionId)
  {
    if sessionId == "" then HistoryError(400, "Session ID required")
    else if !KnownSession(sessions, sessionId) then HistoryError(404, "Session not found")
    else History(Take(SessionMessages(messages, sessionId), HistoryLimit))
  }

  /** On an oldest-first table, every returned message is no later than any
      message of the session that was left out. */
  lemma HistoryKeepsOldest(sessions: seq<ChatSession>, messages: seq<ChatMessage>, sessionId: string)
    requires OldestFirst(messages)
    requires ChatHistoryGet(sessions, messages, sessionId).History?
    ensures var shown := ChatHistoryGet(sessions, messages, sessionId).messages;
      var all := SessionMessages(messages, sessionId);
      forall i, j :: 0 <= i < |shown| <= j < |all| ==> shown[i].timestamp <= all[j].timestamp
  {
    var all := SessionMessages(messages, sessionId);
    SubsequenceKeepsOldestFirst(all, messages);
  }
}

=== FILE: voice.dfy ===
/** agent/voice_utils.py: the voice-message status machine, keyword emotion
    detection, the size-based duration and confidence estimates, audio file
    validation and voice-command intents. The speech-to-text service's
    answer is an input; text-to-speech and language detection are fixed
    placeholders and are not part of this model. */
module Voice {
  import opened Common
  import opened Text

  // ---------------------------------------------------------------------
  // VoiceProcessor.process_voice_message

  datatype VoiceStatus = Uploading | Processing | Completed | Failed

  /** The `VoiceMessage` columns the processor reads and writes, plus the
      content of its chat message (`None`: no chat message is linked). */
  datatype VoiceRecord = VoiceRecord(
    hasAudio: bool,
    duration: Option<real>,
    status: VoiceStatus,
    transcription: string,
    confidence: Option<real>,
    detectedLanguage: string,
    emotion: string,
    errorMessage: string,
    processedAt: Option<int>,
    chatContent: Option<string>)

  /** What the speech-to-text service answered; missing keys are `None`. */
  datatype Transcription =
    | Transcribed(text: string, confidence: Option<real>, language: Option<string>)
    | TranscriptionFailed(error: Option<string>)

  datatype VoiceResult =
    | VoiceRefused(refusal: string)
    | VoiceProcessed(success: bool, transcription: string, confidence: Option<real>,
                     language: string, emotion: string, error: Option<string>)

  const MaxVoiceDuration: real := 300.0
  const NoAudio := "No audio file provided"
  const AudioTooLong := "Audio too long (max 5 minutes)"
  const AudioFileTooLong := "Audio file too long"
  const TranscriptionFailedText := "Transcription failed"

  /** `process_voice_message`: the record goes to processing; without audio
      it stays there and the call fails; an audio longer than five minutes
      fails the record; otherwise the transcription completes the record
      (the linked chat message shows it after a microphone) or fails it
      with the service's error. The returned error is set exactly when the
      record ends failed. */
  function ProcessVoiceMessage(v: VoiceRecord, stt: Transcription, now: int): (out: (VoiceRecord, VoiceResult))
    ensures var (w, res) := out;
      && w.hasAudio == v.hasAudio && w.duration == v.duration
      && (w.status == Processing <==> !v.hasAudio)
      && (!v.hasAudio ==> res == VoiceRefused(NoAudio) && w == v.(status := Processing))
      && (v.hasAudio && v.duration.Some? && v.duration.value > MaxVoiceDuration ==>
            res == VoiceRefused(AudioFileTooLong) && w == v.(status := Failed, errorMessage := AudioTooLong))
      && (res.VoiceProcessed? <==> v.hasAudio && !(v.duration.Some? && v.duration.value > MaxVoiceDuration))
      && (res.VoiceProcessed? ==>
            && (res.success <==> stt.Transcribed?)
            && (res.success <==> w.status == Completed)
            && (res.error.Some? <==> w.status == Failed)
            && (res.error.Some? ==> res.error.value == w.errorMessage))
      && (res.VoiceProcessed? && stt.Transcribed? ==>
            && w.transcription == stt.text
            && w.confidence == Some(stt.confidence.GetOr(0.8))
            && w.detectedLanguage == stt.language.GetOr("ru")
            && w.processedAt == Some(now)
            && w.emotion == EmotionValue(DetectEmotion(stt.text))
            && w.errorMessage == v.errorMessage
            && res.transcription == stt.text && res.emotion == w.emotion
            && (v.chatContent.Some? ==> w.chatContent == Some("🎤 " + stt.text))
            && (v.chatContent.None? ==> w.chatContent.None?))
      && (res.VoiceProcessed? && stt.TranscriptionFailed? ==>
            w == v.(status := Failed, errorMessage := stt.error.GetOr(TranscriptionFailedText)))
  {
    var v := v.(status := Processing);
    if !v.hasAudio then (v, VoiceRefused(NoAudio))
    else if v.duration.Some? && v.duration.value > MaxVoiceDuration then
      (v.(status := Failed, errorMessage := AudioTooLong), VoiceRefused(AudioFileTooLong))
    else
      var w := match stt
        case Transcribed(text, confidence, language) =>
          v.(transcription := text,
             confidence := Some(confidence.GetOr(0.8)),
             detectedLanguage := language.GetOr("ru"),
             emotion := EmotionValue(DetectEmotion(text)),
             status := Completed,
             processedAt := Some(now),
             chatContent := if v.chatContent.Some? then Some("🎤 " + text) else None)
        case TranscriptionFailed(error) =>
          v.(status := Failed, errorMessage := error.GetOr(TranscriptionFailedText));
      (w, VoiceProcessed(stt.Transcribed?, w.transcription, w.confidence, w.detectedLanguage, w.emotion,
                         if w.status == Failed then Some(w.errorMessage) else None))
  }

  /** The status machine: from any status, processing leads to processing
      (no audio), completed or failed, and completed only with a
      transcription. */
  lemma StatusTransitions(v: VoiceRecord, stt: Transcription, now: int)
    ensures var w := ProcessVoiceMessage(v, stt, now).0;
      && w.status in {Processing, Completed, Failed}
      && (w.status == Completed ==> stt.Transcribed? && v.hasAudio)
      && (w.status == Failed ==> v.hasAudio)
  {
  }

  // ---------------------------------------------------------------------
  // VoiceProcessor._detect_emotion

  datatype Emotion = Happy | Sad | Angry | Excited | Confused | Frustrated | NeutralEmotion

  const EmotionOrder: seq<Emotion> := [Happy, Sad, Angry, Excited, Confused, Frustrated]

  /** Each place in `EmotionOrder` holds the emotion whose index it is. */
  lemma EmotionAt(k: nat)
    requires k < |EmotionOrder|
    ensures EmotionOrder[k] != NeutralEmotion && EmotionIndex(EmotionOrder[k]) == k
  {
  }

  function EmotionValue(e: Emotion): string {
    match e
    case Happy => "happy"
    case Sad => "sad"
    case Angry => "angry"
    case Excited => "excited"
    case Confused => "confused"
    case Frustrated => "frustrated"
    case NeutralEmotion => "neutral"
  }

  function EmotionIndex(e: Emotion): (i: nat)
    requires e != NeutralEmotion
    ensures i < |EmotionOrder| && EmotionOrder[i] == e
  {
    match e
    case Happy => 0
    case Sad => 1
    case Angry => 2
    case Excited => 3
    case Confused => 4
    case Frustrated => 5
  }

  function EmotionWords(e: Emotion): seq<string> {
    match e
    case Happy => ["спасибо", "отлично", "класс", "здорово", "радуюсь", "рад"]
    case Sad => ["грустно", "печально", "расстроен", "жаль", "плохо"]
    case Angry => ["злой", "бесит", "раздражает", "достало", "ненавижу"]
    case Excited => ["круто", "восторг", "потрясающе", "вау", "супер"]
    case Confused => ["не понимаю", "запутался", "сложно", "непонятно"]
    case Frustrated => ["не работает", "проблема", "ошибка", "не получается"]
    case NeutralEmotion => []
  }

  function EmotionScore(text: string, e: Emotion): nat {
    CountContained(EmotionWords(e), Lower(text))
  }

  function EmotionScores(text: string): (scores: seq<int>)
    ensures |scores| == |EmotionOrder|
    ensures forall i :: 0 <= i < |EmotionOrder| ==> scores[i] == EmotionScore(text, EmotionOrder[i])
  {
    seq(|EmotionOrder|, i requires 0 <= i < |EmotionOrder| => EmotionScore(text, EmotionOrder[i]) as int)
  }

  /** `_detect_emotion`: neutral for an empty text or one without any
      keyword; otherwise the emotion with the most keywords, the earliest
      in dictionary order on a tie. */
  function DetectEmotion(text: string): (e: Emotion)
    ensures text == "" ==> e == NeutralEmotion
    ensures e == NeutralEmotion <==> text == "" || forall i :: 0 <= i < |EmotionOrder| ==> EmotionScore(text, EmotionOrder[i]) == 0
    ensures e != NeutralEmotion ==>
      && EmotionScore(text, e) > 0
      && (forall i :: 0 <= i < |EmotionOrder| ==> EmotionScore(text, EmotionOrder[i]) <= EmotionScore(text, e))
      && (forall j :: 0 <= j < EmotionIndex(e) ==> EmotionScore(text, EmotionOrder[j]) < EmotionScore(text, e))
  {
    if text == "" then NeutralEmotion
    else
      var scores := EmotionScores(text);
      var k := ArgMaxFirst(scores);
      EmotionAt(k);
      if scores[k] > 0 then EmotionOrder[k] else NeutralEmotion
  }

  // ---------------------------------------------------------------------
  // Size-based estimates

  function Clamp(x: real, lo: real, hi: real): (r: real)
    requires lo <= hi
    ensures lo <= r <= hi
    ensures lo <= x <= hi ==> r == x
    ensures x < lo ==> r == lo
    ensures x > hi ==> r == hi
  {
    if x < lo then lo else if x > hi then hi else x
  }

  /** `get_audio_duration`: a kilobyte a second, between one second and
      five minutes; a file without a size counts as 1000 bytes. */
  function AudioDuration(size: Option<nat>): (d: real)
    ensures 1.0 <= d <= 300.0
    ensures var s := size.GetOr(1000) as real; 1.0 <= s / 1024.0 <= 300.0 ==> d == s / 1024.0
    ensures var s := size.GetOr(1000) as real; s / 1024.0 < 1.0 ==> d == 1.0
    ensures var s := size.GetOr(1000) as real; s / 1024.0 > 300.0 ==> d == 300.0
  {
    Clamp(size.GetOr(1000) as real / 1024.0, 1.0, 300.0)
  }

  /** A larger file is never estimated shorter. */
  lemma AudioDurationMonotone(a: nat, b: nat)
    requires a <= b
    ensures AudioDuration(Some(a)) <= AudioDuration(Some(b))
  {
    assert a as real / 1024.0 <= b as real / 1024.0;
  }

  /** The placeholder speech-to-text confidence: size over 10000, between
      0.6 and 0.95. */
  function TranscriptionConfidence(size: Option<nat>): (c: real)
    ensures 0.6 <= c <= 0.95
    ensures var s := size.GetOr(1000) as real; 0.6 <= s / 10000.0 <= 0.95 ==> c == s / 10000.0
    ensures var s := size.GetOr(1000) as real; s / 10000.0 < 0.6 ==> c == 0.6
    ensures var s := size.GetOr(1000) as real; s / 10000.0 > 0.95 ==> c == 0.95
  {
    Clamp(size.GetOr(1000) as real / 10000.0, 0.6, 0.95)
  }

  /** No estimated duration exceeds the processor's limit, so a record
      whose duration was estimated is never refused as too long. */
  lemma EstimatedDurationIsNeverTooLong(v: VoiceRecord, size: Option<nat>, stt: Transcription, now: int)
    requires v.hasAudio && v.duration == Some(AudioDuration(size))
    ensures ProcessVoiceMessage(v, stt, now).1.VoiceProcessed?
  {
  }

  // ---------------------------------------------------------------------
  // validate_audio_file

  const SupportedAudioFormats: seq<string> := ["webm", "wav", "mp3", "ogg", "m4a"]
  const MaxAudioSize := 10 * 1024 * 1024
  const AudioFileTooLarge := "File too large (max 10MB)"
  const UnsupportedAudioFormat := "Unsupported format. Supported: webm, wav, mp3, ogg, m4a"

  datatype AudioValidation = ValidAudio(format: string, size: nat) | InvalidAudio(error: string)

  /** `validate_audio_file`: more than 10 MiB is refused first; then the
      extension must be one of five formats, and is echoed back with the
      size (0 when the file has none). */
  function ValidateAudioFile(size: Option<nat>, name: Option<string>): (r: AudioValidation)
    ensures size.Some? && size.value > MaxAudioSize ==> r == InvalidAudio(AudioFileTooLarge)
    ensures r.ValidAudio? <==> !(size.Some? && size.value > MaxAudioSize) && Extension(name.GetOr("")) in SupportedAudioFormats
    ensures r.ValidAudio? ==> r.format == Extension(name.GetOr("")) && r.size == size.GetOr(0) <= MaxAudioSize
    ensures r.InvalidAudio? && !(size.Some? && size.value > MaxAudioSize) ==> r.error == UnsupportedAudioFormat
  {
    if size.Some? && size.value > MaxAudioSize then InvalidAudio(AudioFileTooLarge)
    else
      var ext := Extension(name.GetOr(""));
      if ext !in SupportedAudioFormats then InvalidAudio(UnsupportedAudioFormat)
      else ValidAudio(ext, size.GetOr(0))
  }

  /** A valid audio file's name ends, in any letter case, with '.' and its
      format. */
  lemma ValidAudioNameEndsWithFormat(size: Option<nat>, name: string)
    requires ValidateAudioFile(size, Some(name)).ValidAudio?
    ensures var f := ValidateAudioFile(size, Some(name)).format;
      IsSuffix("." + f, Lower(name))
  {
    var f := Extension(name);
    assert f != "";
    DotThenSuffix(Lower(name), f);
  }

  // ---------------------------------------------------------------------
  // VoiceCommandProcessor.detect_intent

  datatype VoiceIntent = Search | Schedule | Grades | Help | Clear | General | Unknown

  const CommandOrder: seq<VoiceIntent> := [Search, Schedule, Grades, Help, Clear]

  /** Each place in `CommandOrder` holds the command whose index it is. */
  lemma CommandAt(k: nat)
    requires k < |CommandOrder|
    ensures CommandOrder[k] in {Search, Schedule, Grades, Help, Clear} && CommandIndex(CommandOrder[k]) == k
  {
  }

  function CommandIndex(i: VoiceIntent): (k: nat)
    requires i in {Search, Schedule, Grades, Help, Clear}
    ensures k < |CommandOrder| && CommandOrder[k] == i
  {
    match i
    case Search => 0
    case Schedule => 1
    case Grades => 2
    case Help => 3
    case Clear => 4
  }

  function CommandWords(i: VoiceIntent): seq<string> {
    match i
    case Search => ["найди", "поиск", "найти", "искать"]
    case Schedule => ["расписание", "пары", "занятия", "лекции"]
    case Grades => ["оценки", "баллы", "результаты", "экзамен"]
    case Help => ["помощь", "справка", "как", "что делать"]
    case Clear => ["очистить", "удалить", "сброс", "начать заново"]
    case General => []
    case Unknown => []
  }

  function CommandCount(text: string, i: VoiceIntent): nat {
    CountContained(CommandWords(i), Lower(text))
  }

  function CommandCounts(text: string): (counts: seq<int>)
    ensures |counts| == |CommandOrder|
    ensures forall k :: 0 <= k < |CommandOrder| ==> counts[k] == CommandCount(text, CommandOrder[k])
  {
    seq(|CommandOrder|, k requires 0 <= k < |CommandOrder| => CommandCount(text, CommandOrder[k]) as int)
  }

  /** Every command has four keywords. */
  lemma FourWordsEach(k: nat)
    requires k < |CommandOrder|
    ensures |CommandWords(CommandOrder[k])| == 4
  {
  }

  /** The share of a command's keywords present in the text. */
  function Share(text: string, i: VoiceIntent): real
    requires i in CommandOrder
  {
    var n := |CommandWords(i)|;
    if n == 0 then 0.0 else CommandCount(text, i) as real / n as real
  }

  /** With four keywords a command, the share is the count over four, so
      ranking by share ranks by count. */
  lemma ShareIsCountOverFour(text: string, k: nat)
    requires k < |CommandOrder|
    ensures Share(text, CommandOrder[k]) == CommandCount(text, CommandOrder[k]) as real / 4.0
  {
    FourWordsEach(k);
  }

  /** `detect_intent`: unknown with confidence 0 for an empty text; general
      with 0.5 when no command keyword occurs; otherwise the command with
      the most keywords present (hence the largest share, as every command
      has four), the earliest on a tie, with that share as the
      confidence. */
  function DetectIntent(text: string): (r: (VoiceIntent, real))
    ensures r.0 == Unknown <==> text == ""
    ensures text == "" ==> r.1 == 0.0
    ensures r.0 == General <==> text != "" && forall k :: 0 <= k < |CommandOrder| ==> CommandCount(text, CommandOrder[k]) == 0
    ensures r.0 == General ==> r.1 == 0.5
    ensures r.0 in CommandOrder ==>
      && r.1 == CommandCount(text, r.0) as real / 4.0
      && 0.0 < r.1 <= 1.0
      && (forall k :: 0 <= k < |CommandOrder| ==> CommandCount(text, CommandOrder[k]) <= CommandCount(text, r.0))
      && (forall j :: 0 <= j < CommandIndex(r.0) ==> CommandCount(text, CommandOrder[j]) < CommandCount(text, r.0))
  {
    if text == "" then (Unknown, 0.0)
    else
      var counts := CommandCounts(text);
      var k := ArgMaxFirst(counts);
      if counts[k] == 0 then (General, 0.5)
      else
        var i := CommandOrder[k];
        CommandAt(k);
        FourWordsEach(k);
        (i, counts[k] as real / 4.0)
  }
}
